=== FILE: README.md ===
# Soower recurring donations: subscription lifecycle and payment reconciliation

Soower lets donors back projects with recurring donations. A donor creates a
subscription (weekly, monthly, quarterly, annually, or every N days). The
back end opens a checkout with the payment gateway and records a PENDING
payment under the checkout reference. Payments are settled in two ways:

- the donor's browser asks for the reference to be verified;
- the gateway's webhook reports charges, mandates and failed invoices.

A daily scheduler sends payment reminders and expires overdue subscriptions.
Donors read in-app notifications. Administrators manage projects, toggle
donor accounts and read revenue figures. Four donor pages do some
arithmetic of their own:

- the dashboard;
- a project's page with its donation form;
- the subscription list;
- the notification list.

This project models that core as pure state transitions over an immutable
database value, a `Store`. The store holds:

- maps of users, projects, subscriptions, payments and notifications, keyed
  by id;
- the unique index from payment reference to payment;
- the next free id.

Each request is a function from a store and its inputs to a `Reply`: the new
store, the HTTP status, and the gateway requests it made. Instants are
integer milliseconds. Month and year steps go through a calendar module
that follows the ECMAScript `MakeDay` rules, so January 31st plus a month
rolls over to early March rather than clamping. Whatever lies outside the
program (the gateway, the clock, random bytes, the webhook signature) is a
parameter.

Modules, one per file:

| module | file | what it holds |
|---|---|---|
| `Wrappers` | wrappers.dfy | `Option`, `Result` |
| `Calendar` | calendar.dfy | civil dates, `MakeDay`, `setDate`/`setMonth`/`setFullYear` steps |
| `Helpers` | helpers.dfy | `calculateNextPaymentDate`, interval mapping, references, the e-mail check |
| `Gateway` | gateway.dfy | gateway answers, requests and payloads |
| `Store` | store.dfy | entities, the store, its invariant `Valid`, row writes |
| `Listing` | listing.dfy | filtered scans, newest-first ordering, `skip`/`take` pages |
| `Notifications` | notifications.dfy | the notification service |
| `Subscriptions` | subscriptions.dfy | the subscription controller |
| `Payments` | payments.dfy | verification and the webhook |
| `Scheduler` | scheduler.dfy | the reminder sweep and the expiry sweep |
| `Projects` | projects.dfy | the project controller |
| `Validation` | validation.dfy | the subscription routes' body rules |
| `Admin` | admin.dfy | donor toggle, growth percentage, revenue analytics |
| `Dashboard` | dashboard.dfy | the donor dashboard's figures |
| `ProjectPage` | donation.dfy | progress bar and donation form |
| `SubscriptionCards` | mysubscriptions.dfy | buttons, badges, next payment on the subscription list |
| `Inbox` | inbox.dfy | relative times, unread count and local updates on the notification list |

## Model

| member | source | states |
|---|---|---|
| Helpers.CalculateNextPaymentDate | backend/src/utils/helpers.js:11-37 | WEEKLY is exactly seven days later. MONTHLY, QUARTERLY and ANNUALLY land on the date 1, 3 and 12 months on, rolled over and not clamped, at the same time of day. CUSTOM adds the day count when it is truthy and otherwise returns the start. Every non-CUSTOM result is later than the start. |
| Helpers.UnknownIntervalIsMonthly | backend/src/utils/helpers.js:32-33 | Any interval string other than the five names gives exactly the MONTHLY result. |
| Helpers.NextPaymentDateLater | backend/src/utils/helpers.js:11-37 | The next date is later than the start if and only if the interval is not CUSTOM or the day count is positive. |
| Helpers.MonthlyRollsOver | backend/src/utils/helpers.js:18-20 | Jan 31 plus one month is Mar 3 in a common year and Mar 2 in a leap year. Feb 29 plus twelve months is Mar 1. |
| Helpers.ParseIntervalName | backend/src/utils/helpers.js:14-33 | Reading back the name of each of the five intervals gives that interval. |
| Helpers.MapToGatewayInterval | backend/src/utils/helpers.js:40-48 | The four gateway intervals map to their lower-case names. Any other name, CUSTOM included, maps to 'monthly', except the names every object inherits from `Object.prototype`. |
| Helpers.ToMinorUnits | backend/src/services/paystackService.js:26 | The kobo amount is within half a unit of amount × 100, as `Math.round` rounds. |
| Helpers.WholeAmountsConvertExactly | backend/src/services/paystackService.js:26 | A whole naira amount converts to exactly 100 times itself. |
| Helpers.GenerateReference | backend/src/utils/helpers.js:4-8 | The reference is the upper-cased prefix, base-36 timestamp and 8 hex digits, joined by '_'. It has no lower-case letter and has the stated length. |
| Helpers.DefaultReferencePrefix | backend/src/utils/helpers.js:4-8 | A reference made with the default prefix starts with "SOW_". |
| Helpers.ReferenceRoundTrip | backend/src/utils/helpers.js:4-8 | Parsing a generated reference gives back the upper-cased prefix, the timestamp and the four random bytes. |
| Helpers.Base36RoundTrip | backend/src/utils/helpers.js:5 | The upper-cased base-36 form of a timestamp reads back to the timestamp. |
| Helpers.HexRoundTrip | backend/src/utils/helpers.js:6 | The upper-cased hex form of the random bytes decodes to the same bytes. |
| Helpers.IsValidEmailMatchesPattern | backend/src/utils/helpers.js:59-62 | The check accepts exactly the strings that match the pattern: no whitespace, exactly one '@', a non-empty local part, and a domain with a '.' that has text on both sides. |
| Helpers.EmailAccepted | backend/src/utils/helpers.js:59-62 | "a@b.c" is accepted. |
| Helpers.EmailWithoutDotRejected | backend/src/utils/helpers.js:59-62 | "a@b" is refused. |
| Helpers.EmailWithTwoAtsRejected | backend/src/utils/helpers.js:59-62 | "a@b@c.d" is refused. |
| Calendar.SetDatePlusExact | backend/src/utils/helpers.js:16 | `setDate(getDate() + k)` moves an instant by exactly k whole days. |
| Calendar.SetMonthPlusCivil | backend/src/utils/helpers.js:19 | `setMonth(getMonth() + k)` lands on the same day of the month k months on, rolled over into the next month if that day does not exist, at the same time of day. |
| Calendar.SetMonthPlusGrows | backend/src/utils/helpers.js:19-22 | k months on is at least 28·k days later. |
| Calendar.SetFullYearIsTwelveMonths | backend/src/utils/helpers.js:25 | `setFullYear(getFullYear() + k)` is the same as a step of 12·k months. |
| Listing.Paginate | backend/src/services/notificationService.js:25-49 | A page exists exactly when the skip is non-negative. A non-negative take gives at most `limit` items, each the list element at skip + k, and a full page whenever the list reaches past it. A negative take gives at most `-limit` items, the ones just before the last `skip`, in list order, and every remaining row when fewer than `-limit` remain. The total is the list's length and `pages` is its page count. |
| Listing.NegativeTakeReadsTail | backend/src/services/notificationService.js:25-39 | On the first page, a negative limit lists the last `-limit` items of the list, or the whole of a shorter list. |
| Listing.PageCount | backend/src/services/notificationService.js:48 | `pages` is the least whole number at or above total / limit, for a positive and for a negative limit alike. It is none (not a number) for a zero limit, and 0 for no matches. |
| Listing.PaginateCovers | backend/src/services/notificationService.js:25-49 | Element i of the list is on page i / limit + 1. |
| Listing.Scan | backend/src/services/notificationService.js:33-39 | The scan holds exactly the accepted rows below the bound, in ascending id order. |
| Listing.SortDesc | backend/src/services/notificationService.js:35 | The result is ordered by the key, descending, and is a permutation of its input. |
| Listing.SortDescSameElements | backend/src/services/notificationService.js:35 | Sorting keeps membership and length. |
| Listing.Query | backend/src/services/notificationService.js:32-48 | A page of the query holds only accepted rows, ordered newest first, at most `limit` of them (`-limit` for a negative limit). Its total is the count of accepted rows and its `pages` that count's page count. |
| Listing.ListingComplete | backend/src/services/notificationService.js:32-40 | With a positive limit, every accepted row is on some page. |
| Listing.CountZero | backend/src/services/notificationService.js:70-74 | A count is zero exactly when no row matches. |
| Listing.CountIsAccepted | backend/src/services/notificationService.js:70-74 | A count is the number of rows the filter accepts. |
| Listing.First | backend/src/controllers/paymentController.js:246-249 | `findFirst` gives the least accepted id, or none when no row is accepted. |
| Store.PaymentByReference | backend/src/controllers/paymentController.js:147-149 | On a valid store, the lookup finds the unique payment carrying the reference, or reports that no payment carries it. |
| Store.ReferencesUnique | backend/src/controllers/paymentController.js:38-39 | Two payments with the same reference are the same payment. |
| Notifications.CreateNotification | backend/src/services/notificationService.js:5-21 | A create adds exactly one new unread notification with the given fields under a fresh id, and changes nothing else. |
| Notifications.UserNotifications | backend/src/services/notificationService.js:24-51 | A listing exists exactly when the skip is non-negative, and it has at most `limit` items (`-limit` for a negative limit). Its total is the number of the user's matching notifications (the unread count when only unread ones are asked for), and `pages` is the least whole number at or above total / limit. |
| Notifications.ListingShowsOnlyMatches | backend/src/services/notificationService.js:27-38 | A page lists only the user's notifications, and only unread ones when asked. The page is ordered by creation time, newest first. |
| Notifications.ListingIsComplete | backend/src/services/notificationService.js:27-40 | With a positive limit, every matching notification is on some page. |
| Notifications.UnreadCountZero | backend/src/services/notificationService.js:70-74 | The unread count is zero exactly when all of the user's notifications are read. |
| Notifications.MarkAsRead | backend/src/services/notificationService.js:54-59 | One row is updated exactly when the id exists and belongs to the user. Then that row alone becomes read. Otherwise nothing changes. |
| Notifications.MarkAllAsRead | backend/src/services/notificationService.js:62-67 | Every unread notification of the user becomes read and nothing else changes. The count is the user's unread count. |
| Notifications.MarkAllLeavesNoneUnread | backend/src/services/notificationService.js:62-74 | After marking all read, the user's unread count is zero. |
| Notifications.MarkAllIdempotent | backend/src/services/notificationService.js:62-67 | A second mark-all leaves the store as the first left it and updates no row. |
| Notifications.MarkAllLeavesOthers | backend/src/services/notificationService.js:62-67 | Other users' unread counts are unchanged. |
| Notifications.Notify | backend/src/services/notificationService.js:77-94 | A missing user or project leaves the store unchanged. Otherwise one notification of the given type is added, whose metadata holds the source id, the project and the amount. |
| Notifications.SendPaymentReminder | backend/src/services/notificationService.js:77-94 | With the donor and the project on file, exactly one notification is added under the next id: unread, to the subscription's donor, of type payment_reminder, carrying the subscription's id, project and amount. Otherwise nothing changes. |
| Notifications.SendPaymentSuccess | backend/src/services/notificationService.js:101-118 | With the donor and the project on file, exactly one notification is added under the next id: unread, to the payment's donor, of type payment_success, carrying the payment's id, project and amount. Otherwise nothing changes. |
| Notifications.SendPaymentFailed | backend/src/services/notificationService.js:125-142 | With the donor and the project on file, exactly one notification is added under the next id: unread, to the payment's donor, of type payment_failed, carrying the payment's id, project and amount. Otherwise nothing changes. |
| Notifications.NotifyTouchesOnlyNotifications | backend/src/services/notificationService.js:77-94 | A notice changes no user, project, subscription or payment. |
| Subscriptions.Owned | backend/src/controllers/subscriptionController.js:214-216 | The lookup finds a subscription exactly when the id exists and belongs to the user. |
| Subscriptions.CreateSubscription | backend/src/controllers/subscriptionController.js:6-118 | It is 404 exactly when the project is missing or inactive, and then nothing changes and no gateway request is sent. An existing ACTIVE subscription of the user to the project gives 400 and changes nothing. A failed or throwing checkout creates nothing. The create succeeds exactly when all the guards pass. Success adds one ACTIVE subscription, due one interval on, and one PENDING payment under the checkout reference. The gateway requests are the plan (non-CUSTOM only) and then the checkout, in kobo. |
| Subscriptions.StartCheckout | backend/src/controllers/subscriptionController.js:37-99 | A missing user throws. Otherwise the checkout request carries the user's e-mail. A refused checkout is 400 and a throwing one 500, both with no write. |
| Subscriptions.Persist | backend/src/controllers/subscriptionController.js:74-99 | A reference that is already taken leaves the new subscription written and answers 500. Otherwise the subscription and its PENDING payment are both added. |
| Subscriptions.Updated | backend/src/controllers/subscriptionController.js:233-243 | A falsy amount or interval keeps the stored value. The day count is replaced only when the new interval is CUSTOM. Status, owner and project are kept. The due date is recomputed from the request time. |
| Subscriptions.UpdateSubscription | backend/src/controllers/subscriptionController.js:208-259 | Another user's or a missing subscription gives 404 and no change. It succeeds exactly when the subscription is ACTIVE. Then only that row changes, and no gateway request is sent. |
| Subscriptions.UpdateRecomputesDueDate | backend/src/controllers/subscriptionController.js:239-242 | After an update, the due date is one new interval from the request time. |
| Subscriptions.MandateCalls | backend/src/controllers/subscriptionController.js:286-291 | A mandate request is sent exactly when both the subscription code and the e-mail token are present. |
| Subscriptions.Transition | backend/src/controllers/subscriptionController.js:262-426 | The shared shape of pause, resume and cancel: 404 when the subscription is not the user's, 400 when its status refuses the move, 500 with no write when the mandate call throws. Otherwise only that row changes. |
| Subscriptions.PauseSubscription | backend/src/controllers/subscriptionController.js:262-311 | It succeeds exactly for the user's ACTIVE subscription whose mandate call does not throw, and makes it PAUSED. The disable request is sent only when there is a mandate. |
| Subscriptions.ResumeSubscription | backend/src/controllers/subscriptionController.js:314-371 | It succeeds exactly for the user's PAUSED subscription. It makes the subscription ACTIVE, due one interval from now, and sends the enable request when there is a mandate. |
| Subscriptions.CancelSubscription | backend/src/controllers/subscriptionController.js:374-426 | It succeeds for the user's subscription in any status but CANCELLED. It makes the subscription CANCELLED with its end date now. |
| Subscriptions.OtherUsersSubscriptionNotFound | backend/src/controllers/subscriptionController.js:214-223 | Update, pause, resume and cancel of another user's subscription all answer 404 and change nothing. |
| Subscriptions.CancelAcceptsEveryLiveStatus | backend/src/controllers/subscriptionController.js:390-395 | Cancel succeeds exactly when the status is not CANCELLED, EXPIRED included. |
| Subscriptions.CancelledIsFinal | backend/src/controllers/subscriptionController.js:225-230 | A cancelled subscription refuses update, pause, resume and cancel with 400 and no change. |
| Subscriptions.PauseThenResume | backend/src/controllers/subscriptionController.js:278-356 | Pause then resume gives back the original row with only its due date recomputed. The gateway sees a disable, then an enable, of the same mandate. |
| Payments.Credit | backend/src/controllers/paymentController.js:72-79 | The increment succeeds exactly when the project exists. It adds the amount to that project's total alone. |
| Payments.MarkFailed | backend/src/controllers/paymentController.js:24-27 | Every payment under the reference becomes FAILED, and every other payment is unchanged. |
| Payments.Settled | backend/src/controllers/paymentController.js:38-46 | The payment becomes SUCCESS with the gateway's paid time and payload. An absent transaction id keeps the stored one. |
| Payments.AfterVerify | backend/src/controllers/paymentController.js:49-69 | The last payment date becomes now. The customer code comes from an authorised transaction. With a plan and a non-empty subscription code, the mandate code is written, and so is the e-mail token when the transaction carries one. Otherwise both are kept. Status, due date and amount are kept. |
| Payments.SettleVerified | backend/src/controllers/paymentController.js:38-79 | Settles the payment, updates its subscription if it has one, and credits its project with the amount. A missing row stops at the step that throws, keeping the writes before it. |
| Payments.VerifyPayment | backend/src/controllers/paymentController.js:8-97 | A missing or empty reference is 400 with no change and no request. A refused answer marks the reference's payments FAILED and answers 400. A throw is 500 with no change. An unknown reference is 500. Otherwise the payment is settled. |
| Payments.FailedVerifyOverwritesSuccess | backend/src/controllers/paymentController.js:22-33 | A failed verification turns a SUCCESS payment under the reference FAILED, and writes nothing but payments. |
| Payments.VerifyCredits | backend/src/controllers/paymentController.js:38-79 | A successful verification marks the payment SUCCESS and adds its amount to its project. It sets the subscription's last payment date and keeps its status and due date. |
| Payments.VerifyTwiceCreditsTwice | backend/src/controllers/paymentController.js:72-79 | Two successful verifications of one reference add the amount to the project twice. |
| Payments.ByCode | backend/src/controllers/paymentController.js:246-249 | The lookup finds a subscription carrying the code, or reports that none does. |
| Payments.Renewed | backend/src/controllers/paymentController.js:182-191 | The last payment date becomes now, and the due date is one interval from now. Nothing else changes. |
| Payments.ChargePayment | backend/src/controllers/paymentController.js:168-179 | The recorded payment is SUCCESS, of amount/100, for the subscription's user and project, under the event's reference. |
| Payments.RecordCharge | backend/src/controllers/paymentController.js:161-204 | A charge for a new reference records the payment, renews the subscription and credits the project. A missing project stops after the first writes. |
| Payments.ChargeSuccess | backend/src/controllers/paymentController.js:143-205 | A known reference only rewrites that payment as SUCCESS, with the paid time and payload. An unknown reference naming no subscription changes nothing. |
| Payments.SubscriptionCreate | backend/src/controllers/paymentController.js:208-230 | An event without its `plan` or `customer` object throws before any write. Otherwise, when no ACTIVE subscription on the plan belongs to a user with the e-mail, nothing changes. When one does, the one with the least id gets the mandate's codes and no other row changes. A plan code or e-mail the event leaves out filters on nothing. |
| Payments.Mandated | backend/src/controllers/paymentController.js:220-228 | The subscription code, e-mail token and customer code are written when the event carries them and kept otherwise. Nothing else in the row changes. |
| Payments.MandateRedeliveryChangesNothing | backend/src/controllers/paymentController.js:208-230 | A second delivery of the same `subscription.create` changes nothing. |
| Payments.MissingObjectAnswersServerError | backend/src/controllers/paymentController.js:208-279 | An event whose handler reads a field of a missing `plan`, `customer` or `subscription` object is answered 500 and writes nothing. |
| Payments.SubscriptionDisable | backend/src/controllers/paymentController.js:233-240 | Every subscription that matches the code becomes CANCELLED, and no other row changes. |
| Payments.InvoiceCreate | backend/src/controllers/paymentController.js:243-254 | An event without its `subscription` object throws before any write. Otherwise the first subscription with the invoice's code gets a reminder. Without one, nothing changes. |
| Payments.FailedPayment | backend/src/controllers/paymentController.js:266-275 | The recorded payment is FAILED, has no reference, and has the subscription's amount. |
| Payments.InvoicePaymentFailed | backend/src/controllers/paymentController.js:257-279 | An event without its `subscription` object throws before any write. Otherwise the first subscription with the code gets one FAILED payment and its notice. Without one, nothing changes. |
| Payments.Webhook | backend/src/controllers/paymentController.js:100-140 | A bad signature is 401 with no change. An unknown event is 200 with no change. The five handled events are dispatched, and a handler that throws gives 500. |
| Payments.KnownChargeTouchesNoTotals | backend/src/controllers/paymentController.js:147-160 | A charge for a reference on file changes no project and no subscription. |
| Payments.RecordedChargeChangesNothing | backend/src/controllers/paymentController.js:151-160 | A charge that the payment already records rewrites nothing. |
| Payments.ChargeRedeliveryChangesNothing | backend/src/controllers/paymentController.js:143-205 | Delivering the same `charge.success` again changes nothing, whether the first delivery was answered 200 or 500 after a partial write. |
| Payments.NewChargeCreditsProject | backend/src/controllers/paymentController.js:161-204 | A charge for a new reference naming a subscription creates one SUCCESS payment of amount/100, advances the due date, and adds amount/100 to the project. |
| Payments.OrphanChargeChangesNothing | backend/src/controllers/paymentController.js:161-167 | A new reference naming no existing subscription changes nothing. |
| Payments.DisableCancelsEveryMatch | backend/src/controllers/paymentController.js:233-240 | Every subscription carrying the code is cancelled, whatever its status, and every other subscription is unchanged. |
| Payments.DisableWithoutCodeCancelsAll | backend/src/controllers/paymentController.js:233-240 | An event without a code cancels every subscription, because the filter on an undefined field matches all rows. |
| Payments.InvoiceFailureRecordsFailedPayment | backend/src/controllers/paymentController.js:257-279 | A failed invoice adds one FAILED payment with no reference, and changes no project or subscription. |
| Payments.MarkFailedKeepsIndex | backend/src/controllers/paymentController.js:24-27 | Marking payments FAILED keeps the reference index exact. |
| Scheduler.ReminderTargets | backend/src/services/schedulerService.js:14-26 | The sweep picks exactly the ACTIVE subscriptions due between midnight today and three days from now, in ascending id order. |
| Scheduler.ReachedBefore | backend/src/services/schedulerService.js:30-37 | Counts the targets before the first one whose reminder throws. |
| Scheduler.SendPaymentReminders | backend/src/services/schedulerService.js:6-38 | With `today` the midnight that starts the day of `now`, the sweep adds notifications and changes nothing else. Every existing notification is kept. |
| Scheduler.RemindersGoToEveryDueSubscription | backend/src/services/schedulerService.js:14-32 | Without a throw, the sweep sends one reminder to each picked subscription, in order, under consecutive ids. |
| Scheduler.ThrowEndsTheSweep | backend/src/services/schedulerService.js:30-37 | A reminder that throws at position j ends the sweep with exactly the j reminders before it. |
| Scheduler.SweepTwiceRemindsTwice | backend/src/services/schedulerService.js:30-32 | Two runs of the sweep send every due subscription two reminders. |
| Scheduler.RemindAllSends | backend/src/services/schedulerService.js:30-32 | The loop sends one reminder per target up to the first throw, and keeps every existing notification. |
| Scheduler.CheckExpiredSubscriptions | backend/src/services/schedulerService.js:41-65 | Exactly the ACTIVE subscriptions due strictly before seven days ago become EXPIRED. Every other row is unchanged. |
| Scheduler.ExpiryCountZero | backend/src/services/schedulerService.js:49-61 | The count of expired rows is zero exactly when no subscription is overdue. |
| Scheduler.ExpiryIdempotent | backend/src/services/schedulerService.js:49-59 | A second run right after the first changes nothing and updates no row. |
| Scheduler.ExpiryBoundaryIsStrict | backend/src/services/schedulerService.js:53 | Due exactly seven days ago is not expired. One millisecond earlier is. |
| Projects.GetProjects | backend/src/controllers/projectController.js:4-49 | The page exists exactly when the skip is non-negative, defaults included. It holds at most `limit` projects (`-limit` for a negative limit). With `active` given, every project's `isActive` equals `active === 'true'`. The page is newest first. Its total is the number of projects passing the filter, and `pages` is the least whole number at or above total / limit. |
| Projects.EveryMatchingProjectListed | backend/src/controllers/projectController.js:9-26 | With a positive limit, every project that passes the filter is on some page. |
| Projects.CreateProject | backend/src/controllers/projectController.js:90-117 | The create adds one project whose goal amount is stored only when it has a goal. `hasGoal` defaults to false and the total starts at 0. |
| Projects.Revised | backend/src/controllers/projectController.js:124-137 | Absent fields keep their values, and a falsy `hasGoal` drops the goal amount. |
| Projects.UpdateProject | backend/src/controllers/projectController.js:120-150 | The update succeeds exactly when the project exists, and rewrites that project alone. A missing project is 500. |
| Projects.WritesKeepGoalConsistent | backend/src/controllers/projectController.js:99-132 | After a create or an update, no project without a goal stores a goal amount. |
| Projects.UpdateWithoutHasGoalDropsGoal | backend/src/controllers/projectController.js:131-132 | An update without `hasGoal` erases the stored goal amount. |
| Projects.DeleteProject | backend/src/controllers/projectController.js:153-183 | The delete is refused with 400 when an ACTIVE subscription names the project. Otherwise the project row alone is deleted, unless the project is missing or the database refuses (500). |
| Projects.InactiveSubscriptionsDoNotBlockDelete | backend/src/controllers/projectController.js:158-169 | PAUSED, CANCELLED and EXPIRED subscriptions do not block a delete. |
| Projects.StatsProgress | backend/src/controllers/projectController.js:242-244 | There is no progress unless the project has a goal and a goal amount. Otherwise progress is min(100, current/goal·100), at most 100, non-negative, and 100 once the goal is reached. |
| Projects.ProgressMonotone | backend/src/controllers/projectController.js:242-244 | Raising more never lowers the progress. |
| Validation.CreateErrors | backend/src/routes/subscriptionRoutes.js:9-19 | Each field is reported exactly when its rule fails: a UUID project, an amount ≥ 100, one of five intervals, and an optional integer day count ≥ 1. |
| Validation.UpdateErrors | backend/src/routes/subscriptionRoutes.js:21-31 | Each field is optional, with the create bounds when present. |
| Validation.CreatePassesIffRulesHold | backend/src/routes/subscriptionRoutes.js:9-19 | A create body passes exactly when all four rules hold. |
| Validation.UpdateRulesAreLooser | backend/src/routes/subscriptionRoutes.js:21-31 | An empty update body passes, and so does the update part of any create body that passes. |
| Validation.PassedIntervalIsKnown | backend/src/routes/subscriptionRoutes.js:12-14 | A body that passes names one of the five intervals. |
| Validation.CustomWithoutDaysPasses | backend/src/routes/subscriptionRoutes.js:15-18 | CUSTOM without a day count passes validation, and then its next payment date is the request time. |
| Validation.GroupsFormUuid | backend/src/routes/subscriptionRoutes.js:10 | Hex groups of 8-4-4-4-12 digits joined by dashes form a UUID. |
| Validation.UuidHasGroups | backend/src/routes/subscriptionRoutes.js:10 | Every UUID is such a join. |
| Admin.GrowthPercentage | backend/src/controllers/adminController.js:101-105 | Over a positive last month, the growth is the percentage change: it gives back the current sum and has the sign of the change. Over a zero last month, the growth is 100 when the current sum is positive and 0 otherwise. |
| Admin.GrowthRecovers | backend/src/controllers/adminController.js:103-104 | Applying the growth to last month's sum gives this month's. |
| Admin.GrowthMissingIsZero | backend/src/controllers/adminController.js:101-102 | A missing sum counts as zero. |
| Admin.ToggleDonorStatus | backend/src/controllers/adminController.js:274-311 | A missing user or an administrator gives 404 and no change. Otherwise only that user's `isActive` flips. |
| Admin.ToggleTwiceRestores | backend/src/controllers/adminController.js:286-289 | Toggling twice gives back the original store. |
| Admin.MonthCount | backend/src/controllers/adminController.js:316-322 | The loop runs `period` times, 12 by default, and never for a count that is not a number or not positive. |
| Admin.WindowsFromDateConstructors | backend/src/controllers/adminController.js:323-324 | The month windows are the instants given by `new Date(y, m - i, 1)` and `new Date(y, m - i + 1, 0)`. |
| Admin.EntryOf | backend/src/controllers/adminController.js:326-339 | An entry is labelled by its window's first instant, and its transaction count is the number of successful payments paid within the window. |
| Admin.EmptyMonth | backend/src/controllers/adminController.js:326-338 | A month has no transactions exactly when no successful payment falls in its window, and then its revenue is 0. |
| Admin.RecordedPaymentCounts | backend/src/controllers/adminController.js:326-339 | Recording a successful payment paid within a month's window adds its amount to the month's revenue and one to its count. A payment outside the window leaves the entry unchanged. |
| Admin.MonthsBack | backend/src/controllers/adminController.js:322 | The list covers `count` consecutive months ending with the current one. |
| Admin.Aggregates | backend/src/controllers/adminController.js:322-340 | One entry per month, in order: entry k is the `aggregate` over month k's window, with its revenue and count. |
| Admin.RevenueAnalytics | backend/src/controllers/adminController.js:314-354 | The list has exactly `period` entries, and entry k is the revenue and count of the month `period - 1 - k` months before the current one. |
| Admin.LastMonths | backend/src/controllers/adminController.js:322-340 | The loop from `months - 1` down to 0 gives `n` entries, entry k being the month `n - 1 - k` months back. |
| Admin.AnalyticsOldestFirst | backend/src/controllers/adminController.js:322-340 | Entries are ordered oldest month first, and the last is the current month. |
| Admin.WindowStartsIncrease | backend/src/controllers/adminController.js:323 | A later month's window starts later. |
| Admin.AsWrittenMissesLastDay | backend/src/controllers/adminController.js:324-329 | The instant just after a month's end bound lies in that whole month, but in no month's window as written. |
| Admin.WholeMonthsPartition | backend/src/controllers/adminController.js:323-329 | With whole-month windows, every instant lies in exactly one month's window. |
| Admin.WholeMonthsDisjoint | backend/src/controllers/adminController.js:323-329 | Two whole-month windows that share an instant are the same month's. |
| Dashboard.MonthlyShare | frontend/src/pages/donor/Dashboard.js:34-41 | A weekly amount counts four times. Monthly, quarterly and annual amounts count as their yearly total over 12. CUSTOM and unknown intervals count at face value. |
| Dashboard.WeeklyShareIsFourWeeks | frontend/src/pages/donor/Dashboard.js:36 | A weekly subscription counts for 48 charges a year where it is charged 52 times. |
| Dashboard.FoldIsSum | frontend/src/pages/donor/Dashboard.js:33-42 | The page's left fold equals the start plus the sum of the shares. |
| Dashboard.MonthlyTotal | frontend/src/pages/donor/Dashboard.js:33-42 | The monthly total of no subscriptions is 0. |
| Dashboard.MonthlyTotalAppend | frontend/src/pages/donor/Dashboard.js:33-42 | The monthly total is additive over concatenation and independent of order. |
| Dashboard.MonthlyTotalNonNegative | frontend/src/pages/donor/Dashboard.js:33-42 | Non-negative amounts give a non-negative total. |
| Dashboard.TotalDonated | frontend/src/pages/donor/Dashboard.js:44 | The total of no payments is 0. |
| Dashboard.TotalDonatedSnoc | frontend/src/pages/donor/Dashboard.js:44 | Each fetched payment adds its amount to the total. |
| Dashboard.StatsCoverFirstPage | frontend/src/pages/donor/Dashboard.js:25-47 | The active count is the server's total. The two sums cover only the first five subscriptions and payments. |
| ProjectPage.CalculateProgress | frontend/src/pages/ProjectDetails.js:47-50 | A null goal shows 0. A stored goal, zero included, reaches the division: over a zero goal a positive total shows 100, a zero total `NaN` and a negative one minus infinity. Otherwise the bar never exceeds 100, is current/goal·100 below the cap, is non-negative for non-negative inputs, and is 100 once the goal is reached. |
| ProjectPage.PageAgreesWithServer | frontend/src/pages/ProjectDetails.js:47-50 | On a project with a goal, the page shows the server's progress whenever a goal amount is stored, a zero goal included. Without a stored goal amount the page shows 0 where the server reports none. |
| ProjectPage.ProgressMonotone | frontend/src/pages/ProjectDetails.js:49 | Over a positive goal, raising more never lowers the bar. |
| ProjectPage.SubmitDonation | frontend/src/pages/ProjectDetails.js:62-89 | An empty amount, or one below 100, is refused. CUSTOM without a day count is refused. Otherwise the request carries the parsed amount and the interval. The day count is sent exactly when the interval is CUSTOM. |
| ProjectPage.PageAmountCheckAgreesWithRoute | frontend/src/pages/ProjectDetails.js:64-67 | A numeric amount the page lets through also passes the route's rule. An amount that is not a number passes the page but not the route. |
| ProjectPage.ZeroDaysPassPageNotRoute | frontend/src/pages/ProjectDetails.js:69-80 | A day count of "0" passes the page but fails the route's rule. |
| SubscriptionCards.Actions | frontend/src/pages/donor/MySubscriptions.js:164-183 | ACTIVE offers Pause and Cancel, PAUSED offers Resume and Cancel, and CANCELLED and EXPIRED offer nothing. |
| SubscriptionCards.ButtonsMatchServerGuards | frontend/src/pages/donor/MySubscriptions.js:164-183 | A button is offered exactly when the server accepts its request, except that an EXPIRED subscription, which the server would cancel, offers no Cancel. |
| SubscriptionCards.CancelAlwaysOffered | frontend/src/pages/donor/MySubscriptions.js:164-183 | A card offers no buttons or two, and Cancel is always the second. |
| SubscriptionCards.StatusBadge | frontend/src/pages/donor/MySubscriptions.js:80-88 | ACTIVE gets 'badge-success', PAUSED 'badge-warning' and CANCELLED 'badge-danger'. EXPIRED and any other name get 'badge-info', except the names every object inherits from `Object.prototype`. |
| SubscriptionCards.BadgesTellLiveStatusesApart | frontend/src/pages/donor/MySubscriptions.js:80-88 | ACTIVE, PAUSED and CANCELLED get distinct badges. EXPIRED looks like an unknown status. |
| SubscriptionCards.RemindedCardsShowNextPayment | frontend/src/pages/donor/MySubscriptions.js:154 | The next payment date is shown exactly for ACTIVE, and so for every subscription the reminder sweep picks. |
| Inbox.FormatDate | frontend/src/pages/donor/Notifications.js:53-69 | Minutes below an hour, hours below a day, days below a week, and the date beyond that. Each count is the floor of the elapsed time. |
| Inbox.FormatDateCoarsens | frontend/src/pages/donor/Notifications.js:53-69 | As time passes, an item only moves to coarser buckets. |
| Inbox.UnreadCount | frontend/src/pages/donor/Notifications.js:122 | The count is at most the number of items, and is zero exactly when every item is read. |
| Inbox.UnreadCountCountsUnread | frontend/src/pages/donor/Notifications.js:122 | The counter equals the number of positions that hold an unread item. |
| Inbox.MarkRead | frontend/src/pages/donor/Notifications.js:32-41 | The items with the id become read, and every other item is unchanged. |
| Inbox.MarkAllRead | frontend/src/pages/donor/Notifications.js:43-51 | Every item becomes read, and nothing else changes. |
| Inbox.MarkAllLeavesNoneUnread | frontend/src/pages/donor/Notifications.js:43-51 | After marking all read, nothing is unread, and a second mark-all changes nothing. |
| Inbox.MarkReadCount | frontend/src/pages/donor/Notifications.js:32-41 | Marking an id read lowers the count by the number of unread items with that id. |
| Inbox.LocalUpdatesMirrorServer | frontend/src/pages/donor/Notifications.js:32-51 | After the server marks one or all notifications read, the locally updated list still shows exactly the stored rows. |

## Left out

- Time zones and daylight saving: instants are UTC milliseconds, so local midnight (`setHours(0, 0, 0, 0)`) is the `today` parameter of the reminder sweep, and `new Date()` is a `now` parameter everywhere.
- `calculateNextPaymentDate` on a CUSTOM interval without a day count returns the start date, and its month step rolls an overflowing day into the next month (January 31st plus a month is early March).
- `cancelSubscription` accepts every status except CANCELLED, so an EXPIRED subscription can be cancelled.
- The gateway's HTTP calls (plan creation, checkout, verification, mandate enable and disable) are oracle answers passed in; the requests the back end sends are recorded in the reply.
- The webhook's HMAC-SHA512 signature check is a boolean input; the raw-body handling around it is framework plumbing.
- E-mail sending and templates, and the message texts of notifications, are left out; `sendEmail` swallows its errors, so only a failing database write can throw inside the reminder sweep, and that is the `broken` set parameter.
- The fire-and-forget `sendPaymentSuccess`/`sendPaymentFailed`/`sendPaymentReminder` calls of the payment controller are applied as synchronous writes; concurrency between verification, webhook and scheduler is not modelled.
- The cron wiring of the scheduler (`initScheduler`) and Express routing are left out.
- Database-generated UUIDs are modelled as ids from a counter; `findFirst`/`findMany` without an `orderBy` return rows in ascending id order; equal `createdAt` values keep ascending id order.
- A `page` or `limit` query parameter that `parseInt` cannot read is not modelled; listings take integers.
- Read-only listings and aggregates are left out beyond their shared pagination: `getUserSubscriptions`, `getSubscription`, `getAllSubscriptions`, `getUserPayments`, `getAllPayments`, `getProject`, the counts of `getProjectStats`, the dashboard lists of `getDashboardStats`, `getDonors`, `getDonorDetails`.
- `createProject` requires a name and a description (database non-null columns) and stores `isActive` as true by default; `deleteProject`'s referential failure is the `dbRefuses` input.
- The front end receives `goalAmount` as a decimal string or null; `ProjectPage.CalculateProgress` takes the number that string reads as, and `None` for null. Any decimal string is truthy and is never `=== 0`, so the page's zero test never fires on a stored goal.
- Floating point: amounts and percentages are real numbers; `toFixed`, `toLocaleString`, `Intl.NumberFormat` and display rounding are left out.
- The front end's fetches, toasts and rendering are left out; the pages' pure computations are modelled.
- `Projects.js` repeats `calculateProgress` from `ProjectDetails.js`; it is modelled once.
- Helpers.MapToGatewayInterval: for a name every object inherits from `Object.prototype` (`toString`, `constructor` and the like) the source returns that inherited member, a function, and the model returns 'monthly'; the interval reaching it has passed the route's `isIn` check, so no such name arrives.
- SubscriptionCards.StatusBadge: for a name every object inherits from `Object.prototype` the source returns the inherited member and the model returns 'badge-info'; the status comes from the database's status column, so no such name arrives.
- A webhook body is taken to carry `data`; without it every handled event reads a field of `undefined` and answers 500. The charge fields of a webhook event (`reference`, `amount`, `paid_at`) are taken as present; a missing `plan`, `customer` or `subscription` object, and a missing plan code, e-mail, customer code, e-mail token or subscription code, are modelled. A JSON `null` in one of these fields is treated like an absent one.
- Subscriptions.CreateSubscription: the day count is an integer. The route's `isInt` check also passes a numeric JSON string such as "5", which the controller would pass to `setDate` as text (`getDate() + "5"` concatenates) and then to the integer column, where the database write throws and the request answers 500 after the checkout was opened. The donation page sends `parseInt(...)`, a number, so no such input arrives from it.
- Subscriptions.UpdateSubscription: the day count is an integer, for the same reason; a numeric string would answer 500 at the update write.
- Listing.Paginate: a negative `take` reads from the end of the list, as Prisma documents for `findMany`; a negative `skip` is taken to make the query throw.
- The mobile app is a separate prototype and is not part of this model.
- Admin.EntryOf: states the label and the transaction count, but not the revenue as a closed sum; `Admin.EmptyMonth` gives the revenue of an empty month (0) and `Admin.RecordedPaymentCounts` how each recorded payment within the window adds its amount.

## Findings

| source | as written | input that shows it | evidently intended | confidence | as-written member | corrected member |
|---|---|---|---|---|---|---|
| backend/src/controllers/adminController.js:324-329 | The month's end bound is `new Date(y, m - i + 1, 0)`, midnight at the start of the month's last day, and the filter is `lte` that instant. | A successful payment paid at 10:00 on January 31st falls in no month of the analytics. | Each month's window covers the whole month up to the next month's first instant, so every payment is counted in exactly one month. | not executed | Admin.AsWrittenMissesLastDay | Admin.WholeMonthsPartition |

=== FILE: admin.dfy ===
/**
  The administrator controller's logic: the month-on-month growth figure of
  the dashboard, activating and deactivating a donor, and the month list of
  the revenue analytics with the time window each month is summed over.
*/
module Admin {
  import opened Wrappers
  import opened Store
  import Calendar
  import Listing

  // ---------------------------------------------------------------------------
  // Growth

  /**
    The dashboard's growth percentage from this month's and last month's
    revenue sums (a missing sum counts as 0), before display rounding.
  */
  function GrowthPercentage(current: Option<real>, last: Option<real>): (g: real)
    ensures var c, l := current.GetOr(0.0), last.GetOr(0.0);
            && (l > 0.0 ==> l + l * g / 100.0 == c)
            && (l > 0.0 ==> (g > 0.0 <==> c > l) && (g == 0.0 <==> c == l))
            && (l <= 0.0 ==> (g == 100.0 <==> c > 0.0) && (g == 0.0 <==> c <= 0.0))
  {
    var c, l := current.GetOr(0.0), last.GetOr(0.0);
    if l > 0.0 then
      GrowthRecovers(c, l);
      (c - l) / l * 100.0
    else if c > 0.0 then 100.0
    else 0.0
  }

  /** The growth over a positive base gives back the current sum, and has the sign of the change. */
  lemma GrowthRecovers(c: real, l: real)
    requires l > 0.0
    ensures l + l * ((c - l) / l * 100.0) / 100.0 == c
    ensures (c - l) / l * 100.0 > 0.0 <==> c > l
    ensures (c - l) / l * 100.0 == 0.0 <==> c == l
  {
    var q := (c - l) / l;
    assert q * l == c - l;
    assert l * (q * 100.0) / 100.0 == l * q;
    if c > l {
      assert q > 0.0;
    } else if c < l {
      assert q < 0.0;
    }
  }

  /** Missing sums behave as zero sums. */
  lemma GrowthMissingIsZero(current: Option<real>, last: Option<real>)
    ensures GrowthPercentage(current, None) == GrowthPercentage(current, Some(0.0))
    ensures GrowthPercentage(None, last) == GrowthPercentage(Some(0.0), last)
    ensures GrowthPercentage(None, None) == 0.0
  {
  }

  // ---------------------------------------------------------------------------
  // Donor activation

  /**
    `toggleDonorStatus`: flips `isActive` of a donor. A missing user and an
    administrator are both answered 404.
  */
  function ToggleDonorStatus(st: Store, id: Id): (r: Reply)
    ensures r.calls == []
    ensures r.status == OK || r.status == NOT_FOUND
    ensures r.status == OK <==> id in st.users && st.users[id].role != Admin
    ensures r.status != OK ==> r.store == st
    ensures r.status == OK ==>
              && r.store == st.(users := r.store.users)
              && r.store.users.Keys == st.users.Keys
              && r.store.users[id] == st.users[id].(isActive := !st.users[id].isActive)
              && forall other :: other in st.users && other != id ==> r.store.users[other] == st.users[other]
    ensures Valid(st) ==> Valid(r.store)
  {
    if id !in st.users || st.users[id].role == Admin then Reply(st, NOT_FOUND, [])
    else
      var u := st.users[id];
      Reply(SetUser(st, id, u.(isActive := !u.isActive)), OK, [])
  }

  /** Toggling a donor twice gives the store back; an administrator is never touched. */
  lemma ToggleTwiceRestores(st: Store, id: Id)
    ensures ToggleDonorStatus(ToggleDonorStatus(st, id).store, id).store == st
    ensures id in st.users && st.users[id].role == Admin ==> ToggleDonorStatus(st, id).store == st
  {
    var once := ToggleDonorStatus(st, id);
    if once.status == OK {
      assert once.store.users[id].role == st.users[id].role;
      assert ToggleDonorStatus(once.store, id).store.users == st.users;
    }
  }

  // ---------------------------------------------------------------------------
  // Revenue analytics

  /**
    The `period` query parameter: absent (read as '12'), a number, or text
    that `parseInt` reads as `NaN`.
  */
  datatype Period = Missing | Months(n: int) | NotANumber

  const DEFAULT_PERIOD: int := 12

  /** How many months the analytics loop runs for: `NaN - 1 >= 0` is false, so `NaN` runs it never. */
  function MonthCount(p: Period): (n: nat)
    ensures p.Missing? ==> n == DEFAULT_PERIOD
    ensures p.Months? ==> n == (if p.n > 0 then p.n else 0)
    ensures p.NotANumber? ==> n == 0
  {
    match p
    case Missing => DEFAULT_PERIOD
    case Months(k) => if k > 0 then k else 0
    case NotANumber => 0
  }

  /**
    The time span a month's revenue is summed over. `AsWritten` is the
    query's: from midnight on the first of the month up to and including
    midnight on its last day (`new Date(y, m + 1, 0)`). `WholeMonth` runs
    up to, but not including, midnight on the first of the next month.
  */
  datatype WindowRule = AsWritten | WholeMonth

  datatype Window = Window(start: int, end: int, endIncluded: bool)

  predicate InWindow(w: Window, t: int) {
    w.start <= t && (if w.endIncluded then t <= w.end else t < w.end)
  }

  /** The absolute month index (year * 12 + 0-based month) `back` months before the month of `now`. */
  function MonthIndex(now: int, back: int): int {
    var c := Calendar.CivilOf(now);
    c.year * 12 + (c.month - 1) - back
  }

  /** The window of absolute month `a` under `rule`, from the day numbers of its first day and the next month's. */
  function WindowOf(rule: WindowRule, a: int): Window {
    var first, next := Calendar.MonthStart(a), Calendar.MonthStart(a + 1);
    match rule
    case AsWritten => Window(first * Calendar.MsPerDay, (next - 1) * Calendar.MsPerDay, true)
    case WholeMonth => Window(first * Calendar.MsPerDay, next * Calendar.MsPerDay, false)
  }

  /** The window of the month `back` months before the month of `now`. */
  function MonthWindow(rule: WindowRule, now: int, back: int): Window {
    WindowOf(rule, MonthIndex(now, back))
  }

  /**
    The windows are the ones the date constructors give: for the local date
    `y`-`m` of `now`, the start is `new Date(y, m - back, 1)` and the end
    `new Date(y, m - back + 1, 0)` as written, or `new Date(y, m - back + 1, 1)`
    for the whole month.
  */
  lemma WindowsFromDateConstructors(now: int, back: int)
    ensures var c := Calendar.CivilOf(now);
            var m0 := c.month - 1 - back;
            && MonthWindow(AsWritten, now, back)
               == Window(Calendar.MakeDay(c.year, m0, 1) * Calendar.MsPerDay, Calendar.MakeDay(c.year, m0 + 1, 0) * Calendar.MsPerDay, true)
            && MonthWindow(WholeMonth, now, back)
               == Window(Calendar.MakeDay(c.year, m0, 1) * Calendar.MsPerDay, Calendar.MakeDay(c.year, m0 + 1, 1) * Calendar.MsPerDay, false)
  {
  }

  /** One month of the analytics: its first instant, the revenue and the number of payments in its window. */
  datatype MonthEntry = MonthEntry(start: int, revenue: real, transactions: nat)

  /** The `aggregate` filter: successful payments paid within the window. */
  function PaidWithin(w: Window): Payment -> bool {
    (p: Payment) => p.status == Success && p.paidAt.Some? && InWindow(w, p.paidAt.value)
  }

  /** The sum of the amounts of the listed payments. */
  function SumAmounts(payments: map<Id, Payment>, ids: seq<Id>): real
    requires forall k :: 0 <= k < |ids| ==> ids[k] in payments
  {
    if ids == [] then 0.0 else payments[ids[0]].amount + SumAmounts(payments, ids[1..])
  }

  /**
    The analytics entry of a month with window `w`: `aggregate` over the
    payments paid within it, whose `_count` is the number of such payments.
  */
  function EntryOf(st: Store, w: Window): (e: MonthEntry)
    ensures e.start == w.start
    ensures Valid(st) ==> e.transactions == |set id | id in st.payments && PaidWithin(w)(st.payments[id])|
  {
    Listing.CountIsAccepted(st.payments, PaidWithin(w), st.nextId);
    assert Valid(st) ==> Listing.Accepted(st.payments, PaidWithin(w), st.nextId)
                         == set id | id in st.payments && PaidWithin(w)(st.payments[id]);
    Tally(st.payments, w, st.nextId)
  }

  /** The entry of window `w` over the payment rows below `n`. */
  function Tally(payments: map<Id, Payment>, w: Window, n: Id): MonthEntry {
    var ids := Listing.Scan(payments, PaidWithin(w), n);
    MonthEntry(w.start, SumAmounts(payments, ids), |ids|)
  }

  /**
    Recording a successful payment paid within a month's window adds its
    amount to that month's revenue and one to its transactions; a payment
    that is not paid within the window leaves the entry as it was.
  */
  lemma RecordedPaymentCounts(st: Store, w: Window, p: Payment)
    requires Valid(st) && (p.reference.Some? ==> p.reference.value !in st.byReference)
    ensures var e, e' := EntryOf(st, w), EntryOf(AddPayment(st, p).0, w);
            && (PaidWithin(w)(p) ==> e'.revenue == e.revenue + p.amount && e'.transactions == e.transactions + 1)
            && (!PaidWithin(w)(p) ==> e' == e)
  {
    var st' := AddPayment(st, p).0;
    EntryIsTally(st, w);
    EntryIsTally(st', w);
    TallyAdded(st.payments, w, st.nextId, p);
  }

  /** The entry of a store is the tally of its payment table. */
  lemma EntryIsTally(st: Store, w: Window)
    ensures EntryOf(st, w) == Tally(st.payments, w, st.nextId)
  {
  }

  /** Adding a payment row under the bound counts it in the tally exactly when it is paid within the window. */
  lemma TallyAdded(payments: map<Id, Payment>, w: Window, n: Id, p: Payment)
    requires forall id :: id in payments ==> id < n
    ensures var e, e' := Tally(payments, w, n), Tally(payments[n := p], w, n + 1);
            && (PaidWithin(w)(p) ==> e'.revenue == e.revenue + p.amount && e'.transactions == e.transactions + 1)
            && (!PaidWithin(w)(p) ==> e' == e)
  {
    var keep := PaidWithin(w);
    var ids := Listing.Scan(payments, keep, n);
    Listing.ScanAdded(payments, keep, n, p);
    SumSameRows(payments, payments[n := p], ids);
    if keep(p) {
      SumSnoc(payments[n := p], ids, n);
    }
  }

  /** The sum reads only the listed rows. */
  lemma {:induction false} SumSameRows(payments: map<Id, Payment>, payments': map<Id, Payment>, ids: seq<Id>)
    requires forall k :: 0 <= k < |ids| ==> ids[k] in payments && ids[k] in payments' && payments'[ids[k]] == payments[ids[k]]
    ensures SumAmounts(payments', ids) == SumAmounts(payments, ids)
  {
    if ids != [] {
      SumSameRows(payments, payments', ids[1..]);
    }
  }

  /** Appending a row adds its amount. */
  lemma {:induction false} SumSnoc(payments: map<Id, Payment>, ids: seq<Id>, id: Id)
    requires forall k :: 0 <= k < |ids| ==> ids[k] in payments
    requires id in payments
    ensures SumAmounts(payments, ids + [id]) == SumAmounts(payments, ids) + payments[id].amount
  {
    if ids != [] {
      assert (ids + [id])[1..] == ids[1..] + [id];
      SumSnoc(payments, ids[1..], id);
    }
  }

  /**
    A month shows no transactions exactly when no successful payment was
    paid within its window, and then its revenue is 0.
  */
  lemma EmptyMonth(st: Store, w: Window)
    requires Valid(st)
    ensures EntryOf(st, w).transactions == 0 <==> forall id :: id in st.payments ==> !PaidWithin(w)(st.payments[id])
    ensures EntryOf(st, w).transactions == 0 ==> EntryOf(st, w).revenue == 0.0
  {
    Listing.CountZero(st.payments, PaidWithin(w), st.nextId);
  }

  /**
    The absolute indices of the `count` months up to and including month
    `current`, oldest first: the loop from `months - 1` down to 0, one
    month further back at each step.
  */
  function MonthsBack(current: int, count: nat): (ms: seq<int>)
    ensures |ms| == count
    ensures forall k :: 0 <= k < count ==> ms[k] == current - (count - 1 - k)
  {
    seq(count, k => current - (count - 1 - k))
  }

  /** The `aggregate` over the window of each month, in order. */
  function Aggregates(st: Store, rule: WindowRule, ms: seq<int>): (r: seq<MonthEntry>)
    ensures |r| == |ms|
    ensures forall k :: 0 <= k < |ms| ==> r[k] == EntryOf(st, WindowOf(rule, ms[k]))
    // a consequence of the clause above and `EntryOf`'s label, kept for callers that only need the starts
    ensures forall k :: 0 <= k < |ms| ==> r[k].start == WindowOf(rule, ms[k]).start
  {
    if ms == [] then [] else [EntryOf(st, WindowOf(rule, ms[0]))] + Aggregates(st, rule, ms[1..])
  }

  /** `getRevenueAnalytics`: the entries of the last `period` months. */
  function RevenueAnalytics(st: Store, rule: WindowRule, now: int, period: Period): (r: seq<MonthEntry>)
    ensures forall k :: 0 <= k < MonthCount(period) ==> k < |r| && r[k] == EntryOf(st, MonthWindow(rule, now, MonthCount(period) - 1 - k))
    ensures |r| == MonthCount(period)
  {
    LastMonths(st, rule, now, MonthCount(period))
  }

  /**
    The entries of the `n` months up to and including the month of `now`,
    oldest first: entry `k` is the month `n - 1 - k` months back.
  */
  function LastMonths(st: Store, rule: WindowRule, now: int, n: nat): (r: seq<MonthEntry>)
    ensures |r| == n
    ensures forall k :: 0 <= k < n ==> r[k] == EntryOf(st, MonthWindow(rule, now, n - 1 - k))
  {
    MonthsBackAreIndices(now, n);
    Aggregates(st, rule, MonthsBack(MonthIndex(now, 0), n))
  }

  /** The month list names the month `n - 1 - k` months back at position `k`. */
  lemma MonthsBackAreIndices(now: int, n: nat)
    ensures forall k :: 0 <= k < n ==> MonthsBack(MonthIndex(now, 0), n)[k] == MonthIndex(now, n - 1 - k)
  {
  }

  /** The month list runs oldest first and ends with the current month. */
  lemma AnalyticsOldestFirst(st: Store, rule: WindowRule, now: int, period: Period)
    ensures var r := RevenueAnalytics(st, rule, now, period);
            forall i, j :: 0 <= i < j < |r| ==> r[i].start < r[j].start
    ensures var r := RevenueAnalytics(st, rule, now, period);
            |r| > 0 ==> r[|r| - 1].start == MonthWindow(rule, now, 0).start
  {
    var cur, n := MonthIndex(now, 0), MonthCount(period);
    var ms := MonthsBack(cur, n);
    var r := Aggregates(st, rule, ms);
    forall i, j | 0 <= i < j < n
      ensures r[i].start < r[j].start
    {
      WindowStartsIncrease(rule, ms[i], ms[j]);
    }
  }

  /** A later month's window starts later. */
  lemma WindowStartsIncrease(rule: WindowRule, a: int, b: int)
    requires a < b
    ensures WindowOf(rule, a).start < WindowOf(rule, b).start
  {
    Calendar.MonthStartGrows(a, b - a);
  }

  // ---------------------------------------------------------------------------
  // The month windows

  /** An instant lies between two day boundaries exactly when its day does. */
  lemma DayBounds(t: int, lo: int, hi: int)
    ensures lo * Calendar.MsPerDay <= t < hi * Calendar.MsPerDay <==> lo <= Calendar.DayOf(t) < hi
  {
  }

  /** Month starts strictly increase. */
  lemma MonthStartsIncrease(a: int, b: int)
    requires a < b
    ensures Calendar.MonthStart(a + 1) <= Calendar.MonthStart(b)
    ensures Calendar.MonthStart(a) + 28 <= Calendar.MonthStart(a + 1)
  {
    Calendar.MonthStartGrows(a + 1, b - a - 1);
    Calendar.MonthStartGrows(a, 1);
  }

  /**
    The as-written windows leave out the last day of every month after its
    first millisecond: the instant one millisecond after the window's end
    belongs to the whole month of that window, yet lies in no as-written
    window of any month.
  */
  lemma AsWrittenMissesLastDay(now: int, back: int, other: int)
    ensures var t := MonthWindow(AsWritten, now, back).end + 1;
            && InWindow(MonthWindow(WholeMonth, now, back), t)
            && !InWindow(MonthWindow(AsWritten, now, other), t)
  {
    var a, b := MonthIndex(now, back), MonthIndex(now, other);
    var t := MonthWindow(AsWritten, now, back).end + 1;
    MonthStartsIncrease(a, a + 1);
    if b < a {
      MonthStartsIncrease(b, a);
    } else if b > a {
      MonthStartsIncrease(a, b);
    }
  }

  /** The month a day falls in: its start is at most the day and the next month's start is later. */
  lemma DayInItsMonth(n: int)
    ensures var c := Calendar.CivilFromDays(n);
            var a := c.year * 12 + (c.month - 1);
            Calendar.MonthStart(a) <= n < Calendar.MonthStart(a + 1)
  {
    var c := Calendar.CivilFromDays(n);
    var a := c.year * 12 + (c.month - 1);
    assert a / 12 == c.year && a % 12 == c.month - 1;
    Calendar.MonthStep(a);
  }

  /**
    The whole-month windows partition time: every instant lies in the
    window of exactly one month, so a payment is counted in exactly one
    month of any analytics list that reaches back to it.
  */
  lemma WholeMonthsPartition(now: int, t: int)
    ensures exists back :: InWindow(MonthWindow(WholeMonth, now, back), t)
    ensures forall b1, b2 :: InWindow(MonthWindow(WholeMonth, now, b1), t) && InWindow(MonthWindow(WholeMonth, now, b2), t) ==> b1 == b2
  {
    var day := Calendar.DayOf(t);
    var c := Calendar.CivilFromDays(day);
    var a := c.year * 12 + (c.month - 1);
    DayInItsMonth(day);
    var back := MonthIndex(now, 0) - a;
    assert MonthIndex(now, back) == a;
    DayBounds(t, Calendar.MonthStart(a), Calendar.MonthStart(a + 1));
    assert InWindow(MonthWindow(WholeMonth, now, back), t);
    forall b1, b2 | InWindow(MonthWindow(WholeMonth, now, b1), t) && InWindow(MonthWindow(WholeMonth, now, b2), t)
      ensures b1 == b2
    {
      WholeMonthsDisjoint(now, b1, b2, t);
    }
  }

  /** Two whole-month windows that share an instant are the same month's. */
  lemma WholeMonthsDisjoint(now: int, b1: int, b2: int, t: int)
    requires InWindow(MonthWindow(WholeMonth, now, b1), t) && InWindow(MonthWindow(WholeMonth, now, b2), t)
    ensures b1 == b2
  {
    var a1, a2 := MonthIndex(now, b1), MonthIndex(now, b2);
    DayBounds(t, Calendar.MonthStart(a1), Calendar.MonthStart(a1 + 1));
    DayBounds(t, Calendar.MonthStart(a2), Calendar.MonthStart(a2 + 1));
    if a1 < a2 {
      MonthStartsIncrease(a1, a2);
    } else if a2 < a1 {
      MonthStartsIncrease(a2, a1);
    }
  }
}

=== FILE: calendar.dfy ===
/**
  Instants and civil dates.

  An instant is an integer number of milliseconds since 1970-01-01T00:00:00Z,
  as a JavaScript `Date` holds it. Month and year steps go through a civil
  (year, month, day) view of the instant, following the ECMAScript `MakeDay`
  algorithm: the month index is normalised into a year and a month, and the day
  of the month is added as an offset, so a day that does not exist in the target
  month rolls over into the next one instead of being clamped. All arithmetic is
  in UTC; local time zones and daylight saving are not modelled.
*/
module Calendar {

  const MsPerMinute: int := 60000
  const MsPerHour: int := 3600000
  const MsPerDay: int := 86400000

  /** A calendar date in the proleptic Gregorian calendar; `month` is 1-based. */
  datatype Civil = Civil(year: int, month: int, day: int)

  predicate IsLeap(y: int) {
    y % 4 == 0 && (y % 100 != 0 || y % 400 == 0)
  }

  function YearLength(y: int): int {
    if IsLeap(y) then 366 else 365
  }

  function MonthLength(y: int, m: int): int
    requires 1 <= m <= 12
  {
    if m == 2 then (if IsLeap(y) then 29 else 28)
    else if m == 4 || m == 6 || m == 9 || m == 11 then 30
    else 31
  }

  predicate ValidCivil(c: Civil) {
    1 <= c.month <= 12 && 1 <= c.day <= MonthLength(c.year, c.month)
  }

  /** Days in the months of year `y` that come before month `m`. */
  function DaysBeforeMonth(y: int, m: int): int
    requires 1 <= m <= 12
  {
    var common :=
      if m == 1 then 0 else if m == 2 then 31 else if m == 3 then 59
      else if m == 4 then 90 else if m == 5 then 120 else if m == 6 then 151
      else if m == 7 then 181 else if m == 8 then 212 else if m == 9 then 243
      else if m == 10 then 273 else if m == 11 then 304 else 334;
    common + (if m > 2 && IsLeap(y) then 1 else 0)
  }

  /** Day number of January 1st of year `y`, counted from 1970-01-01. */
  function DaysBeforeYear(y: int): int
    decreases if y >= 1970 then y - 1970 else 1970 - y
  {
    if y == 1970 then 0
    else if y > 1970 then DaysBeforeYear(y - 1) + YearLength(y - 1)
    else DaysBeforeYear(y + 1) - YearLength(y)
  }

  /** Day number of a date; `d` may lie outside the month and then counts on from its first day. */
  function DaysFromCivil(y: int, m: int, d: int): int
    requires 1 <= m <= 12
  {
    DaysBeforeYear(y) + DaysBeforeMonth(y, m) + d - 1
  }

  /** Day number of the first day of absolute month `i` (year * 12 + 0-based month). */
  function MonthStart(i: int): int {
    DaysFromCivil(i / 12, i % 12 + 1, 1)
  }

  /** ECMAScript MakeDay: `month0` is a 0-based month index that may lie outside 0..11;
      it is normalised into year `year + floor(month0 / 12)` and month `month0 mod 12`,
      which is the split of the absolute month index `year * 12 + month0`, and `date`
      counts on from the first day of that month. */
  function MakeDay(year: int, month0: int, date: int): int {
    MonthStart(year * 12 + month0) + date - 1
  }

  /** The day an instant falls on (ECMAScript `Day(t)`, a floor division). */
  function DayOf(t: int): int {
    t / MsPerDay
  }

  /** Milliseconds elapsed since midnight (ECMAScript `TimeWithinDay(t)`). */
  function TimeWithinDay(t: int): int {
    t % MsPerDay
  }

  lemma YearStep(y: int)
    ensures DaysBeforeYear(y + 1) == DaysBeforeYear(y) + YearLength(y)
  {
  }

  /** Length of absolute month `i`. */
  function MonthLengthAt(i: int): (n: int)
    ensures 28 <= n <= 31
  {
    MonthLength(i / 12, i % 12 + 1)
  }

  lemma {:induction false} MonthStep(i: int)
    ensures MonthStart(i + 1) == MonthStart(i) + MonthLengthAt(i)
  {
    if i % 12 == 11 {
      assert (i + 1) / 12 == i / 12 + 1 && (i + 1) % 12 == 0;
      YearStep(i / 12);
    } else {
      assert (i + 1) / 12 == i / 12 && (i + 1) % 12 == i % 12 + 1;
    }
  }

  /** A sequence that rises by at least `step` at every index rises by `step * k` over `k` indices. */
  lemma {:induction false} StepsAccumulate(f: int -> int, step: int, i: int, k: nat)
    requires forall j :: f(j + 1) >= f(j) + step
    ensures f(i + k) >= f(i) + step * k
    decreases k
  {
    if k > 0 {
      StepsAccumulate(f, step, i, k - 1);
      assert f(i + (k - 1) + 1) >= f(i + (k - 1)) + step;
      assert i + (k - 1) + 1 == i + k;
    }
  }

  /** Every month has at least 28 days, so month starts advance by at least 28 days per month. */
  lemma MonthStartGrows(i: int, k: nat)
    ensures MonthStart(i + k) >= MonthStart(i) + 28 * k
  {
    forall j ensures MonthStart(j + 1) >= MonthStart(j) + 28 {
      MonthStep(j);
    }
    StepsAccumulate(MonthStart, 28, i, k);
  }

  lemma {:induction false} YearsIncrease(a: int, b: int)
    requires a < b
    ensures DaysBeforeYear(a + 1) <= DaysBeforeYear(b)
    decreases b - a
  {
    if a + 1 < b {
      YearsIncrease(a, b - 1);
      YearStep(b - 1);
    }
  }

  function FindYearUp(n: int, y: int): (r: int)
    requires DaysBeforeYear(y) <= n
    ensures DaysBeforeYear(r) <= n < DaysBeforeYear(r + 1)
    decreases n - DaysBeforeYear(y)
  {
    YearStep(y);
    if n < DaysBeforeYear(y + 1) then y else FindYearUp(n, y + 1)
  }

  function FindYearDown(n: int, y: int): (r: int)
    ensures DaysBeforeYear(r) <= n < DaysBeforeYear(r + 1)
    decreases if DaysBeforeYear(y) <= n then 0 else DaysBeforeYear(y) - n
  {
    if DaysBeforeYear(y) <= n then FindYearUp(n, y)
    else
      YearStep(y - 1);
      FindYearDown(n, y - 1)
  }

  /** The year containing day number `n`. */
  function YearOfDay(n: int): (y: int)
    ensures DaysBeforeYear(y) <= n < DaysBeforeYear(y + 1)
  {
    FindYearDown(n, 1970 + n / 365 + 1)
  }

  /** The month of year `y` containing day `doy` (0-based day of the year). */
  function MonthOfDay(y: int, doy: int): (m: int)
    requires 0 <= doy < YearLength(y)
    ensures 1 <= m <= 12
    ensures DaysBeforeMonth(y, m) <= doy < DaysBeforeMonth(y, m) + MonthLength(y, m)
  {
    if doy >= DaysBeforeMonth(y, 12) then 12
    else if doy >= DaysBeforeMonth(y, 11) then 11
    else if doy >= DaysBeforeMonth(y, 10) then 10
    else if doy >= DaysBeforeMonth(y, 9) then 9
    else if doy >= DaysBeforeMonth(y, 8) then 8
    else if doy >= DaysBeforeMonth(y, 7) then 7
    else if doy >= DaysBeforeMonth(y, 6) then 6
    else if doy >= DaysBeforeMonth(y, 5) then 5
    else if doy >= DaysBeforeMonth(y, 4) then 4
    else if doy >= DaysBeforeMonth(y, 3) then 3
    else if doy >= DaysBeforeMonth(y, 2) then 2
    else 1
  }

  /** The civil date of day number `n`, found by locating its year and then its month. */
  function CivilSearch(n: int): (c: Civil)
    ensures ValidCivil(c)
    ensures DaysFromCivil(c.year, c.month, c.day) == n
  {
    var y := YearOfDay(n);
    YearStep(y);
    var doy := n - DaysBeforeYear(y);
    var m := MonthOfDay(y, doy);
    Civil(y, m, doy - DaysBeforeMonth(y, m) + 1)
  }

  /** A year is identified by any day number inside it. */
  lemma YearUnique(n: int, a: int, b: int)
    requires DaysBeforeYear(a) <= n < DaysBeforeYear(a + 1)
    requires DaysBeforeYear(b) <= n < DaysBeforeYear(b + 1)
    ensures a == b
  {
    if a < b {
      YearsIncrease(a, b);
    } else if b < a {
      YearsIncrease(b, a);
    }
  }

  /** A valid date's offset within its year lies inside the year. */
  lemma DayOfYearInRange(c: Civil)
    requires ValidCivil(c)
    ensures 0 <= DaysBeforeMonth(c.year, c.month) + c.day - 1 < YearLength(c.year)
  {
  }

  /** A month is identified by any day of the year inside it. */
  lemma MonthUnique(y: int, doy: int, m: int)
    requires 1 <= m <= 12
    requires DaysBeforeMonth(y, m) <= doy < DaysBeforeMonth(y, m) + MonthLength(y, m)
    ensures doy < YearLength(y) && MonthOfDay(y, doy) == m
  {
  }

  /** The search finds every valid date from its day number. */
  lemma SearchRoundTrip(c: Civil)
    requires ValidCivil(c)
    ensures CivilSearch(DaysFromCivil(c.year, c.month, c.day)) == c
  {
    var n := DaysFromCivil(c.year, c.month, c.day);
    DayOfYearInRange(c);
    YearStep(c.year);
    YearUnique(n, YearOfDay(n), c.year);
    MonthUnique(c.year, n - DaysBeforeYear(c.year), c.month);
  }

  /** Two valid dates with the same day number are the same date. */
  lemma CivilInjective(a: Civil, b: Civil)
    requires ValidCivil(a) && ValidCivil(b)
    requires DaysFromCivil(a.year, a.month, a.day) == DaysFromCivil(b.year, b.month, b.day)
    ensures a == b
  {
    SearchRoundTrip(a);
    SearchRoundTrip(b);
  }

  /** Day number `n` names at most one valid date. */
  lemma AtMostOneCivil(n: int)
    ensures forall a: Civil, b: Civil ::
              (ValidCivil(a) && ValidCivil(b) && DaysFromCivil(a.year, a.month, a.day) == n
               && DaysFromCivil(b.year, b.month, b.day) == n) ==> a == b
  {
    forall a: Civil, b: Civil | ValidCivil(a) && ValidCivil(b) && DaysFromCivil(a.year, a.month, a.day) == n
                                && DaysFromCivil(b.year, b.month, b.day) == n
      ensures a == b
    {
      CivilInjective(a, b);
    }
  }

  /**
    The civil date of day number `n`: the one valid date whose day number is
    `n` (it exists, as the search shows, and is unique by `AtMostOneCivil`).
  */
  function CivilFromDays(n: int): (c: Civil)
    ensures ValidCivil(c)
    ensures DaysFromCivil(c.year, c.month, c.day) == n
  {
    var found := CivilSearch(n);
    AtMostOneCivil(n);
    var c :| ValidCivil(c) && DaysFromCivil(c.year, c.month, c.day) == n;
    c
  }

  /** The civil view is the inverse of the day number on valid dates. */
  lemma CivilRoundTrip(c: Civil)
    requires ValidCivil(c)
    ensures CivilFromDays(DaysFromCivil(c.year, c.month, c.day)) == c
  {
    CivilInjective(CivilFromDays(DaysFromCivil(c.year, c.month, c.day)), c);
  }

  /** An instant is recovered from its day and its time within the day. */
  lemma InstantSplit(day: int, tod: int)
    requires 0 <= tod < MsPerDay
    ensures DayOf(day * MsPerDay + tod) == day
    ensures TimeWithinDay(day * MsPerDay + tod) == tod
  {
  }

  /** The civil date an instant falls on. */
  function CivilOf(t: int): (c: Civil)
    ensures ValidCivil(c)
  {
    CivilFromDays(DayOf(t))
  }

  /** `date.setDate(date.getDate() + k)`. */
  function SetDatePlus(t: int, k: int): int {
    var c := CivilOf(t);
    MakeDay(c.year, c.month - 1, c.day + k) * MsPerDay + TimeWithinDay(t)
  }

  /** `date.setMonth(date.getMonth() + k)`: the day of the month and the time of day are kept. */
  function SetMonthPlus(t: int, k: int): int {
    var c := CivilOf(t);
    MakeDay(c.year, c.month - 1 + k, c.day) * MsPerDay + TimeWithinDay(t)
  }

  /** `date.setFullYear(date.getFullYear() + k)`: month, day and time of day are kept. */
  function SetFullYearPlus(t: int, k: int): int {
    var c := CivilOf(t);
    MakeDay(c.year + k, c.month - 1, c.day) * MsPerDay + TimeWithinDay(t)
  }

  /** MakeDay of an in-range month is the ordinary day number. */
  lemma MakeDayInRange(y: int, m: int, d: int)
    requires 1 <= m <= 12
    ensures MakeDay(y, m - 1, d) == DaysFromCivil(y, m, d)
  {
  }

  /** Adding days to the day of the month moves the instant by exactly that many whole days. */
  lemma SetDatePlusExact(t: int, k: int)
    ensures SetDatePlus(t, k) == t + k * MsPerDay
  {
    var c := CivilOf(t);
    MakeDayInRange(c.year, c.month, c.day + k);
  }

  /** MakeDay `k >= 0` months on is at least `28 * k` days later. */
  lemma {:induction false} MakeDayMonthsGrow(y: int, m: int, d: int, k: nat)
    requires 1 <= m <= 12
    ensures MakeDay(y, m - 1 + k, d) >= DaysFromCivil(y, m, d) + 28 * k
  {
    MakeDayInRange(y, m, d);
    MonthStartGrows(y * 12 + (m - 1), k);
    assert y * 12 + (m - 1 + k) == y * 12 + (m - 1) + k;
  }

  /** The instant `k >= 0` months on is at least `28 * k` days later. */
  lemma {:induction false} SetMonthPlusGrows(t: int, k: nat)
    ensures SetMonthPlus(t, k) >= t + 28 * k * MsPerDay
  {
    var c := CivilOf(t);
    MakeDayMonthsGrow(c.year, c.month, c.day, k);
    assert t == DayOf(t) * MsPerDay + TimeWithinDay(t);
  }

  /** Day `d` (1 to 31) of absolute month `j` under ECMAScript rules: that date when the
      month has it, otherwise the surplus days roll into the following month. */
  function RollDay(j: int, d: int): Civil {
    var ty, tm := j / 12, j % 12 + 1;
    if d <= MonthLength(ty, tm) then Civil(ty, tm, d)
    else Civil((j + 1) / 12, (j + 1) % 12 + 1, d - MonthLength(ty, tm))
  }

  /** The civil date `k` months after `c`: its day of the month in the month `k` on, rolled over if needed. */
  function MonthsOn(c: Civil, k: int): Civil {
    RollDay(c.year * 12 + (c.month - 1) + k, c.day)
  }

  /** A day that exists in month `j` is reached unchanged. */
  lemma MonthDayInMonth(j: int, d: int)
    requires 1 <= d <= MonthLength(j / 12, j % 12 + 1)
    ensures CivilFromDays(MonthStart(j) + d - 1) == Civil(j / 12, j % 12 + 1, d)
  {
    CivilRoundTrip(Civil(j / 12, j % 12 + 1, d));
  }

  /** A day past the end of month `j` (by at most three days) rolls into month `j + 1`. */
  lemma MonthDayRolls(j: int, d: int)
    requires MonthLength(j / 12, j % 12 + 1) < d <= 31
    ensures CivilFromDays(MonthStart(j) + d - 1)
         == Civil((j + 1) / 12, (j + 1) % 12 + 1, d - MonthLength(j / 12, j % 12 + 1))
  {
    MonthStep(j);
    var rolled := Civil((j + 1) / 12, (j + 1) % 12 + 1, d - MonthLength(j / 12, j % 12 + 1));
    assert MonthLengthAt(j + 1) >= 28;
    assert ValidCivil(rolled);
    CivilRoundTrip(rolled);
  }

  lemma MonthDayCivil(j: int, d: int)
    requires 1 <= d <= 31
    ensures CivilFromDays(MonthStart(j) + d - 1) == RollDay(j, d)
  {
    if d <= MonthLength(j / 12, j % 12 + 1) {
      MonthDayInMonth(j, d);
    } else {
      MonthDayRolls(j, d);
    }
  }

  lemma {:induction false} MakeDayMonthsCivil(c: Civil, k: int)
    requires ValidCivil(c)
    ensures CivilFromDays(MakeDay(c.year, c.month - 1 + k, c.day)) == MonthsOn(c, k)
  {
    var j := c.year * 12 + (c.month - 1) + k;
    assert MakeDay(c.year, c.month - 1 + k, c.day) == MonthStart(j) + c.day - 1;
    assert MonthsOn(c, k) == RollDay(j, c.day);
    MonthDayCivil(j, c.day);
  }

  /** `setMonth(getMonth() + k)` lands on `MonthsOn` of the original date, at the same time of day. */
  lemma SetMonthPlusCivil(t: int, k: int)
    ensures CivilOf(SetMonthPlus(t, k)) == MonthsOn(CivilOf(t), k)
    ensures TimeWithinDay(SetMonthPlus(t, k)) == TimeWithinDay(t)
  {
    var c := CivilOf(t);
    var day := MakeDay(c.year, c.month - 1 + k, c.day);
    var tod := TimeWithinDay(t);
    assert SetMonthPlus(t, k) == day * MsPerDay + tod;
    InstantSplit(day, tod);
    assert DayOf(SetMonthPlus(t, k)) == day;
    MakeDayMonthsCivil(c, k);
    assert CivilOf(SetMonthPlus(t, k)) == CivilFromDays(day);
  }

  lemma MakeDayYearShift(y: int, m0: int, d: int, k: int)
    ensures MakeDay(y + k, m0, d) == MakeDay(y, m0 + 12 * k, d)
  {
    assert (y + k) * 12 + m0 == y * 12 + (m0 + 12 * k);
  }

  /** A year step is a twelve-month step. */
  lemma SetFullYearIsTwelveMonths(t: int, k: int)
    ensures SetFullYearPlus(t, k) == SetMonthPlus(t, 12 * k)
  {
    var c := CivilOf(t);
    MakeDayYearShift(c.year, c.month - 1, c.day, k);
    assert c.month - 1 + 12 * k == (c.month - 1) + 12 * k;
  }
}

=== FILE: dashboard.dfy ===
/**
  The donor dashboard's figures: the monthly contribution of the active
  subscriptions, the total of the successful payments, and the count of
  active subscriptions, computed from the first page (five items) of each
  listing.
*/
module Dashboard {
  import opened Wrappers
  import Listing

  /** An active subscription as the dashboard reads it: its interval name and its parsed amount. */
  datatype SubRow = SubRow(interval: string, amount: real)

  /** How many times a year a subscription of this interval is charged; `None` for CUSTOM and unknown names. */
  function ChargesPerYear(interval: string): (r: Option<int>)
  {
    if interval == "WEEKLY" then Some(52)
    else if interval == "MONTHLY" then Some(12)
    else if interval == "QUARTERLY" then Some(4)
    else if interval == "ANNUALLY" then Some(1)
    else None
  }

  /** One subscription's share of the monthly figure (the `switch` inside the `reduce`). */
  function MonthlyShare(s: SubRow): (r: real)
    ensures s.interval == "WEEKLY" ==> r == 4.0 * s.amount
    ensures ChargesPerYear(s.interval).Some? && s.interval != "WEEKLY" ==>
              12.0 * r == s.amount * ChargesPerYear(s.interval).value as real
    ensures ChargesPerYear(s.interval).None? ==> r == s.amount
  {
    match s.interval
    case "WEEKLY" => s.amount * 4.0
    case "MONTHLY" => s.amount
    case "QUARTERLY" => s.amount / 3.0
    case "ANNUALLY" => s.amount / 12.0
    case _ => s.amount
  }

  /**
    A weekly subscription counts as four charges a month, 48 a year, where
    the year has 52 weeks: its share falls short of a twelfth of its yearly
    total by four charges' worth.
  */
  lemma WeeklyShareIsFourWeeks(amount: real)
    requires amount > 0.0
    ensures 12.0 * MonthlyShare(SubRow("WEEKLY", amount)) == amount * 48.0
    ensures 12.0 * MonthlyShare(SubRow("WEEKLY", amount)) < amount * ChargesPerYear("WEEKLY").value as real
  {
  }

  /** `reduce((sum, x) => sum + share(x), acc)`: the left fold the page runs. */
  function FoldShares(acc: real, subs: seq<SubRow>): real
    decreases |subs|
  {
    if subs == [] then acc else FoldShares(acc + MonthlyShare(subs[0]), subs[1..])
  }

  /** The independent reference: the sum of the shares. */
  function SumShares(subs: seq<SubRow>): real
    decreases |subs|
  {
    if subs == [] then 0.0 else MonthlyShare(subs[0]) + SumShares(subs[1..])
  }

  /** `monthlyTotal`. */
  function MonthlyTotal(subs: seq<SubRow>): (r: real)
    ensures subs == [] ==> r == 0.0
  {
    FoldShares(0.0, subs)
  }

  /** The fold from `acc` is `acc` plus the sum of the shares. */
  lemma {:induction false} FoldIsSum(acc: real, subs: seq<SubRow>)
    ensures FoldShares(acc, subs) == acc + SumShares(subs)
    decreases |subs|
  {
    if subs != [] {
      FoldIsSum(acc + MonthlyShare(subs[0]), subs[1..]);
    }
  }

  /** The sum of the shares splits over a concatenation. */
  lemma {:induction false} SumSharesAppend(a: seq<SubRow>, b: seq<SubRow>)
    ensures SumShares(a + b) == SumShares(a) + SumShares(b)
    decreases |a|
  {
    if a != [] {
      assert (a + b)[1..] == a[1..] + b;
      SumSharesAppend(a[1..], b);
    } else {
      assert a + b == b;
    }
  }

  /** The monthly total is additive over lists, so the order of the subscriptions does not matter. */
  lemma MonthlyTotalAppend(a: seq<SubRow>, b: seq<SubRow>)
    ensures MonthlyTotal(a + b) == MonthlyTotal(a) + MonthlyTotal(b)
    ensures MonthlyTotal(a + b) == MonthlyTotal(b + a)
  {
    FoldIsSum(0.0, a + b);
    FoldIsSum(0.0, b + a);
    FoldIsSum(0.0, a);
    FoldIsSum(0.0, b);
    SumSharesAppend(a, b);
    SumSharesAppend(b, a);
  }

  /** Shares of non-negative amounts are non-negative, and so is their total. */
  lemma {:induction false} MonthlyTotalNonNegative(subs: seq<SubRow>)
    requires forall k :: 0 <= k < |subs| ==> subs[k].amount >= 0.0
    ensures MonthlyTotal(subs) >= 0.0
  {
    SharesNonNegative(subs);
    FoldIsSum(0.0, subs);
  }

  lemma {:induction false} SharesNonNegative(subs: seq<SubRow>)
    requires forall k :: 0 <= k < |subs| ==> subs[k].amount >= 0.0
    ensures SumShares(subs) >= 0.0
    decreases |subs|
  {
    if subs != [] {
      SharesNonNegative(subs[1..]);
    }
  }

  /** The left fold over the payment amounts. */
  function FoldAmounts(acc: real, amounts: seq<real>): real
    decreases |amounts|
  {
    if amounts == [] then acc else FoldAmounts(acc + amounts[0], amounts[1..])
  }

  /** `totalDonated`: the sum of the fetched payment amounts. */
  function TotalDonated(amounts: seq<real>): (r: real)
    ensures amounts == [] ==> r == 0.0
  {
    FoldAmounts(0.0, amounts)
  }

  /** Each fetched payment adds its amount to the total. */
  lemma {:induction false} TotalDonatedSnoc(amounts: seq<real>, x: real)
    ensures TotalDonated(amounts + [x]) == TotalDonated(amounts) + x
  {
    FoldAmountsSnoc(0.0, amounts, x);
  }

  lemma {:induction false} FoldAmountsSnoc(acc: real, amounts: seq<real>, x: real)
    ensures FoldAmounts(acc, amounts + [x]) == FoldAmounts(acc, amounts) + x
    decreases |amounts|
  {
    if amounts == [] {
      assert amounts + [x] == [x];
    } else {
      assert (amounts + [x])[1..] == amounts[1..] + [x];
      FoldAmountsSnoc(acc + amounts[0], amounts[1..], x);
    }
  }

  /** How many items each dashboard listing asks for. */
  const FETCH_LIMIT: int := 5

  datatype Stats = Stats(activeSubscriptions: nat, totalDonated: real, monthlyTotal: real)

  /** The dashboard figures from the first page of the active subscriptions and of the successful payments. */
  function DashboardStats(subs: Listing.Page<SubRow>, payments: Listing.Page<real>): Stats {
    Stats(subs.total, TotalDonated(payments.items), MonthlyTotal(subs.items))
  }

  /**
    The count of active subscriptions is the server's total, while both
    sums cover only the first five items: with more than five active
    subscriptions the monthly figure leaves the rest out.
  */
  lemma StatsCoverFirstPage(active: seq<SubRow>, paid: seq<real>)
    ensures Listing.Paginate(active, 1, FETCH_LIMIT).Some? && Listing.Paginate(paid, 1, FETCH_LIMIT).Some?
    ensures var s := DashboardStats(Listing.Paginate(active, 1, FETCH_LIMIT).value, Listing.Paginate(paid, 1, FETCH_LIMIT).value);
            && s.activeSubscriptions == |active|
            && s.monthlyTotal == MonthlyTotal(active[..if |active| < FETCH_LIMIT then |active| else FETCH_LIMIT])
            && s.totalDonated == TotalDonated(paid[..if |paid| < FETCH_LIMIT then |paid| else FETCH_LIMIT])
  {
    var ps := Listing.Paginate(active, 1, FETCH_LIMIT).value;
    var pp := Listing.Paginate(paid, 1, FETCH_LIMIT).value;
    assert ps.items == active[..if |active| < FETCH_LIMIT then |active| else FETCH_LIMIT];
    assert pp.items == paid[..if |paid| < FETCH_LIMIT then |paid| else FETCH_LIMIT];
  }
}

=== FILE: donation.dfy ===
/**
  The project page: the progress bar and the checks the donation form makes
  before it sends a subscription request. The form's text fields are read
  with `parseFloat` and `parseInt`; their readings are inputs here (`None`
  where the browser's parse gives `NaN`).
*/
module ProjectPage {
  import opened Wrappers
  import opened Store
  import Projects
  import Validation

  /**
    `calculateProgress(project.currentAmount, project.goalAmount)`. The goal
    reaches the page as the decimal string of the JSON reply, or null:
    `goal` is the number that string reads as, `None` for null. Only a null
    goal is falsy; a decimal string, "0" included, is never `=== 0`, so
    every present goal reaches the division. Over a zero goal a positive
    total shows 100, a zero total `NaN` and a negative one minus infinity.
  */
  function CalculateProgress(current: real, goal: Option<real>): (r: Projects.Progress)
    ensures goal.None? ==> r == Projects.Percent(0.0)
    ensures r.Percent? ==> r.value <= 100.0
    ensures goal.Some? && goal.value != 0.0 ==>
              r.Percent? && (r.value < 100.0 ==> r.value * goal.value == current * 100.0)
    ensures goal.Some? && goal.value > 0.0 && current >= 0.0 ==> r.Percent? && r.value >= 0.0
    ensures goal.Some? && goal.value > 0.0 && current >= goal.value ==> r == Projects.Percent(100.0)
    ensures goal == Some(0.0) ==>
              && (current > 0.0 ==> r == Projects.Percent(100.0))
              && (current == 0.0 ==> r == Projects.NotANumber)
              && (current < 0.0 ==> r == Projects.MinusInfinity)
  {
    if goal.None? then Projects.Percent(0.0)
    else if goal.value == 0.0 then
      // current / 0 * 100 is Infinity, NaN or -Infinity; Math.min(100, ·) keeps the last two
      if current > 0.0 then Projects.Percent(100.0)
      else if current == 0.0 then Projects.NotANumber
      else Projects.MinusInfinity
    else
      var ratio := current / goal.value * 100.0;
      Projects.RatioBounds(current, goal.value);
      Projects.Percent(if ratio < 100.0 then ratio else 100.0)
  }

  /**
    The bar is drawn only for a project with a goal. There the page shows
    the progress the server's statistics report, before rounding, whenever
    a goal amount is stored, a zero goal included; without a stored goal
    amount the page shows 0 where the server reports no progress.
  */
  lemma PageAgreesWithServer(p: Project)
    requires p.hasGoal
    ensures p.goalAmount.Some? ==> CalculateProgress(p.currentAmount, p.goalAmount) == Projects.StatsProgress(p)
    ensures p.goalAmount.None? ==>
              CalculateProgress(p.currentAmount, p.goalAmount) == Projects.Percent(0.0)
              && Projects.StatsProgress(p) == Projects.NoProgress
  {
  }

  /** Raising more never lowers the bar. */
  lemma ProgressMonotone(current: real, more: real, goal: real)
    requires goal > 0.0 && more >= 0.0
    ensures CalculateProgress(current, Some(goal)).Percent? && CalculateProgress(current + more, Some(goal)).Percent?
    ensures CalculateProgress(current, Some(goal)).value <= CalculateProgress(current + more, Some(goal)).value
  {
    assert current / goal <= (current + more) / goal by {
      assert (current + more) / goal == current / goal + more / goal;
    }
  }

  // ---------------------------------------------------------------------------
  // The donation form

  /** The form as typed: the texts and the browser's readings of them. */
  datatype DonationForm = DonationForm(
    amountText: string,
    amountParsed: Option<real>,
    interval: string,
    daysText: string,
    daysParsed: Option<int>)

  /** What the page tells the donor instead of sending. */
  datatype FormError = AmountTooSmall | DaysMissing

  /** The day count as sent: left out of the body, a number, or `NaN` (sent as `null`). */
  datatype DaysField = Omitted | Days(n: int) | NotANumber

  /** The request body the page sends; `amount` is `None` where `parseFloat` gave `NaN`. */
  datatype Request = Request(projectId: string, amount: Option<real>, interval: string, customIntervalDays: DaysField)

  /**
    `handleSubmitDonation`: an empty amount, or one that reads below 100, is
    refused; so is a CUSTOM interval without a day count. An amount that
    does not read as a number is not below 100 and goes through.
  */
  function SubmitDonation(projectId: string, f: DonationForm): (r: Result<Request, FormError>)
    ensures r == Err(AmountTooSmall) <==> f.amountText == "" || (f.amountParsed.Some? && f.amountParsed.value < 100.0)
    ensures r == Err(DaysMissing) <==> !(r == Err(AmountTooSmall)) && f.interval == "CUSTOM" && f.daysText == ""
    ensures r.Ok? ==> r.value.projectId == projectId && r.value.amount == f.amountParsed && r.value.interval == f.interval
    ensures r.Ok? ==> (r.value.customIntervalDays.Omitted? <==> f.interval != "CUSTOM")
    ensures r.Ok? && f.interval == "CUSTOM" ==> (r.value.customIntervalDays.Days? <==> f.daysParsed.Some?)
    ensures r.Ok? && r.value.customIntervalDays.Days? ==> r.value.customIntervalDays.n == f.daysParsed.value
  {
    if f.amountText == "" || (f.amountParsed.Some? && f.amountParsed.value < 100.0) then Err(AmountTooSmall)
    else if f.interval == "CUSTOM" && f.daysText == "" then Err(DaysMissing)
    else
      var days := if f.interval != "CUSTOM" then Omitted
                  else if f.daysParsed.Some? then Days(f.daysParsed.value)
                  else NotANumber;
      Ok(Request(projectId, f.amountParsed, f.interval, days))
  }

  /** The route's reading of a number the page sends. */
  function SentNumber(text: string, x: real): Validation.Field {
    Validation.Given(text, Some(x), None)
  }

  /**
    A numeric amount the page sends satisfies the route's amount rule, but
    an amount that does not read as a number passes the page and is
    refused only by the route.
  */
  lemma PageAmountCheckAgreesWithRoute(projectId: string, f: DonationForm, text: string)
    requires SubmitDonation(projectId, f).Ok?
    ensures f.amountParsed.Some? ==> Validation.FloatAtLeast(SentNumber(text, f.amountParsed.value), 100.0)
    ensures f.amountParsed.None? ==> !Validation.FloatAtLeast(Validation.Given(text, None, None), 100.0)
  {
  }

  /**
    The page accepts any non-empty day count, so "0" passes it, while the
    route demands at least 1.
  */
  lemma ZeroDaysPassPageNotRoute(projectId: string, amountText: string, amount: real)
    requires amountText != "" && amount >= 100.0
    ensures var r := SubmitDonation(projectId, DonationForm(amountText, Some(amount), "CUSTOM", "0", Some(0)));
            r.Ok? && r.value.customIntervalDays == Days(0)
    ensures !Validation.DaysRule(Validation.Given("0", Some(0.0), Some(0)))
  {
  }
}

=== FILE: gateway.dfy ===
/**
  The payment gateway as the back end sees it. Every HTTP call to the gateway
  is an oracle: the model is handed what the call returned (its `status`
  flag and `data`) or that it threw, and it records the request it made.
*/
module Gateway {
  import opened Wrappers

  /** What one gateway call gave back: the reply's `status` and `data`, or a thrown error. */
  datatype Answer<+T> = Answer(status: bool, data: T) | Threw

  /** A request the back end sends to the gateway; amounts are in minor units (kobo). */
  datatype Call =
    | CreatePlan(amountMinor: int, interval: string)
    | InitializeTransaction(email: string, amountMinor: int, plan: Option<string>)
    | VerifyTransaction(reference: string)
    | EnableSubscription(code: string, token: string)
    | DisableSubscription(code: string, token: string)

  /** The `data` of an initialised transaction: the checkout reference and page. */
  datatype Checkout = Checkout(reference: string, authorizationUrl: string)

  /**
    The `data` of a transaction verification. Optional fields are the ones
    the gateway may leave out; `hasAuthorization` and `hasPlan` stand for the
    truthiness of the `authorization` and `plan` objects.
  */
  datatype Transaction = Transaction(
    status: string,
    id: Option<int>,
    paidAt: int,
    hasAuthorization: bool,
    customerCode: Option<string>,
    hasPlan: bool,
    subscriptionCode: Option<string>,
    emailToken: Option<string>)

  /** The `customer` object of a webhook event; an absent field is `None`. */
  datatype EventCustomer = EventCustomer(email: Option<string>, customerCode: Option<string>)

  /** The `plan` object of a `subscription.create` event. */
  datatype EventPlan = EventPlan(planCode: Option<string>)

  /** The `subscription` object of an `invoice.*` event. */
  datatype EventSubscription = EventSubscription(subscriptionCode: Option<string>)

  /**
    The `data` of a webhook event, as one record holding every field a
    handler reads: the charge fields (`reference`, `amount` in kobo,
    `paid_at`, `metadata.subscriptionId`), the top-level `subscription_code`
    and `email_token` of `subscription.*` events, and the `customer`,
    `plan` and `subscription` objects. A field or object the event leaves
    out is `None`; reading a field of a missing object throws.
  */
  datatype EventData = EventData(
    reference: string,
    amountMinor: int,
    paidAt: int,
    metadataSubscriptionId: Option<nat>,
    subscriptionCode: Option<string>,
    emailToken: Option<string>,
    customer: Option<EventCustomer>,
    plan: Option<EventPlan>,
    subscription: Option<EventSubscription>)

  /** A webhook body: the event name and its data. */
  datatype Event = Event(name: string, data: EventData)

  /** The gateway payload a payment row keeps in its `metadata` column. */
  datatype Payload = FromVerification(transaction: Transaction) | FromEvent(data: EventData)
}

=== FILE: helpers.dfy ===
/**
  Pure helpers of the backend: next-due-date arithmetic per billing interval,
  the mapping onto the gateway's interval names, the payment reference format,
  the e-mail predicate, and the conversion of amounts into the gateway's minor
  units. The current time and the random bytes are parameters.
*/
module Helpers {
  import opened Wrappers
  import opened Calendar

  /** The five billing intervals a subscription can be stored with. */
  datatype Interval = Weekly | Monthly | Quarterly | Annually | Custom

  function IntervalName(i: Interval): string {
    match i
    case Weekly => "WEEKLY"
    case Monthly => "MONTHLY"
    case Quarterly => "QUARTERLY"
    case Annually => "ANNUALLY"
    case Custom => "CUSTOM"
  }

  function ParseInterval(s: string): (r: Option<Interval>)
    ensures r.Some? ==> IntervalName(r.value) == s
  {
    if s == "WEEKLY" then Some(Weekly)
    else if s == "MONTHLY" then Some(Monthly)
    else if s == "QUARTERLY" then Some(Quarterly)
    else if s == "ANNUALLY" then Some(Annually)
    else if s == "CUSTOM" then Some(Custom)
    else None
  }

  lemma ParseIntervalName(i: Interval)
    ensures ParseInterval(IntervalName(i)) == Some(i)
  {
  }

  /** JavaScript truthiness of an optional day count: present and non-zero. */
  predicate Truthy(n: Option<int>) {
    n.Some? && n.value != 0
  }

  /** JavaScript truthiness of an optional string: present and non-empty. */
  predicate TruthyText(s: Option<string>) {
    s.Some? && s.value != ""
  }

  /**
    `calculateNextPaymentDate(interval, customDays, fromDate)` on the raw interval
    string. WEEKLY is a `setDate(+7)`, MONTHLY and QUARTERLY are `setMonth(+1)` and
    `setMonth(+3)`, ANNUALLY is `setFullYear(+1)`; CUSTOM adds the day count when
    it is truthy and otherwise returns the date unchanged; any other string falls
    back to MONTHLY. The input instant is a value and is never mutated.
  */
  function CalculateNextPaymentDate(interval: string, customDays: Option<int>, from: int): (r: int)
    ensures interval == "WEEKLY" ==> r == from + 7 * MsPerDay
    ensures interval == "MONTHLY" ==>
              CivilOf(r) == MonthsOn(CivilOf(from), 1) && TimeWithinDay(r) == TimeWithinDay(from)
    ensures interval == "QUARTERLY" ==>
              CivilOf(r) == MonthsOn(CivilOf(from), 3) && TimeWithinDay(r) == TimeWithinDay(from)
    ensures interval == "ANNUALLY" ==>
              CivilOf(r) == MonthsOn(CivilOf(from), 12) && TimeWithinDay(r) == TimeWithinDay(from)
    ensures interval == "CUSTOM" && Truthy(customDays) ==> r == from + customDays.value * MsPerDay
    ensures interval == "CUSTOM" && !Truthy(customDays) ==> r == from
    ensures interval != "CUSTOM" ==> r > from
  {
    if interval == "WEEKLY" then
      SetDatePlusExact(from, 7);
      SetDatePlus(from, 7)
    else if interval == "MONTHLY" then
      MonthsStep(from, 1)
    else if interval == "QUARTERLY" then
      MonthsStep(from, 3)
    else if interval == "ANNUALLY" then
      SetFullYearIsTwelveMonths(from, 1);
      var twelveMonthsOn := MonthsStep(from, 12);
      SetFullYearPlus(from, 1)
    else if interval == "CUSTOM" then
      if Truthy(customDays) then
        SetDatePlusExact(from, customDays.value);
        SetDatePlus(from, customDays.value)
      else from
    else
      MonthsStep(from, 1)
  }

  /** `setMonth(getMonth() + k)` for `k >= 1`, with the facts the callers rely on. */
  function MonthsStep(from: int, k: nat): (r: int)
    requires k >= 1
    ensures r == SetMonthPlus(from, k)
    ensures CivilOf(r) == MonthsOn(CivilOf(from), k) && TimeWithinDay(r) == TimeWithinDay(from)
    ensures r >= from + 28 * k * MsPerDay
  {
    SetMonthPlusCivil(from, k);
    SetMonthPlusGrows(from, k);
    SetMonthPlus(from, k)
  }

  /** The next due date of a stored interval. */
  function NextPaymentDate(i: Interval, customDays: Option<int>, from: int): int {
    CalculateNextPaymentDate(IntervalName(i), customDays, from)
  }

  /** An interval string outside the five known names behaves exactly like MONTHLY. */
  lemma UnknownIntervalIsMonthly(interval: string, customDays: Option<int>, from: int)
    requires ParseInterval(interval).None?
    ensures CalculateNextPaymentDate(interval, customDays, from)
         == CalculateNextPaymentDate("MONTHLY", None, from)
  {
  }

  /** The result is later than the start for every interval except a CUSTOM one without a positive day count. */
  lemma NextPaymentDateLater(i: Interval, customDays: Option<int>, from: int)
    ensures NextPaymentDate(i, customDays, from) > from
        <==> (i != Custom || (customDays.Some? && customDays.value > 0))
  {
  }

  /** January 31st plus one month is March 3rd in a common year: the day rolls over, it is not clamped. */
  lemma MonthlyRollsOver()
    ensures MonthsOn(Civil(2025, 1, 31), 1) == Civil(2025, 3, 3)
    ensures MonthsOn(Civil(2024, 1, 31), 1) == Civil(2024, 3, 2)
    ensures MonthsOn(Civil(2024, 2, 29), 12) == Civil(2025, 3, 1)
  {
  }

  function AsciiLower(c: char): char {
    if 'A' <= c <= 'Z' then (c as int + 32) as char else c
  }

  function AsciiUpper(c: char): char {
    if 'a' <= c <= 'z' then (c as int - 32) as char else c
  }

  function Lower(s: string): (r: string)
    ensures |r| == |s|
    ensures forall k :: 0 <= k < |s| ==> r[k] == AsciiLower(s[k])
  {
    if s == [] then [] else [AsciiLower(s[0])] + Lower(s[1..])
  }

  function Upper(s: string): (r: string)
    ensures |r| == |s|
    ensures forall k :: 0 <= k < |s| ==> r[k] == AsciiUpper(s[k])
  {
    if s == [] then [] else [AsciiUpper(s[0])] + Upper(s[1..])
  }

  /** The intervals the gateway has a plan interval for; CUSTOM is not one of them. */
  predicate GatewaySupported(interval: string) {
    interval == "WEEKLY" || interval == "MONTHLY" || interval == "QUARTERLY" || interval == "ANNUALLY"
  }

  /**
    The names every JavaScript object literal inherits from
    `Object.prototype`. Looking one of them up in a literal that does not
    define it finds the inherited member (a function, or the prototype
    itself), which is truthy and not a string.
  */
  predicate InheritedName(name: string) {
    name in {"constructor", "hasOwnProperty", "isPrototypeOf", "propertyIsEnumerable", "toLocaleString",
             "toString", "valueOf", "__proto__", "__defineGetter__", "__defineSetter__",
             "__lookupGetter__", "__lookupSetter__"}
  }

  /**
    `mapToPaystackInterval`: the lower-case name of a gateway-supported
    interval, and 'monthly' for any other name that is not an inherited
    one (CUSTOM included).
  */
  function MapToGatewayInterval(interval: string): (r: string)
    ensures GatewaySupported(interval) ==> r == Lower(interval)
    ensures !GatewaySupported(interval) && !InheritedName(interval) ==> r == "monthly"
  {
    LowerIntervalNames();
    if interval == "WEEKLY" then "weekly"
    else if interval == "MONTHLY" then "monthly"
    else if interval == "QUARTERLY" then "quarterly"
    else if interval == "ANNUALLY" then "annually"
    else "monthly"
  }

  /** The lower-case names of the four gateway intervals. */
  lemma LowerIntervalNames()
    ensures Lower("WEEKLY") == "weekly" && Lower("MONTHLY") == "monthly"
    ensures Lower("QUARTERLY") == "quarterly" && Lower("ANNUALLY") == "annually"
  {
    LowerWeekly();
    LowerMonthly();
    LowerQuarterly();
    LowerAnnually();
  }

  lemma LowerWeekly()
    ensures Lower("WEEKLY") == "weekly"
  {
    LowerIs("WEEKLY", "weekly");
  }

  lemma LowerMonthly()
    ensures Lower("MONTHLY") == "monthly"
  {
    LowerIs("MONTHLY", "monthly");
  }

  lemma LowerQuarterly()
    ensures Lower("QUARTERLY") == "quarterly"
  {
    LowerIs("QUARTERLY", "quarterly");
  }

  lemma LowerAnnually()
    ensures Lower("ANNUALLY") == "annually"
  {
    LowerIs("ANNUALLY", "annually");
  }

  /** `Lower(s)` is `t` when `t` lower-cases `s` character by character. */
  lemma LowerIs(s: string, t: string)
    requires |s| == |t| && forall k :: 0 <= k < |s| ==> AsciiLower(s[k]) == t[k]
    ensures Lower(s) == t
  {
  }

  /** `Math.round(amount * 100)`: the gateway's integer minor units (kobo) for a naira amount. */
  function ToMinorUnits(amount: real): (r: int)
    ensures amount * 100.0 - 0.5 < r as real <= amount * 100.0 + 0.5
  {
    (amount * 100.0 + 0.5).Floor
  }

  lemma WholeAmountsConvertExactly(naira: int)
    ensures ToMinorUnits(naira as real) == naira * 100
  {
  }

  // ---------------------------------------------------------------------------
  // Payment references: upper(prefix + "_" + base36(timestamp) + "_" + hex(4 random bytes))

  newtype byte = x: int | 0 <= x < 256

  const DefaultPrefix: string := "SOW"

  /** A reference made without a prefix argument starts with "SOW_". */
  lemma DefaultReferencePrefix(timestamp: nat, random: seq<byte>)
    requires |random| == 4
    ensures GenerateReference(DefaultPrefix, timestamp, random)[..4] == "SOW_"
  {
    assert Upper(DefaultPrefix) == DefaultPrefix;
  }

  /** The lower-case digit character JavaScript uses for digit `d` in bases up to 36. */
  function DigitChar(d: int): char
    requires 0 <= d < 36
  {
    if d < 10 then ('0' as int + d) as char else ('a' as int + d - 10) as char
  }

  predicate IsUpperDigit(c: char) {
    '0' <= c <= '9' || 'A' <= c <= 'Z'
  }

  /** Value of an upper-case base-36 digit. */
  function DigitValue(c: char): (v: int)
    requires IsUpperDigit(c)
    ensures 0 <= v < 36
  {
    if '0' <= c <= '9' then c as int - '0' as int else c as int - 'A' as int + 10
  }

  /** `n.toString(36)` for a non-negative integer: no leading zeros, "0" for zero. */
  function ToBase36(n: nat): (r: string)
    ensures |r| >= 1
    decreases n
  {
    if n < 36 then [DigitChar(n)] else ToBase36(n / 36) + [DigitChar(n % 36)]
  }

  predicate AllUpperDigits(s: string) {
    forall k :: 0 <= k < |s| ==> IsUpperDigit(s[k])
  }

  predicate AllUpperHex(s: string) {
    forall k :: 0 <= k < |s| ==> IsUpperDigit(s[k]) && DigitValue(s[k]) < 16
  }

  function FromBase36(s: string): nat
    requires AllUpperDigits(s)
  {
    if s == [] then 0 else FromBase36(s[..|s| - 1]) * 36 + DigitValue(s[|s| - 1])
  }

  /** Two lower-case hex digits per byte, as `Buffer.toString('hex')` writes them. */
  function Hex(bytes: seq<byte>): (r: string)
    ensures |r| == 2 * |bytes|
  {
    if bytes == [] then []
    else [DigitChar(bytes[0] as int / 16), DigitChar(bytes[0] as int % 16)] + Hex(bytes[1..])
  }

  function HexDecode(s: string): seq<byte>
    requires |s| % 2 == 0 && AllUpperHex(s)
  {
    if s == [] then []
    else [(DigitValue(s[0]) * 16 + DigitValue(s[1])) as byte] + HexDecode(s[2..])
  }

  /**
    `generateReference(prefix)` with the clock reading `timestamp` (`Date.now()`)
    and the four bytes of `crypto.randomBytes(4)` as parameters.
  */
  function GenerateReference(prefix: string, timestamp: nat, random: seq<byte>): (r: string)
    requires |random| == 4
    ensures |r| == |prefix| + |ToBase36(timestamp)| + 10
    ensures forall k :: 0 <= k < |r| ==> !('a' <= r[k] <= 'z')
    ensures r == Upper(prefix) + "_" + Upper(ToBase36(timestamp)) + "_" + Upper(Hex(random))
  {
    UpperJoin(prefix, ToBase36(timestamp));
    UpperJoin(prefix + "_" + ToBase36(timestamp), Hex(random));
    Upper(prefix + "_" + ToBase36(timestamp) + "_" + Hex(random))
  }

  /** The parts a reference is made of. */
  datatype ReferenceParts = ReferenceParts(prefix: string, timestamp: nat, random: seq<byte>)

  /** Splits `s` at the last occurrence of `sep`. */
  function SplitLast(s: string, sep: char): Option<(string, string)>
    decreases |s|
  {
    if |s| == 0 then None
    else if s[|s| - 1] == sep then Some((s[..|s| - 1], ""))
    else
      match SplitLast(s[..|s| - 1], sep)
      case None => None
      case Some(p) => Some((p.0, p.1 + [s[|s| - 1]]))
  }

  /** Reads a reference back into its prefix, timestamp and random bytes. */
  function ParseReference(r: string): Option<ReferenceParts> {
    match SplitLast(r, '_')
    case None => None
    case Some(outer) =>
      match SplitLast(outer.0, '_')
      case None => None
      case Some(inner) =>
        var stamp, hex := inner.1, outer.1;
        if |stamp| > 0 && AllUpperDigits(stamp) && |hex| == 8 && AllUpperHex(hex)
        then Some(ReferenceParts(inner.0, FromBase36(stamp), HexDecode(hex)))
        else None
  }

  lemma UpperConcat(a: string, b: string)
    ensures Upper(a + b) == Upper(a) + Upper(b)
  {
  }

  /** Upper-casing a string joined with '_' upper-cases both sides and keeps the separator. */
  lemma UpperJoin(a: string, b: string)
    ensures Upper(a + "_" + b) == Upper(a) + "_" + Upper(b)
  {
    UpperConcat(a + "_", b);
    UpperConcat(a, "_");
    assert Upper("_") == "_";
  }

  lemma {:induction false} SplitLastJoin(a: string, sep: char, b: string)
    requires forall k :: 0 <= k < |b| ==> b[k] != sep
    ensures SplitLast(a + [sep] + b, sep) == Some((a, b))
    decreases |b|
  {
    var s := a + [sep] + b;
    if |b| > 0 {
      var b' := b[..|b| - 1];
      assert s[..|s| - 1] == a + [sep] + b';
      SplitLastJoin(a, sep, b');
      assert b' + [b[|b| - 1]] == b;
    } else {
      assert s[..|s| - 1] == a;
    }
  }

  /** Upper-casing a digit character gives an upper-case digit of the same value. */
  lemma DigitCharUpper(d: int)
    requires 0 <= d < 36
    ensures IsUpperDigit(AsciiUpper(DigitChar(d))) && DigitValue(AsciiUpper(DigitChar(d))) == d
  {
  }

  lemma {:induction false} Base36RoundTrip(n: nat)
    ensures AllUpperDigits(Upper(ToBase36(n)))
    ensures FromBase36(Upper(ToBase36(n))) == n
    decreases n
  {
    var s := Upper(ToBase36(n));
    if n < 36 {
      DigitCharUpper(n);
      assert s[..0] == [];
    } else {
      Base36RoundTrip(n / 36);
      UpperConcat(ToBase36(n / 36), [DigitChar(n % 36)]);
      DigitCharUpper(n % 36);
      assert s[..|s| - 1] == Upper(ToBase36(n / 36));
    }
  }

  lemma {:induction false} HexRoundTrip(bytes: seq<byte>)
    ensures AllUpperHex(Upper(Hex(bytes)))
    ensures HexDecode(Upper(Hex(bytes))) == bytes
  {
    if bytes != [] {
      var hi, lo := bytes[0] as int / 16, bytes[0] as int % 16;
      HexRoundTrip(bytes[1..]);
      UpperConcat([DigitChar(hi), DigitChar(lo)], Hex(bytes[1..]));
      DigitCharUpper(hi);
      DigitCharUpper(lo);
      var s := Upper(Hex(bytes));
      assert s[2..] == Upper(Hex(bytes[1..]));
    }
  }

  /** The reference is the reconciliation key: its timestamp and random bytes can be read back. */
  lemma ReferenceRoundTrip(prefix: string, timestamp: nat, random: seq<byte>)
    requires |random| == 4
    ensures ParseReference(GenerateReference(prefix, timestamp, random))
         == Some(ReferenceParts(Upper(prefix), timestamp, random))
  {
    var p, t, h := Upper(prefix), Upper(ToBase36(timestamp)), Upper(Hex(random));
    Base36RoundTrip(timestamp);
    HexRoundTrip(random);
    NoSeparatorIn(t);
    NoSeparatorIn(h);
    var r := GenerateReference(prefix, timestamp, random);
    assert r == (p + "_" + t) + "_" + h;
    SplitLastJoin(p + "_" + t, '_', h);
    SplitLastJoin(p, '_', t);
  }

  lemma NoSeparatorIn(s: string)
    requires AllUpperDigits(s)
    ensures forall k :: 0 <= k < |s| ==> s[k] != '_'
  {
  }

  // ---------------------------------------------------------------------------
  // E-mail addresses: /^[^\s@]+@[^\s@]+\.[^\s@]+$/

  /** JavaScript's `\s` class: the ECMAScript white-space and line-terminator code points. */
  predicate IsJsWhitespace(c: char) {
    var n := c as int;
    n == 9 || n == 10 || n == 11 || n == 12 || n == 13 || n == 32 || n == 0xA0 || n == 0x1680
    || (0x2000 <= n <= 0x200A) || n == 0x2028 || n == 0x2029 || n == 0x202F || n == 0x205F
    || n == 0x3000 || n == 0xFEFF
  }

  /** A character of the class `[^\s@]`. */
  predicate EmailChar(c: char) {
    !IsJsWhitespace(c) && c != '@'
  }

  /**
    What the regular expression matches, stated over positions: one '@' at
    position `i` after a non-empty local part, a '.' at a position `j` with at
    least one character between the '@' and it and at least one after it, and
    every other character in `[^\s@]`.
  */
  ghost predicate MatchesEmailPattern(s: string) {
    exists i, j ::
      0 < i && i + 1 < j < |s| - 1 && s[i] == '@' && s[j] == '.'
      && (forall k :: 0 <= k < |s| && k != i ==> EmailChar(s[k]))
  }

  function IndexOf(s: string, c: char): (r: Option<nat>)
    ensures r.Some? ==> r.value < |s| && s[r.value] == c && (forall k :: 0 <= k < r.value ==> s[k] != c)
    ensures r.None? ==> forall k :: 0 <= k < |s| ==> s[k] != c
  {
    if s == [] then None
    else if s[0] == c then Some(0)
    else match IndexOf(s[1..], c)
      case None => None
      case Some(k) => Some(k + 1)
  }

  /** `isValidEmail`: split at the first '@', then check the local part and the domain. */
  predicate IsValidEmail(s: string) {
    match IndexOf(s, '@')
    case None => false
    case Some(i) =>
      var local, domain := s[..i], s[i + 1..];
      && |local| > 0
      && (forall k :: 0 <= k < |local| ==> EmailChar(local[k]))
      && (forall k :: 0 <= k < |domain| ==> EmailChar(domain[k]))
      && (exists k :: 0 < k < |domain| - 1 && domain[k] == '.')
  }

  /** The predicate accepts exactly the strings the pattern matches. */
  lemma IsValidEmailMatchesPattern(s: string)
    ensures IsValidEmail(s) <==> MatchesEmailPattern(s)
  {
    if IsValidEmail(s) {
      ValidEmailMatches(s);
    }
    if MatchesEmailPattern(s) {
      PatternIsValidEmail(s);
    }
  }

  lemma ValidEmailMatches(s: string)
    requires IsValidEmail(s)
    ensures MatchesEmailPattern(s)
  {
    var i := IndexOf(s, '@').value;
    var domain := s[i + 1..];
    var k :| 0 < k < |domain| - 1 && domain[k] == '.';
    assert s[i + 1 + k] == '.';
    forall m | 0 <= m < |s| && m != i ensures EmailChar(s[m]) {
      if m > i {
        assert s[m] == domain[m - i - 1];
      } else {
        assert s[m] == s[..i][m];
      }
    }
  }

  lemma PatternIsValidEmail(s: string)
    requires MatchesEmailPattern(s)
    ensures IsValidEmail(s)
  {
    var i, j :| 0 < i && i + 1 < j < |s| - 1 && s[i] == '@' && s[j] == '.'
               && (forall k :: 0 <= k < |s| && k != i ==> EmailChar(s[k]));
    var r := IndexOf(s, '@');
    assert r.Some? by {
      assert s[i] == '@';
    }
    // the first '@' cannot come before `i`: every other character is an `EmailChar`
    // the first '@' is `i`: every other character is an `EmailChar`
    var f := r.value;
    assert !EmailChar(s[f]);
    assert f == i;
    var local, domain := s[..i], s[i + 1..];
    assert |local| > 0;
    forall k | 0 <= k < |local| ensures EmailChar(local[k]) {
      assert local[k] == s[k];
    }
    forall k | 0 <= k < |domain| ensures EmailChar(domain[k]) {
      assert domain[k] == s[i + 1 + k];
    }
    assert 0 < j - i - 1 < |domain| - 1 && domain[j - i - 1] == '.';
  }

  lemma EmailAccepted()
    ensures IsValidEmail("a@b.c")
  {
    var s := "a@b.c";
    assert s[1] == '@' && s[3] == '.';
    assert forall k :: 0 <= k < |s| && k != 1 ==> EmailChar(s[k]);
    assert MatchesEmailPattern(s);
    IsValidEmailMatchesPattern(s);
  }

  lemma EmailWithoutDotRejected()
    ensures !IsValidEmail("a@b")
  {
    IsValidEmailMatchesPattern("a@b");
  }

  lemma EmailWithTwoAtsRejected()
    ensures !IsValidEmail("a@b@c.d")
  {
    var s := "a@b@c.d";
    forall i, j | 0 < i && i + 1 < j < |s| - 1 && s[i] == '@' && s[j] == '.'
      ensures exists k :: 0 <= k < |s| && k != i && !EmailChar(s[k])
    {
      if i == 1 {
        assert !EmailChar(s[3]);
      } else {
        assert !EmailChar(s[1]);
      }
    }
    IsValidEmailMatchesPattern(s);
  }
}

=== FILE: inbox.dfy ===
/**
  The donor's notification page: the relative time shown on each item, the
  unread counter, and the local copy of the list the page updates after the
  server accepts a mark-read request.
*/
module Inbox {
  import opened Store
  import Calendar
  import Notifications

  // ---------------------------------------------------------------------------
  // Relative times

  /** What `formatDate` shows: minutes, hours or days ago, or the notification's own date. */
  datatype Shown = MinutesAgo(n: int) | HoursAgo(n: int) | DaysAgo(n: int) | OnDate(at: int)

  const WEEK: int := 7 * Calendar.MsPerDay

  /**
    `formatDate` at instant `now` for a notification created at `at`. The
    divisions floor, as `Math.floor` does; a notification from the future
    shows a negative number of minutes.
  */
  function FormatDate(now: int, at: int): (r: Shown)
    ensures var diff := now - at;
            && (r.MinutesAgo? <==> diff < Calendar.MsPerHour)
            && (r.HoursAgo? <==> Calendar.MsPerHour <= diff < Calendar.MsPerDay)
            && (r.DaysAgo? <==> Calendar.MsPerDay <= diff < WEEK)
            && (r.OnDate? <==> WEEK <= diff)
    ensures r.MinutesAgo? ==> r.n * Calendar.MsPerMinute <= now - at < (r.n + 1) * Calendar.MsPerMinute && r.n < 60
    ensures r.HoursAgo? ==> r.n * Calendar.MsPerHour <= now - at < (r.n + 1) * Calendar.MsPerHour && 1 <= r.n < 24
    ensures r.DaysAgo? ==> r.n * Calendar.MsPerDay <= now - at < (r.n + 1) * Calendar.MsPerDay && 1 <= r.n < 7
    ensures r.OnDate? ==> r.at == at
  {
    var diff := now - at;
    var minutes := diff / Calendar.MsPerMinute;
    var hours := diff / Calendar.MsPerHour;
    var days := diff / Calendar.MsPerDay;
    if minutes < 60 then MinutesAgo(minutes)
    else if hours < 24 then HoursAgo(hours)
    else if days < 7 then DaysAgo(days)
    else OnDate(at)
  }

  /** The coarseness of what is shown. */
  function Rank(s: Shown): nat {
    match s
    case MinutesAgo(_) => 0
    case HoursAgo(_) => 1
    case DaysAgo(_) => 2
    case OnDate(_) => 3
  }

  /** As time passes an item only moves to coarser buckets, never back. */
  lemma FormatDateCoarsens(now: int, later: int, at: int)
    requires now <= later
    ensures Rank(FormatDate(now, at)) <= Rank(FormatDate(later, at))
  {
  }

  // ---------------------------------------------------------------------------
  // The local list

  /** An item of the page's list: the notification and its id. */
  datatype Item = Item(id: Id, notice: Notification)

  /** `notifications.filter((n) => !n.isRead).length`. */
  function UnreadCount(items: seq<Item>): (r: nat)
    ensures r <= |items|
    ensures r == 0 <==> forall k :: 0 <= k < |items| ==> items[k].notice.isRead
  {
    if items == [] then 0
    else (if items[0].notice.isRead then 0 else 1) + UnreadCount(items[1..])
  }

  /** The positions below `n` of the unread items. */
  function UnreadBelow(items: seq<Item>, n: int): set<int> {
    set k | 0 <= k < n && k < |items| && !items[k].notice.isRead
  }

  /** The counter is the number of positions holding an unread item. */
  lemma UnreadCountCountsUnread(items: seq<Item>)
    ensures UnreadCount(items) == |UnreadBelow(items, |items|)|
  {
    UnreadPrefix(items, |items|);
    assert items[..|items|] == items;
  }

  lemma {:induction false} UnreadPrefix(items: seq<Item>, n: nat)
    requires n <= |items|
    ensures UnreadCount(items[..n]) == |UnreadBelow(items, n)|
  {
    if n > 0 {
      UnreadPrefix(items, n - 1);
      assert items[..n] == items[..n - 1] + [items[n - 1]];
      UnreadCountSnoc(items[..n - 1], items[n - 1]);
      UnreadBelowStep(items, n);
    }
  }

  lemma UnreadBelowStep(items: seq<Item>, n: nat)
    requires 0 < n <= |items|
    ensures |UnreadBelow(items, n)| == |UnreadBelow(items, n - 1)| + (if items[n - 1].notice.isRead then 0 else 1)
  {
    var below := UnreadBelow(items, n - 1);
    assert n - 1 !in below;
    if items[n - 1].notice.isRead {
      assert UnreadBelow(items, n) == below;
    } else {
      assert UnreadBelow(items, n) == below + {n - 1};
    }
  }

  lemma {:induction false} UnreadCountSnoc(xs: seq<Item>, x: Item)
    ensures UnreadCount(xs + [x]) == UnreadCount(xs) + (if x.notice.isRead then 0 else 1)
  {
    if xs != [] {
      assert (xs + [x])[1..] == xs[1..] + [x];
      UnreadCountSnoc(xs[1..], x);
    }
  }

  /** After a successful `markAsRead(id)`: the items with that id become read, the rest stay. */
  function MarkRead(items: seq<Item>, id: Id): (r: seq<Item>)
    ensures |r| == |items|
    ensures forall k :: 0 <= k < |items| ==> r[k].id == items[k].id
    ensures forall k :: 0 <= k < |items| ==>
              r[k].notice == if items[k].id == id then items[k].notice.(isRead := true) else items[k].notice
  {
    if items == [] then []
    else
      var first := if items[0].id == id then items[0].(notice := items[0].notice.(isRead := true)) else items[0];
      [first] + MarkRead(items[1..], id)
  }

  /** After a successful `markAllAsRead`: every item becomes read. */
  function MarkAllRead(items: seq<Item>): (r: seq<Item>)
    ensures |r| == |items|
    ensures forall k :: 0 <= k < |items| ==> r[k] == items[k].(notice := items[k].notice.(isRead := true))
  {
    if items == [] then [] else [items[0].(notice := items[0].notice.(isRead := true))] + MarkAllRead(items[1..])
  }

  /** Marking all read leaves nothing unread, and a second time changes nothing. */
  lemma MarkAllLeavesNoneUnread(items: seq<Item>)
    ensures UnreadCount(MarkAllRead(items)) == 0
    ensures MarkAllRead(MarkAllRead(items)) == MarkAllRead(items)
  {
  }

  /** Marking an id read lowers the counter by the number of unread items with that id. */
  lemma {:induction false} MarkReadCount(items: seq<Item>, id: Id)
    ensures UnreadCount(MarkRead(items, id)) + UnreadWith(items, id) == UnreadCount(items)
  {
    if items != [] {
      MarkReadCount(items[1..], id);
      assert MarkRead(items, id)[1..] == MarkRead(items[1..], id);
    }
  }

  /** The number of unread items with the given id. */
  function UnreadWith(items: seq<Item>, id: Id): nat {
    if items == [] then 0
    else (if items[0].id == id && !items[0].notice.isRead then 1 else 0) + UnreadWith(items[1..], id)
  }

  /** The page shows the server's rows: each item is the stored notification under its id. */
  predicate Mirrors(items: seq<Item>, notices: map<Id, Notification>, userId: Id) {
    forall k :: 0 <= k < |items| ==>
      items[k].id in notices && notices[items[k].id] == items[k].notice && items[k].notice.userId == userId
  }

  /**
    The local updates keep the page in step with the server: after the
    server marks one or all of the user's notifications read, the locally
    updated list still shows exactly the stored rows.
  */
  lemma LocalUpdatesMirrorServer(st: Store, items: seq<Item>, userId: Id, id: Id)
    requires Mirrors(items, st.notifications, userId)
    ensures Mirrors(MarkAllRead(items), Notifications.MarkAllAsRead(st, userId).0.notifications, userId)
    ensures Notifications.MarkAsRead(st, id, userId).1 == 1 ==>
              Mirrors(MarkRead(items, id), Notifications.MarkAsRead(st, id, userId).0.notifications, userId)
  {
  }
}

=== FILE: listing.dfy ===
/**
  Table reads as the database performs them: a scan of the rows that match a
  filter, in primary-key order; an ordering by a timestamp column, newest
  first; and the `skip`/`take` pagination every listing endpoint shares,
  with its `Math.ceil(total / limit)` page count.
*/
module Listing {
  import opened Wrappers

  // ---------------------------------------------------------------------------
  // Filtered scans

  /**
    The keys below `n` of the rows of `m` that `keep` accepts, in ascending
    order. With every key of the table below `n` this is the whole filtered
    table (`findMany({ where })` without an `orderBy`).
  */
  function Scan<T>(m: map<nat, T>, keep: T -> bool, n: nat): (r: seq<nat>)
    ensures forall i :: 0 <= i < |r| ==> r[i] < n && r[i] in m && keep(m[r[i]])
    ensures forall id: nat :: id < n && id in m && keep(m[id]) ==> id in r
    ensures forall i, j :: 0 <= i < j < |r| ==> r[i] < r[j]
  {
    if n == 0 then []
    else
      var rest := Scan(m, keep, n - 1);
      if n - 1 in m && keep(m[n - 1]) then rest + [n - 1] else rest
  }

  /** The first row (in key order) that `keep` accepts: `findFirst({ where })`. */
  function First<T>(m: map<nat, T>, keep: T -> bool, n: nat): (r: Option<nat>)
    ensures r.Some? ==> r.value < n && r.value in m && keep(m[r.value])
    ensures r.Some? ==> forall id: nat :: id < r.value && id in m ==> !keep(m[id])
    ensures r.None? ==> forall id: nat :: id < n && id in m ==> !keep(m[id])
  {
    var ids := Scan(m, keep, n);
    if ids == [] then None else Some(ids[0])
  }

  /** The number of rows `keep` accepts: `count({ where })`. */
  function Count<T>(m: map<nat, T>, keep: T -> bool, n: nat): nat {
    |Scan(m, keep, n)|
  }

  /** The count is zero exactly when no row below `n` matches. */
  lemma CountZero<T>(m: map<nat, T>, keep: T -> bool, n: nat)
    ensures Count(m, keep, n) == 0 <==> forall id: nat :: id < n && id in m ==> !keep(m[id])
  {
    if Count(m, keep, n) != 0 {
      var r: seq<nat> := Scan(m, keep, n);
      assert r[0] < n && r[0] in m && keep(m[r[0]]);
    }
  }

  /** The keys below `n` of the rows `keep` accepts, as a set. */
  function Accepted<T>(m: map<nat, T>, keep: T -> bool, n: nat): set<nat> {
    set id: nat | id < n && id in m && keep(m[id])
  }

  /** The count is the number of accepted rows. */
  lemma {:induction false} CountIsAccepted<T>(m: map<nat, T>, keep: T -> bool, n: nat)
    ensures Count(m, keep, n) == |Accepted(m, keep, n)|
  {
    if n > 0 {
      CountIsAccepted(m, keep, n - 1);
      var below := Accepted(m, keep, n - 1);
      assert n - 1 !in below;
      if n - 1 in m && keep(m[n - 1]) {
        assert Accepted(m, keep, n) == below + {n - 1};
      } else {
        assert Accepted(m, keep, n) == below;
      }
    }
  }

  /** Scanning with filters that agree on every row gives the same keys. */
  lemma {:induction false} ScanSameFilter<T>(m: map<nat, T>, m': map<nat, T>, keep: T -> bool, keep': T -> bool, n: nat)
    requires forall id: nat :: id < n ==> (id in m && keep(m[id])) == (id in m' && keep'(m'[id]))
    ensures Scan(m, keep, n) == Scan(m', keep', n)
  {
    if n > 0 {
      ScanSameFilter(m, m', keep, keep', n - 1);
    }
  }

  /** A row added under the bound `n` is scanned last, when it is accepted. */
  lemma ScanAdded<T>(m: map<nat, T>, keep: T -> bool, n: nat, x: T)
    requires forall id :: id in m ==> id < n
    ensures Scan(m[n := x], keep, n + 1) == if keep(x) then Scan(m, keep, n) + [n] else Scan(m, keep, n)
  {
    ScanSameFilter(m, m[n := x], keep, keep, n);
  }

  /** Raising the bound past the last key of the table changes nothing. */
  lemma {:induction false} ScanPastKeys<T>(m: map<nat, T>, keep: T -> bool, n: nat, n': nat)
    requires n <= n' && forall id :: id in m ==> id < n
    ensures Scan(m, keep, n') == Scan(m, keep, n)
    decreases n' - n
  {
    if n' > n {
      ScanPastKeys(m, keep, n, n' - 1);
    }
  }

  // ---------------------------------------------------------------------------
  // Ordering newest first

  predicate SortedDesc(xs: seq<nat>, key: nat -> int) {
    forall i, j :: 0 <= i < j < |xs| ==> key(xs[i]) >= key(xs[j])
  }

  /** Inserts `x` after every element whose key is at least its own. */
  function InsertDesc(x: nat, xs: seq<nat>, key: nat -> int): (r: seq<nat>)
    requires SortedDesc(xs, key)
    ensures SortedDesc(r, key)
    ensures multiset(r) == multiset(xs) + multiset{x}
  {
    if xs == [] then [x]
    else if key(x) > key(xs[0]) then [x] + xs
    else
      var rest := InsertDesc(x, xs[1..], key);
      InsertDescHead(x, xs, key, rest);
      [xs[0]] + rest
  }

  lemma InsertDescHead(x: nat, xs: seq<nat>, key: nat -> int, rest: seq<nat>)
    requires xs != [] && SortedDesc(xs, key) && key(x) <= key(xs[0])
    requires SortedDesc(rest, key) && multiset(rest) == multiset(xs[1..]) + multiset{x}
    ensures SortedDesc([xs[0]] + rest, key)
    ensures multiset([xs[0]] + rest) == multiset(xs) + multiset{x}
  {
    assert xs == [xs[0]] + xs[1..];
    forall j | 0 <= j < |rest| ensures key(xs[0]) >= key(rest[j]) {
      assert rest[j] in multiset(rest);
      if rest[j] != x {
        assert rest[j] in multiset(xs[1..]);
        var k :| 0 <= k < |xs[1..]| && xs[1..][k] == rest[j];
        assert xs[k + 1] == rest[j];
      }
    }
    var r := [xs[0]] + rest;
    forall i, j | 0 <= i < j < |r| ensures key(r[i]) >= key(r[j]) {
      if i > 0 {
        assert r[i] == rest[i - 1] && r[j] == rest[j - 1];
      } else {
        assert r[j] == rest[j - 1];
      }
    }
  }

  /**
    `orderBy: { createdAt: 'desc' }` over the keys `xs`. Rows with equal keys
    keep their relative order (the database leaves that order unspecified).
  */
  function SortDesc(xs: seq<nat>, key: nat -> int): (r: seq<nat>)
    ensures SortedDesc(r, key)
    ensures multiset(r) == multiset(xs)
  {
    if xs == [] then []
    else
      assert xs == xs[..|xs| - 1] + [xs[|xs| - 1]];
      InsertDesc(xs[|xs| - 1], SortDesc(xs[..|xs| - 1], key), key)
  }

  /** Sorting keeps exactly the elements it was given. */
  lemma SortDescSameElements(xs: seq<nat>, key: nat -> int, x: nat)
    ensures x in SortDesc(xs, key) <==> x in xs
    ensures |SortDesc(xs, key)| == |xs|
  {
    var r := SortDesc(xs, key);
    assert x in r <==> x in multiset(r);
    assert x in xs <==> x in multiset(xs);
    assert |r| == |multiset(r)|;
  }

  // ---------------------------------------------------------------------------
  // Pagination

  /** One page of a listing: its items, the total number of matches and `pages`. */
  datatype Page<T> = Page(items: seq<T>, total: nat, pages: Option<int>)

  /**
    `Math.ceil(total / limit)`: the least whole number of pages at or above
    `total / limit`. A limit of 0 gives JavaScript `Infinity` (or `NaN` when
    `total` is 0), which the JSON reply carries as `null`: `None` here. A
    negative limit gives a count at or below zero (`-0` is written `0`).
  */
  function PageCount(total: nat, limit: int): (r: Option<int>)
    ensures r.None? <==> limit == 0
    ensures r.Some? && limit > 0 ==> r.value * limit >= total && (r.value - 1) * limit < total
    ensures r.Some? && limit < 0 ==> r.value * limit <= total && (r.value - 1) * limit > total
    ensures r.Some? && total == 0 ==> r.value == 0
  {
    if limit == 0 then None
    else if limit > 0 then
      CeilBounds(total, limit);
      Some((total + limit - 1) / limit)
    else
      FloorBounds(total, -limit);
      Some(-(total / -limit))
  }

  lemma CeilBounds(total: nat, limit: int)
    requires limit > 0
    ensures var c := (total + limit - 1) / limit;
            c * limit >= total && (c - 1) * limit < total && (total == 0 ==> c == 0)
  {
    var c := (total + limit - 1) / limit;
    var rem := (total + limit - 1) % limit;
    assert c * limit + rem == total + limit - 1 && 0 <= rem < limit;
    assert (c - 1) * limit == c * limit - limit;
  }

  lemma FloorBounds(total: nat, size: int)
    requires size > 0
    ensures var q := total / size;
            (-q) * -size <= total && (-q - 1) * -size > total && (total == 0 ==> q == 0)
  {
    var q := total / size;
    var rem := total % size;
    assert q * size + rem == total && 0 <= rem < size;
    assert (-q) * -size == q * size;
    assert (-q - 1) * -size == q * size + size;
  }

  /**
    The page `page` of `xs` at `limit` items per page: `skip = (page - 1) * limit`
    and `take = limit`. A negative skip is refused by the query builder:
    `None`. A non-negative take reads `take` items after the first `skip`;
    a negative take reads the last `-take` items before the final `skip`,
    still in list order.
  */
  function Paginate<T>(xs: seq<T>, page: int, limit: int): (r: Option<Page<T>>)
    ensures r.Some? <==> (page - 1) * limit >= 0
    ensures r.Some? ==> r.value.total == |xs| && r.value.pages == PageCount(|xs|, limit)
    ensures r.Some? && limit >= 0 ==>
              && |r.value.items| <= limit
              && (forall k :: 0 <= k < |r.value.items| ==>
                    (page - 1) * limit + k < |xs| && r.value.items[k] == xs[(page - 1) * limit + k])
              && ((page - 1) * limit + limit <= |xs| ==> |r.value.items| == limit)
              && ((page - 1) * limit < |xs| ==> |r.value.items| > 0 || limit == 0)
    ensures r.Some? && limit < 0 ==>
              var skip := (page - 1) * limit;
              && |r.value.items| <= -limit
              && (|r.value.items| > 0 ==> skip + |r.value.items| <= |xs|)
              && (forall k :: 0 <= k < |r.value.items| ==>
                    r.value.items[k] == xs[|xs| - skip - |r.value.items| + k])
              && (skip - limit <= |xs| ==> |r.value.items| == -limit)
              && (skip < |xs| < skip - limit ==> |r.value.items| == |xs| - skip)
              && (skip < |xs| ==> |r.value.items| > 0)
  {
    var skip := (page - 1) * limit;
    if skip < 0 then None
    else if limit >= 0 then
      var from := if skip < |xs| then skip else |xs|;
      var to := if skip + limit < |xs| then skip + limit else |xs|;
      Some(Page(xs[from..to], |xs|, PageCount(|xs|, limit)))
    else
      var to := if skip < |xs| then |xs| - skip else 0;
      var from := if to + limit > 0 then to + limit else 0;
      Some(Page(xs[from..to], |xs|, PageCount(|xs|, limit)))
  }

  /** A negative take on the first page reads the last `-limit` items of the list, or all of a shorter list. */
  lemma NegativeTakeReadsTail<T>(xs: seq<T>, limit: int)
    requires limit < 0
    ensures Paginate(xs, 1, limit).Some?
    ensures Paginate(xs, 1, limit).value.items == if -limit <= |xs| then xs[|xs| + limit..] else xs
  {
  }

  /**
    With a positive limit every element appears on exactly the page the
    page count allows: element `i` is item `i % limit` of page `i / limit + 1`,
    and that page number is at most `pages`.
  */
  lemma PaginateCovers<T>(xs: seq<T>, limit: nat, i: nat)
    requires limit > 0 && i < |xs|
    ensures Paginate(xs, i / limit + 1, limit).Some?
    ensures var p := Paginate(xs, i / limit + 1, limit).value;
            i % limit < |p.items| && p.items[i % limit] == xs[i]
            && p.pages.Some? && i / limit + 1 <= p.pages.value
  {
    var page := i / limit + 1;
    var skip := (page - 1) * limit;
    assert skip + i % limit == i;
    var p := Paginate(xs, page, limit).value;
    PageCountBound(|xs|, limit, i);
  }

  /** Any index below the total lies on a page no later than the last. */
  lemma PageCountBound(total: nat, limit: nat, i: nat)
    requires limit > 0 && i < total
    ensures PageCount(total, limit).Some? && i / limit + 1 <= PageCount(total, limit).value
  {
    var n := PageCount(total, limit).value;
    assert (i / limit) * limit <= i < n * limit;
    MulLessCancel(i / limit, n, limit);
  }

  lemma MulLessCancel(a: nat, b: nat, c: nat)
    requires a * c < b * c
    ensures a < b
  {
  }

  // ---------------------------------------------------------------------------
  // Listings: a filtered scan, ordered newest first, cut to a page

  /** A page of a list sorted by `key` holds elements of the list, still sorted. */
  lemma PageOfSorted(xs: seq<nat>, key: nat -> int, page: int, limit: int)
    requires Paginate(xs, page, limit).Some? && SortedDesc(xs, key)
    ensures var items := Paginate(xs, page, limit).value.items;
            (forall k :: 0 <= k < |items| ==> items[k] in xs) && SortedDesc(items, key)
  {
    var items := Paginate(xs, page, limit).value.items;
    var skip := (page - 1) * limit;
    var base := if limit >= 0 then skip else |xs| - skip - |items|;
    assert forall k :: 0 <= k < |items| ==> 0 <= base + k < |xs| && items[k] == xs[base + k];
    forall i, j | 0 <= i < j < |items| ensures key(items[i]) >= key(items[j]) {
      assert items[i] == xs[base + i] && items[j] == xs[base + j];
    }
  }

  /** The sorted scan holds exactly the accepted rows below `n`. */
  lemma SortedScanSound<T>(m: map<nat, T>, keep: T -> bool, n: nat, key: nat -> int, x: nat)
    ensures x in SortDesc(Scan(m, keep, n), key) <==> x < n && x in m && keep(m[x])
  {
    SortDescSameElements(Scan(m, keep, n), key, x);
  }

  /**
    The page `page` of the rows `keep` accepts, ordered by `key` descending:
    every item is an accepted row and the page is ordered.
  */
  function Query<T>(m: map<nat, T>, keep: T -> bool, n: nat, key: nat -> int, page: int, limit: int): (r: Option<Page<nat>>)
    ensures r.Some? <==> (page - 1) * limit >= 0
    ensures r.Some? ==> |r.value.items| <= if limit >= 0 then limit else -limit
    ensures r.Some? ==> r.value.total == Count(m, keep, n) && r.value.pages == PageCount(r.value.total, limit)
    ensures r.Some? ==> forall k :: 0 <= k < |r.value.items| ==> r.value.items[k] in m && keep(m[r.value.items[k]])
    ensures r.Some? ==> SortedDesc(r.value.items, key)
  {
    var sorted := SortDesc(Scan(m, keep, n), key);
    var r := Paginate(sorted, page, limit);
    SortDescSameElements(Scan(m, keep, n), key, 0);
    if r.Some? then
      PageOfSorted(sorted, key, page, limit);
      assert forall x :: x in r.value.items ==> x in sorted;
      forall x | x in sorted { SortedScanSound(m, keep, n, key, x); }
      r
    else r
  }

  /** With a positive limit every element of a list is on some page of it. */
  lemma SomePageHolds<T>(xs: seq<T>, limit: int, x: T)
    requires limit > 0 && x in xs
    ensures exists page :: 1 <= page && Paginate(xs, page, limit).Some? && x in Paginate(xs, page, limit).value.items
  {
    var i :| 0 <= i < |xs| && xs[i] == x;
    PaginateCovers(xs, limit, i);
    var page := i / limit + 1;
    assert Paginate(xs, page, limit).value.items[i % limit] == x;
  }

  /** With a positive limit every accepted row below `n` is on some page. */
  lemma ListingComplete<T>(m: map<nat, T>, keep: T -> bool, n: nat, key: nat -> int, limit: int, id: nat)
    requires limit > 0 && id < n && id in m && keep(m[id])
    ensures exists page :: 1 <= page && Query(m, keep, n, key, page, limit).Some?
                           && id in Query(m, keep, n, key, page, limit).value.items
  {
    var sorted := SortDesc(Scan(m, keep, n), key);
    SortDescSameElements(Scan(m, keep, n), key, id);
    SomePageHolds(sorted, limit, id);
    var page :| 1 <= page && Paginate(sorted, page, limit).Some? && id in Paginate(sorted, page, limit).value.items;
    assert Query(m, keep, n, key, page, limit) == Paginate(sorted, page, limit);
  }
}

=== FILE: mysubscriptions.dfy ===
/**
  The donor's subscription list: the buttons each card offers, the status
  badge, and whether the next payment date is shown.
*/
module SubscriptionCards {
  import opened Store
  import Subscriptions
  import Scheduler
  import Helpers

  datatype Action = PauseButton | ResumeButton | CancelButton

  /** The buttons of a card: ACTIVE offers Pause and Cancel, PAUSED offers Resume and Cancel, the rest none. */
  function Actions(status: SubStatus): (r: seq<Action>)
    ensures status == Active ==> r == [PauseButton, CancelButton]
    ensures status == Paused ==> r == [ResumeButton, CancelButton]
    ensures status == Cancelled || status == Expired ==> r == []
  {
    match status
    case Active => [PauseButton, CancelButton]
    case Paused => [ResumeButton, CancelButton]
    case _ => []
  }

  /** The request a button sends is accepted by the server for that status. */
  predicate Accepted(a: Action, status: SubStatus) {
    match a
    case PauseButton => Subscriptions.CanPause(status)
    case ResumeButton => Subscriptions.CanResume(status)
    case CancelButton => Subscriptions.CanCancel(status)
  }

  /**
    A card offers a button exactly when the server would accept its request,
    except that an EXPIRED subscription, which the server would let the
    donor cancel, offers no Cancel button.
  */
  lemma ButtonsMatchServerGuards(a: Action, status: SubStatus)
    ensures a in Actions(status) <==> Accepted(a, status) && status != Expired
    ensures Accepted(CancelButton, Expired) && CancelButton !in Actions(Expired)
  {
  }

  /** Every card offers at most one state change besides Cancel, and Cancel whenever it offers anything. */
  lemma CancelAlwaysOffered(status: SubStatus)
    ensures |Actions(status)| == 0 || |Actions(status)| == 2
    ensures Actions(status) != [] ==> Actions(status)[1] == CancelButton
  {
  }

  /**
    `getStatusBadge`: green for ACTIVE, amber for PAUSED, red for CANCELLED,
    and `badge-info` for EXPIRED and for any other name that is not an
    inherited one.
  */
  function StatusBadge(status: string): (r: string)
    ensures status == "ACTIVE" ==> r == "badge-success"
    ensures status == "PAUSED" ==> r == "badge-warning"
    ensures status == "CANCELLED" ==> r == "badge-danger"
    ensures status !in ["ACTIVE", "PAUSED", "CANCELLED"] && !Helpers.InheritedName(status) ==> r == "badge-info"
  {
    if status == "ACTIVE" then "badge-success"
    else if status == "PAUSED" then "badge-warning"
    else if status == "CANCELLED" then "badge-danger"
    else if status == "EXPIRED" then "badge-info"
    else "badge-info"
  }

  /** The name the server sends for a status. */
  function StatusName(s: SubStatus): string {
    match s
    case Active => "ACTIVE"
    case Paused => "PAUSED"
    case Cancelled => "CANCELLED"
    case Expired => "EXPIRED"
  }

  /** The live statuses get badges of their own; an expired card looks like an unknown one. */
  lemma BadgesTellLiveStatusesApart(a: SubStatus, b: SubStatus)
    requires a != Expired && b != Expired
    ensures StatusBadge(StatusName(a)) == StatusBadge(StatusName(b)) <==> a == b
    ensures StatusBadge(StatusName(Expired)) == StatusBadge("")
  {
  }

  /** The card shows the next payment date only for an ACTIVE subscription. */
  predicate ShowsNextPayment(s: SubStatus) {
    s == Active
  }

  /** Every subscription the reminder sweep picks is one whose card shows its next payment date. */
  lemma RemindedCardsShowNextPayment(s: Subscription, today: int, now: int)
    ensures Scheduler.DueForReminder(s, today, now) ==> ShowsNextPayment(s.status)
    ensures ShowsNextPayment(s.status) <==> Subscriptions.CanPause(s.status)
  {
  }
}

=== FILE: notifications.dfy ===
/**
  The in-app notification service: creating a notification, listing a
  user's notifications newest first with pagination, marking one or all of
  them read, counting the unread ones, and the three payment notices
  (reminder, success, failure). The e-mail half of each notice is not part
  of this model.
*/
module Notifications {
  import opened Wrappers
  import opened Store
  import opened Listing

  const REMINDER_KIND: string := "payment_reminder"
  const SUCCESS_KIND: string := "payment_success"
  const FAILED_KIND: string := "payment_failed"

  /** `createNotification`: a new unread notification stamped with `now`. */
  function CreateNotification(st: Store, userId: Id, title: string, kind: string,
                              metadata: Option<NoticeMeta>, now: int): (r: (Store, Id))
    ensures Valid(st) ==> Valid(r.0) && r.1 !in st.notifications
    ensures r.0.notifications == st.notifications[r.1 := Notification(userId, title, kind, false, now, metadata)]
    ensures r.0.(notifications := st.notifications, nextId := st.nextId) == st
  {
    AddNotification(st, Notification(userId, title, kind, false, now, metadata))
  }

  // ---------------------------------------------------------------------------
  // Listing and counting

  /** The `where` of a user's listing: their own rows, and only unread ones when asked. */
  function ListFilter(userId: Id, unreadOnly: bool): Notification -> bool {
    (n: Notification) => n.userId == userId && (!unreadOnly || !n.isRead)
  }

  /** The `createdAt` column, looked up by id. */
  function CreatedAt(st: Store): nat -> int {
    (id: nat) => if id in st.notifications then st.notifications[id].createdAt else 0
  }

  /**
    `getUserNotifications`: the ids of the user's notifications (unread ones
    only when `unreadOnly`), newest first, cut to the requested page, with
    the number of matches and `Math.ceil(total / limit)` pages. A negative
    skip makes the query throw (`None`).
  */
  function UserNotifications(st: Store, userId: Id, page: int, limit: int, unreadOnly: bool): (r: Option<Page<Id>>)
    ensures r.Some? <==> (page - 1) * limit >= 0
    ensures r.Some? ==> |r.value.items| <= if limit >= 0 then limit else -limit
    ensures r.Some? ==> r.value.total == |Scan(st.notifications, ListFilter(userId, unreadOnly), st.nextId)|
    ensures r.Some? && unreadOnly ==> r.value.total == UnreadCount(st, userId)
    ensures r.Some? ==> r.value.pages == PageCount(r.value.total, limit)
  {
    Query(st.notifications, ListFilter(userId, unreadOnly), st.nextId, CreatedAt(st), page, limit)
  }

  /**
    Every listed notification is the user's (and unread when `unreadOnly`),
    and the page is ordered by `createdAt`, newest first.
  */
  lemma ListingShowsOnlyMatches(st: Store, userId: Id, page: int, limit: int, unreadOnly: bool)
    requires UserNotifications(st, userId, page, limit, unreadOnly).Some?
    ensures var items := UserNotifications(st, userId, page, limit, unreadOnly).value.items;
            && (forall k :: 0 <= k < |items| ==>
                  items[k] in st.notifications && st.notifications[items[k]].userId == userId
                  && (unreadOnly ==> !st.notifications[items[k]].isRead))
            && (forall i, j :: 0 <= i < j < |items| ==>
                  st.notifications[items[i]].createdAt >= st.notifications[items[j]].createdAt)
  {
    var items := UserNotifications(st, userId, page, limit, unreadOnly).value.items;
    var key := CreatedAt(st);
    forall i, j | 0 <= i < j < |items|
      ensures st.notifications[items[i]].createdAt >= st.notifications[items[j]].createdAt
    {
      assert key(items[i]) >= key(items[j]);
    }
  }

  /**
    The listing is complete: with a positive limit, every notification of
    the user that passes the filter is on some page.
  */
  lemma ListingIsComplete(st: Store, userId: Id, limit: int, unreadOnly: bool, id: Id)
    requires Valid(st) && limit > 0
    requires id in st.notifications && st.notifications[id].userId == userId
    requires unreadOnly ==> !st.notifications[id].isRead
    ensures exists page :: 1 <= page && UserNotifications(st, userId, page, limit, unreadOnly).Some?
                           && id in UserNotifications(st, userId, page, limit, unreadOnly).value.items
  {
    var keep, key := ListFilter(userId, unreadOnly), CreatedAt(st);
    ListingComplete(st.notifications, keep, st.nextId, key, limit, id);
    var page :| 1 <= page && Query(st.notifications, keep, st.nextId, key, page, limit).Some?
                && id in Query(st.notifications, keep, st.nextId, key, page, limit).value.items;
    assert UserNotifications(st, userId, page, limit, unreadOnly) == Query(st.notifications, keep, st.nextId, key, page, limit);
  }

  /** `getUnreadCount`: the number of the user's unread notifications. */
  function UnreadCount(st: Store, userId: Id): nat {
    Count(st.notifications, ListFilter(userId, true), st.nextId)
  }

  /** The unread count is zero exactly when every notification of the user is read. */
  lemma UnreadCountZero(st: Store, userId: Id)
    requires Valid(st)
    ensures UnreadCount(st, userId) == 0 <==>
            forall id :: id in st.notifications && st.notifications[id].userId == userId ==> st.notifications[id].isRead
  {
    CountZero(st.notifications, ListFilter(userId, true), st.nextId);
  }

  // ---------------------------------------------------------------------------
  // Marking read

  /**
    `markAsRead`: an `updateMany` on id and user together, so another
    user's notification is left alone. Answers the number of rows updated.
  */
  function MarkAsRead(st: Store, notificationId: Id, userId: Id): (r: (Store, nat))
    ensures r.0.(notifications := st.notifications) == st
    ensures r.0.notifications.Keys == st.notifications.Keys
    ensures forall id :: id in st.notifications && id != notificationId ==> r.0.notifications[id] == st.notifications[id]
    ensures r.1 == 1 <==> notificationId in st.notifications && st.notifications[notificationId].userId == userId
    ensures r.1 == 1 ==> r.0.notifications[notificationId] == st.notifications[notificationId].(isRead := true)
    ensures r.1 == 0 ==> r.0 == st
  {
    if notificationId in st.notifications && st.notifications[notificationId].userId == userId then
      (st.(notifications := st.notifications[notificationId := st.notifications[notificationId].(isRead := true)]), 1)
    else (st, 0)
  }

  /**
    `markAllAsRead`: every unread notification of the user becomes read;
    answers how many there were.
  */
  function MarkAllAsRead(st: Store, userId: Id): (r: (Store, nat))
    ensures r.0.(notifications := st.notifications) == st
    ensures r.0.notifications.Keys == st.notifications.Keys
    ensures forall id :: id in st.notifications ==>
              r.0.notifications[id] ==
                if st.notifications[id].userId == userId then st.notifications[id].(isRead := true)
                else st.notifications[id]
    ensures r.1 == UnreadCount(st, userId)
  {
    var marked := map id | id in st.notifications ::
                    if st.notifications[id].userId == userId then st.notifications[id].(isRead := true)
                    else st.notifications[id];
    (st.(notifications := marked), UnreadCount(st, userId))
  }

  /** After marking all read, the user has no unread notification. */
  lemma MarkAllLeavesNoneUnread(st: Store, userId: Id)
    requires Valid(st)
    ensures UnreadCount(MarkAllAsRead(st, userId).0, userId) == 0
  {
    var st' := MarkAllAsRead(st, userId).0;
    assert Valid(st');
    UnreadCountZero(st', userId);
  }

  /** Marking all read twice is marking all read once, and the second run updates no row. */
  lemma MarkAllIdempotent(st: Store, userId: Id)
    requires Valid(st)
    ensures MarkAllAsRead(MarkAllAsRead(st, userId).0, userId).0 == MarkAllAsRead(st, userId).0
    ensures MarkAllAsRead(MarkAllAsRead(st, userId).0, userId).1 == 0
  {
    var once := MarkAllAsRead(st, userId).0;
    var twice := MarkAllAsRead(once, userId).0;
    assert twice.notifications == once.notifications;
    MarkAllLeavesNoneUnread(st, userId);
  }

  /** Marking all read for one user leaves every other user's notifications and unread count as they were. */
  lemma MarkAllLeavesOthers(st: Store, userId: Id, other: Id)
    requires Valid(st) && other != userId
    ensures UnreadCount(MarkAllAsRead(st, userId).0, other) == UnreadCount(st, other)
  {
    var st' := MarkAllAsRead(st, userId).0;
    ScanSameFilter(st.notifications, st'.notifications, ListFilter(other, true), ListFilter(other, true), st.nextId);
  }

  // ---------------------------------------------------------------------------
  // Payment notices

  /**
    The shared shape of `sendPaymentReminder`, `sendPaymentSuccess` and
    `sendPaymentFailed`: nothing when the user or the project is missing,
    otherwise one notification carrying the source id, project and amount.
  */
  function Notify(st: Store, userId: Id, projectId: Id, sourceId: Id, amount: real,
                  title: string, kind: string, now: int): (r: Store)
    ensures userId !in st.users || projectId !in st.projects ==> r == st
    ensures userId in st.users && projectId in st.projects ==>
              && r.notifications == st.notifications[st.nextId := Notification(userId, title, kind, false, now, Some(NoticeMeta(sourceId, projectId, amount)))]
              && r.(notifications := st.notifications, nextId := st.nextId) == st
              && r.nextId == st.nextId + 1
    ensures Valid(st) ==> Valid(r)
  {
    if userId !in st.users || projectId !in st.projects then st
    else CreateNotification(st, userId, title, kind, Some(NoticeMeta(sourceId, projectId, amount)), now).0
  }

  /**
    `sendPaymentReminder` for subscription `subId`: with its donor and its
    project on file, one unread `payment_reminder` notice to the donor,
    naming the subscription, its project and its amount; otherwise nothing.
  */
  function SendPaymentReminder(st: Store, subId: Id, sub: Subscription, now: int): (r: Store)
    ensures sub.userId !in st.users || sub.projectId !in st.projects ==> r == st
    ensures sub.userId in st.users && sub.projectId in st.projects ==>
              && r.nextId == st.nextId + 1
              && r.notifications == st.notifications[st.nextId := Notification(sub.userId, "Payment Reminder", REMINDER_KIND, false, now,
                                                                               Some(NoticeMeta(subId, sub.projectId, sub.amount)))]
              && r.(notifications := st.notifications, nextId := st.nextId) == st
    ensures Valid(st) ==> Valid(r)
  {
    Notify(st, sub.userId, sub.projectId, subId, sub.amount, "Payment Reminder", REMINDER_KIND, now)
  }

  /**
    `sendPaymentSuccess` for payment `paymentId`: with its donor and its
    project on file, one unread `payment_success` notice to the donor,
    naming the payment, its project and its amount; otherwise nothing.
  */
  function SendPaymentSuccess(st: Store, paymentId: Id, p: Payment, now: int): (r: Store)
    ensures p.userId !in st.users || p.projectId !in st.projects ==> r == st
    ensures p.userId in st.users && p.projectId in st.projects ==>
              && r.nextId == st.nextId + 1
              && r.notifications == st.notifications[st.nextId := Notification(p.userId, "Payment Successful", SUCCESS_KIND, false, now,
                                                                               Some(NoticeMeta(paymentId, p.projectId, p.amount)))]
              && r.(notifications := st.notifications, nextId := st.nextId) == st
    ensures Valid(st) ==> Valid(r)
  {
    Notify(st, p.userId, p.projectId, paymentId, p.amount, "Payment Successful", SUCCESS_KIND, now)
  }

  /**
    `sendPaymentFailed` for payment `paymentId`: with its donor and its
    project on file, one unread `payment_failed` notice to the donor,
    naming the payment, its project and its amount; otherwise nothing.
  */
  function SendPaymentFailed(st: Store, paymentId: Id, p: Payment, now: int): (r: Store)
    ensures p.userId !in st.users || p.projectId !in st.projects ==> r == st
    ensures p.userId in st.users && p.projectId in st.projects ==>
              && r.nextId == st.nextId + 1
              && r.notifications == st.notifications[st.nextId := Notification(p.userId, "Payment Failed", FAILED_KIND, false, now,
                                                                               Some(NoticeMeta(paymentId, p.projectId, p.amount)))]
              && r.(notifications := st.notifications, nextId := st.nextId) == st
    ensures Valid(st) ==> Valid(r)
  {
    Notify(st, p.userId, p.projectId, paymentId, p.amount, "Payment Failed", FAILED_KIND, now)
  }

  /** A notice touches no table but the notifications. */
  lemma NotifyTouchesOnlyNotifications(st: Store, userId: Id, projectId: Id, sourceId: Id, amount: real,
                                       title: string, kind: string, now: int)
    ensures var r := Notify(st, userId, projectId, sourceId, amount, title, kind, now);
            r.users == st.users && r.projects == st.projects && r.subscriptions == st.subscriptions
            && r.payments == st.payments && r.byReference == st.byReference
  {
  }
}

=== FILE: payments.dfy ===
/**
  Payment reconciliation: the donor-facing verification of a checkout and
  the gateway's webhook. Both write the payment, the subscription it pays
  and the project's running total; what they write, and what they leave
  alone, is what this module states. A write to a row that is not there
  throws, and the writes made before it stay.
*/
module Payments {
  import opened Wrappers
  import opened Gateway
  import opened Store
  import Helpers
  import Notifications
  import Listing

  // ---------------------------------------------------------------------------
  // Row writes shared by verification and the webhook

  /** `project.update({ currentAmount: { increment } })`; `None` when the project is missing (the update throws). */
  function Credit(st: Store, projectId: Id, amount: real): (r: Option<Store>)
    ensures r.Some? <==> projectId in st.projects
    ensures r.Some? ==> r.value.projects.Keys == st.projects.Keys
                        && r.value.projects[projectId].currentAmount == st.projects[projectId].currentAmount + amount
                        && r.value.projects[projectId] == st.projects[projectId].(currentAmount := r.value.projects[projectId].currentAmount)
                        && (forall id :: id in st.projects && id != projectId ==> r.value.projects[id] == st.projects[id])
                        && r.value == st.(projects := r.value.projects)
    ensures Valid(st) && r.Some? ==> Valid(r.value)
  {
    if projectId !in st.projects then None
    else
      var p := st.projects[projectId];
      Some(SetProject(st, projectId, p.(currentAmount := p.currentAmount + amount)))
  }

  /** `payment.updateMany({ where: { paystackReference }, data: { status: 'FAILED' } })`. */
  function MarkFailed(payments: map<Id, Payment>, reference: string): (r: map<Id, Payment>)
    ensures r.Keys == payments.Keys
    ensures forall id :: id in payments && payments[id].reference == Some(reference) ==> r[id] == payments[id].(status := Failed)
    ensures forall id :: id in payments && payments[id].reference != Some(reference) ==> r[id] == payments[id]
  {
    map id | id in payments :: if payments[id].reference == Some(reference) then payments[id].(status := Failed) else payments[id]
  }

  /** Marking payments failed keeps every reference, so the unique index stays exact. */
  lemma MarkFailedKeepsIndex(st: Store, reference: string)
    ensures Valid(st) ==> Valid(st.(payments := MarkFailed(st.payments, reference)))
  {
    var ps := MarkFailed(st.payments, reference);
    assert forall id :: id in ps ==> ps[id].reference == st.payments[id].reference;
  }

  // ---------------------------------------------------------------------------
  // Verification

  /** Whether a verification answer reports a successful transaction. */
  predicate Verified(answer: Answer<Transaction>) {
    answer.Answer? && answer.status && answer.data.status == "success"
  }

  /** The payment row after a successful verification; an absent transaction id leaves the stored one. */
  function Settled(p: Payment, tx: Transaction): (r: Payment)
    ensures r.status == Success && r.paidAt == Some(tx.paidAt) && r.metadata == Some(FromVerification(tx))
    ensures tx.id.Some? ==> r.transactionId == tx.id
    ensures tx.id.None? ==> r.transactionId == p.transactionId
    ensures r.userId == p.userId && r.projectId == p.projectId && r.subscriptionId == p.subscriptionId
            && r.amount == p.amount && r.reference == p.reference
  {
    p.(status := Success, transactionId := if tx.id.Some? then tx.id else p.transactionId,
       paidAt := Some(tx.paidAt), metadata := Some(FromVerification(tx)))
  }

  /**
    The subscription row after a successful verification: the payment date
    is set; the customer code is stored when the transaction carries an
    authorization, and the gateway subscription code and e-mail token when
    it carries a plan and a non-empty subscription code. A field the
    transaction leaves out is not written.
  */
  function AfterVerify(s: Subscription, tx: Transaction, now: int): (r: Subscription)
    ensures r.lastPaymentDate == Some(now)
    ensures r.customerCode == if tx.hasAuthorization && tx.customerCode.Some? then tx.customerCode else s.customerCode
    ensures tx.hasPlan && Helpers.TruthyText(tx.subscriptionCode) ==>
              && r.subscriptionCode == tx.subscriptionCode
              && r.emailToken == (if tx.emailToken.Some? then tx.emailToken else s.emailToken)
    ensures !(tx.hasPlan && Helpers.TruthyText(tx.subscriptionCode)) ==> r.subscriptionCode == s.subscriptionCode && r.emailToken == s.emailToken
    ensures r.status == s.status && r.nextPaymentDate == s.nextPaymentDate && r.amount == s.amount
            && r.interval == s.interval && r.userId == s.userId && r.projectId == s.projectId
    ensures r == s.(lastPaymentDate := r.lastPaymentDate, customerCode := r.customerCode,
                    subscriptionCode := r.subscriptionCode, emailToken := r.emailToken)
  {
    var linked := tx.hasPlan && Helpers.TruthyText(tx.subscriptionCode);
    s.(lastPaymentDate := Some(now),
       customerCode := if tx.hasAuthorization && tx.customerCode.Some? then tx.customerCode else s.customerCode,
       subscriptionCode := if linked then tx.subscriptionCode else s.subscriptionCode,
       emailToken := if linked && tx.emailToken.Some? then tx.emailToken else s.emailToken)
  }

  /**
    The writes of a successful verification of payment `pid`: the payment,
    then its subscription (if it has one), then the project's total, then
    the success notice. A missing subscription or project throws after the
    writes before it.
  */
  function SettleVerified(st: Store, pid: Id, tx: Transaction, now: int): (r: Result<Store, Store>)
    requires pid in st.payments
    ensures var p := st.payments[pid];
            r.Ok? <==> (p.subscriptionId.Some? ==> p.subscriptionId.value in st.subscriptions) && p.projectId in st.projects
    ensures r.Ok? ==>
              var p := st.payments[pid];
              && r.value.payments == st.payments[pid := Settled(p, tx)]
              && r.value.projects.Keys == st.projects.Keys
              && r.value.projects[p.projectId].currentAmount == st.projects[p.projectId].currentAmount + p.amount
              && (forall id :: id in st.projects && id != p.projectId ==> r.value.projects[id] == st.projects[id])
              && r.value.subscriptions ==
                   (if p.subscriptionId.Some? then st.subscriptions[p.subscriptionId.value := AfterVerify(st.subscriptions[p.subscriptionId.value], tx, now)]
                    else st.subscriptions)
              && r.value.users == st.users && r.value.byReference == st.byReference
    ensures Valid(st) ==> Valid(if r.Ok? then r.value else r.error)
  {
    var p := st.payments[pid];
    var paid := Settled(p, tx);
    var st1 := SetPayment(st, pid, paid);
    if p.subscriptionId.Some? && p.subscriptionId.value !in st1.subscriptions then Err(st1)
    else
      var st2 := if p.subscriptionId.Some? then SetSubscription(st1, p.subscriptionId.value, AfterVerify(st1.subscriptions[p.subscriptionId.value], tx, now))
                 else st1;
      match Credit(st2, p.projectId, p.amount)
      case None => Err(st2)
      case Some(st3) => Ok(Notifications.SendPaymentSuccess(st3, pid, paid, now))
  }

  /**
    `verifyPayment` for the checkout `reference` (absent or empty: refused
    before the gateway is asked). `answer` is what the gateway's verification
    answered.
  */
  function VerifyPayment(st: Store, reference: Option<string>, answer: Answer<Transaction>, now: int): (r: Reply)
    ensures reference.None? || reference == Some("") ==> r == Reply(st, BAD_REQUEST, [])
    ensures Helpers.TruthyText(reference) ==> r.calls == [VerifyTransaction(reference.value)]
    ensures Helpers.TruthyText(reference) && answer.Threw? ==> r.status == SERVER_ERROR && r.store == st
    ensures Helpers.TruthyText(reference) && answer.Answer? && !Verified(answer) ==>
              r.status == BAD_REQUEST && r.store == st.(payments := MarkFailed(st.payments, reference.value))
    ensures Helpers.TruthyText(reference) && Verified(answer) && PaymentByReference(st, reference.value).None? ==>
              r.status == SERVER_ERROR && r.store == st
    ensures Helpers.TruthyText(reference) && Verified(answer) && PaymentByReference(st, reference.value).Some? ==>
              var settled := SettleVerified(st, PaymentByReference(st, reference.value).value, answer.data, now);
              r.status == (if settled.Ok? then OK else SERVER_ERROR)
              && r.store == (if settled.Ok? then settled.value else settled.error)
    ensures r.status == OK || r.status == BAD_REQUEST || r.status == SERVER_ERROR
    ensures Valid(st) ==> Valid(r.store)
  {
    if !Helpers.TruthyText(reference) then Reply(st, BAD_REQUEST, [])
    else
      var ref := reference.value;
      var calls := [VerifyTransaction(ref)];
      match answer
      case Threw => Reply(st, SERVER_ERROR, calls)
      case Answer(ok, tx) =>
        if !ok || tx.status != "success" then
          MarkFailedKeepsIndex(st, ref);
          Reply(st.(payments := MarkFailed(st.payments, ref)), BAD_REQUEST, calls)
        else
          match PaymentByReference(st, ref)
          // the update of a missing row throws
          case None => Reply(st, SERVER_ERROR, calls)
          case Some(pid) =>
            match SettleVerified(st, pid, tx, now)
            case Ok(st') => Reply(st', OK, calls)
            case Err(st') => Reply(st', SERVER_ERROR, calls)
  }

  // ---------------------------------------------------------------------------
  // Webhook

  const CHARGE_SUCCESS: string := "charge.success"
  const SUBSCRIPTION_CREATE: string := "subscription.create"
  const SUBSCRIPTION_DISABLE: string := "subscription.disable"
  const INVOICE_CREATE: string := "invoice.create"
  const INVOICE_PAYMENT_FAILED: string := "invoice.payment_failed"

  /**
    The `where: { paystackSubscriptionCode: code }` filter. An absent code
    is `undefined` in the filter, and Prisma drops such a condition, so every
    row matches.
  */
  predicate CodeMatches(code: Option<string>, s: Subscription) {
    code.None? || s.subscriptionCode == code
  }

  /** `findFirst` on the subscription code: the matching subscription with the least id. */
  function ByCode(st: Store, code: Option<string>): (r: Option<Id>)
    ensures r.Some? ==> r.value in st.subscriptions && CodeMatches(code, st.subscriptions[r.value])
    ensures r.None? ==> forall id: nat :: id < st.nextId && id in st.subscriptions ==> !CodeMatches(code, st.subscriptions[id])
  {
    Listing.First(st.subscriptions, (s: Subscription) => CodeMatches(code, s), st.nextId)
  }

  /** A subscription after the gateway charged it: paid now, due again one interval from now. */
  function Renewed(s: Subscription, now: int): (r: Subscription)
    ensures r.lastPaymentDate == Some(now)
    ensures r.nextPaymentDate == Helpers.CalculateNextPaymentDate(s.interval, s.customIntervalDays, now)
    ensures r == s.(lastPaymentDate := r.lastPaymentDate, nextPaymentDate := r.nextPaymentDate)
  {
    s.(lastPaymentDate := Some(now), nextPaymentDate := Helpers.CalculateNextPaymentDate(s.interval, s.customIntervalDays, now))
  }

  /** The payment a recurring charge of subscription `sid` records: SUCCESS, the amount converted from kobo. */
  function ChargePayment(sid: Id, s: Subscription, d: EventData): (p: Payment)
    ensures p.status == Success && p.amount == d.amountMinor as real / 100.0
    ensures p.userId == s.userId && p.projectId == s.projectId && p.subscriptionId == Some(sid)
    ensures p.reference == Some(d.reference) && p.paidAt == Some(d.paidAt) && p.metadata == Some(FromEvent(d))
  {
    Payment(s.userId, s.projectId, Some(sid), d.amountMinor as real / 100.0, Success, Some(d.reference),
            None, Some(d.paidAt), Some(FromEvent(d)))
  }

  /**
    The writes of a recurring charge of subscription `sid`: a new SUCCESS
    payment under the charge reference, the subscription renewed, the
    project credited, the success notice.
  */
  function RecordCharge(st: Store, sid: Id, d: EventData, now: int): (r: Result<Store, Store>)
    requires sid in st.subscriptions
    ensures d.reference in st.byReference ==> r == Err(st)
    ensures r.Ok? <==> d.reference !in st.byReference && st.subscriptions[sid].projectId in st.projects
    ensures r.Ok? ==>
              var s := st.subscriptions[sid];
              && r.value.payments == st.payments[st.nextId := ChargePayment(sid, s, d)]
              && r.value.subscriptions == st.subscriptions[sid := Renewed(s, now)]
              && r.value.projects.Keys == st.projects.Keys
              && r.value.projects[s.projectId].currentAmount == st.projects[s.projectId].currentAmount + d.amountMinor as real / 100.0
              && (forall id :: id in st.projects && id != s.projectId ==> r.value.projects[id] == st.projects[id])
              && r.value.users == st.users
    ensures Valid(st) ==> Valid(if r.Ok? then r.value else r.error)
  {
    // the unique index refuses a reference already taken
    if d.reference in st.byReference then Err(st)
    else
      var s := st.subscriptions[sid];
      var paid := ChargePayment(sid, s, d);
      var (st1, pid) := AddPayment(st, paid);
      var st2 := SetSubscription(st1, sid, Renewed(s, now));
      match Credit(st2, s.projectId, paid.amount)
      case None => Err(st2)
      case Some(st3) => Ok(Notifications.SendPaymentSuccess(st3, pid, paid, now))
  }

  /**
    `handleChargeSuccess`: a known reference only has its payment marked
    SUCCESS with the charge's time and payload; an unknown one is a recurring
    charge of the subscription its metadata names, if that exists.
  */
  function ChargeSuccess(st: Store, d: EventData, now: int): (r: Result<Store, Store>)
    ensures PaymentByReference(st, d.reference).Some? ==>
              var pid := PaymentByReference(st, d.reference).value;
              var p := st.payments[pid];
              r == Ok(st.(payments := st.payments[pid := p.(status := Success, paidAt := Some(d.paidAt), metadata := Some(FromEvent(d)))]))
    ensures (PaymentByReference(st, d.reference).None?
             && (d.metadataSubscriptionId.None? || d.metadataSubscriptionId.value !in st.subscriptions)) ==> r == Ok(st)
    ensures (PaymentByReference(st, d.reference).None?
             && d.metadataSubscriptionId.Some? && d.metadataSubscriptionId.value in st.subscriptions) ==>
              r == RecordCharge(st, d.metadataSubscriptionId.value, d, now)
    ensures Valid(st) ==> Valid(if r.Ok? then r.value else r.error)
  {
    match PaymentByReference(st, d.reference)
    case Some(pid) =>
      var p := st.payments[pid];
      var paid := p.(status := Success, paidAt := Some(d.paidAt), metadata := Some(FromEvent(d)));
      Ok(SetPayment(st, pid, paid))
    case None =>
      if d.metadataSubscriptionId.None? || d.metadataSubscriptionId.value !in st.subscriptions then Ok(st)
      else RecordCharge(st, d.metadataSubscriptionId.value, d, now)
  }

  /**
    The `where` of `handleSubscriptionCreate`'s `findFirst`: an ACTIVE
    subscription on the event's plan code, of a user with the customer's
    e-mail. Prisma drops a condition whose value is `undefined`, so an
    absent plan code or e-mail filters on nothing.
  */
  predicate AwaitsMandate(st: Store, plan: EventPlan, customer: EventCustomer, s: Subscription) {
    && (plan.planCode.None? || s.planCode == plan.planCode)
    && s.status == Active
    && s.userId in st.users
    && (customer.email.None? || st.users[s.userId].email == customer.email.value)
  }

  function MandateFilter(st: Store, plan: EventPlan, customer: EventCustomer): Subscription -> bool {
    (s: Subscription) => AwaitsMandate(st, plan, customer, s)
  }

  /**
    The subscription after its mandate arrived: the event's subscription
    code, e-mail token and customer code, each written only when present.
  */
  function Mandated(s: Subscription, d: EventData, customer: EventCustomer): (r: Subscription)
    ensures r.subscriptionCode == (if d.subscriptionCode.Some? then d.subscriptionCode else s.subscriptionCode)
    ensures r.emailToken == (if d.emailToken.Some? then d.emailToken else s.emailToken)
    ensures r.customerCode == (if customer.customerCode.Some? then customer.customerCode else s.customerCode)
    ensures r == s.(subscriptionCode := r.subscriptionCode, emailToken := r.emailToken, customerCode := r.customerCode)
  {
    // an absent field is `undefined` in the update and is not written
    s.(subscriptionCode := if d.subscriptionCode.Some? then d.subscriptionCode else s.subscriptionCode,
       emailToken := if d.emailToken.Some? then d.emailToken else s.emailToken,
       customerCode := if customer.customerCode.Some? then customer.customerCode else s.customerCode)
  }

  /**
    `handleSubscriptionCreate`: reading `plan.plan_code` or `customer.email`
    of an event without that object throws before any write. Otherwise the
    first subscription awaiting the mandate, if any, gets its codes.
  */
  function SubscriptionCreate(st: Store, d: EventData): (r: Result<Store, Store>)
    ensures r.Err? <==> d.plan.None? || d.customer.None?
    ensures r.Err? ==> r.error == st
    ensures r.Ok? && Listing.First(st.subscriptions, MandateFilter(st, d.plan.value, d.customer.value), st.nextId).None? ==>
              r.value == st
    ensures r.Ok? && Listing.First(st.subscriptions, MandateFilter(st, d.plan.value, d.customer.value), st.nextId).Some? ==>
              var id := Listing.First(st.subscriptions, MandateFilter(st, d.plan.value, d.customer.value), st.nextId).value;
              r.value == st.(subscriptions := st.subscriptions[id := Mandated(st.subscriptions[id], d, d.customer.value)])
    ensures Valid(st) ==> Valid(if r.Ok? then r.value else r.error)
  {
    if d.plan.None? || d.customer.None? then Err(st)
    else
      match Listing.First(st.subscriptions, MandateFilter(st, d.plan.value, d.customer.value), st.nextId)
      case None => Ok(st)
      case Some(id) => Ok(SetSubscription(st, id, Mandated(st.subscriptions[id], d, d.customer.value)))
  }

  /** `handleSubscriptionDisable`: every subscription matching the code becomes CANCELLED. */
  function SubscriptionDisable(st: Store, code: Option<string>): (r: Result<Store, Store>)
    ensures r.Ok?
    ensures r.value.(subscriptions := st.subscriptions) == st
    ensures r.value.subscriptions.Keys == st.subscriptions.Keys
    ensures forall id :: id in st.subscriptions ==>
              r.value.subscriptions[id] ==
                if CodeMatches(code, st.subscriptions[id]) then st.subscriptions[id].(status := Cancelled) else st.subscriptions[id]
    ensures Valid(st) ==> Valid(r.value)
  {
    Ok(st.(subscriptions := map id | id in st.subscriptions ::
             if CodeMatches(code, st.subscriptions[id]) then st.subscriptions[id].(status := Cancelled) else st.subscriptions[id]))
  }

  /**
    `handleInvoiceCreate`: reading `subscription.subscription_code` of an
    event without a `subscription` object throws before any write.
    Otherwise the subscription with the invoice's code, if any, gets a
    payment reminder.
  */
  function InvoiceCreate(st: Store, d: EventData, now: int): (r: Result<Store, Store>)
    ensures r.Err? <==> d.subscription.None?
    ensures r.Err? ==> r.error == st
    ensures r.Ok? && ByCode(st, d.subscription.value.subscriptionCode).None? ==> r.value == st
    ensures r.Ok? && ByCode(st, d.subscription.value.subscriptionCode).Some? ==>
              var id := ByCode(st, d.subscription.value.subscriptionCode).value;
              r.value == Notifications.SendPaymentReminder(st, id, st.subscriptions[id], now)
    ensures Valid(st) ==> Valid(if r.Ok? then r.value else r.error)
  {
    if d.subscription.None? then Err(st)
    else
      match ByCode(st, d.subscription.value.subscriptionCode)
      case None => Ok(st)
      case Some(id) => Ok(Notifications.SendPaymentReminder(st, id, st.subscriptions[id], now))
  }

  /** The FAILED payment `handleInvoicePaymentFailed` records: no reference, the subscription's amount. */
  function FailedPayment(sid: Id, s: Subscription, d: EventData): (p: Payment)
    ensures p.status == Failed && p.reference.None? && p.amount == s.amount
    ensures p.userId == s.userId && p.projectId == s.projectId && p.subscriptionId == Some(sid)
    ensures p.metadata == Some(FromEvent(d)) && p.paidAt.None? && p.transactionId.None?
  {
    Payment(s.userId, s.projectId, Some(sid), s.amount, Failed, None, None, None, Some(FromEvent(d)))
  }

  /**
    `handleInvoicePaymentFailed`: an event without a `subscription` object
    throws before any write. Otherwise the subscription with the invoice's
    code, if any, gets a FAILED payment and its notice.
  */
  function InvoicePaymentFailed(st: Store, d: EventData, now: int): (r: Result<Store, Store>)
    ensures r.Err? <==> d.subscription.None?
    ensures r.Err? ==> r.error == st
    ensures r.Ok? && ByCode(st, d.subscription.value.subscriptionCode).None? ==> r.value == st
    ensures r.Ok? && ByCode(st, d.subscription.value.subscriptionCode).Some? ==>
              var id := ByCode(st, d.subscription.value.subscriptionCode).value;
              var p := FailedPayment(id, st.subscriptions[id], d);
              var (st1, pid) := AddPayment(st, p);
              r.value == Notifications.SendPaymentFailed(st1, pid, p, now)
    ensures Valid(st) ==> Valid(if r.Ok? then r.value else r.error)
  {
    if d.subscription.None? then Err(st)
    else
      match ByCode(st, d.subscription.value.subscriptionCode)
      case None => Ok(st)
      case Some(id) =>
        var p := FailedPayment(id, st.subscriptions[id], d);
        var (st1, pid) := AddPayment(st, p);
        Ok(Notifications.SendPaymentFailed(st1, pid, p, now))
  }

  /** The handler an event name selects; any other name is acknowledged and ignored. */
  function Dispatch(st: Store, ev: Event, now: int): (r: Result<Store, Store>)
    ensures Valid(st) ==> Valid(if r.Ok? then r.value else r.error)
  {
    if ev.name == CHARGE_SUCCESS then ChargeSuccess(st, ev.data, now)
    else if ev.name == SUBSCRIPTION_CREATE then SubscriptionCreate(st, ev.data)
    else if ev.name == SUBSCRIPTION_DISABLE then SubscriptionDisable(st, ev.data.subscriptionCode)
    else if ev.name == INVOICE_CREATE then InvoiceCreate(st, ev.data, now)
    else if ev.name == INVOICE_PAYMENT_FAILED then InvoicePaymentFailed(st, ev.data, now)
    else Ok(st)
  }

  /** Whether an event name is one the webhook handles. */
  predicate Handled(name: string) {
    name == CHARGE_SUCCESS || name == SUBSCRIPTION_CREATE || name == SUBSCRIPTION_DISABLE
    || name == INVOICE_CREATE || name == INVOICE_PAYMENT_FAILED
  }

  /**
    `webhook`: a body whose signature does not check out is refused with 401
    and nothing written; otherwise the event is dispatched and acknowledged
    with 200, or 500 when its handler threw (after the writes it made).
  */
  function Webhook(st: Store, signatureValid: bool, ev: Event, now: int): (r: Reply)
    ensures !signatureValid ==> r == Reply(st, UNAUTHORIZED, [])
    ensures signatureValid && !Handled(ev.name) ==> r == Reply(st, OK, [])
    ensures signatureValid ==>
              var out := Dispatch(st, ev, now);
              r == (if out.Ok? then Reply(out.value, OK, []) else Reply(out.error, SERVER_ERROR, []))
    ensures r.calls == []
    ensures Valid(st) ==> Valid(r.store)
  {
    if !signatureValid then Reply(st, UNAUTHORIZED, [])
    else
      match Dispatch(st, ev, now)
      case Ok(st') => Reply(st', OK, [])
      case Err(st') => Reply(st', SERVER_ERROR, [])
  }

  // ---------------------------------------------------------------------------
  // Properties

  /** A failed verification turns every payment under the reference FAILED, even a SUCCESS one, and writes nothing else. */
  lemma FailedVerifyOverwritesSuccess(st: Store, reference: string, answer: Answer<Transaction>, now: int, id: Id)
    requires reference != "" && answer.Answer? && !Verified(answer)
    requires id in st.payments && st.payments[id].reference == Some(reference)
    ensures var r := VerifyPayment(st, Some(reference), answer, now);
            && r.status == BAD_REQUEST
            && r.store.payments[id] == st.payments[id].(status := Failed)
            && r.store.projects == st.projects && r.store.subscriptions == st.subscriptions
            && r.store.notifications == st.notifications
  {
  }

  /**
    A successful verification of a payment whose subscription and project
    exist answers 200, marks the payment SUCCESS, credits the project with
    the payment's amount and stamps the subscription's payment date, leaving
    its status and due date alone.
  */
  lemma VerifyCredits(st: Store, reference: string, tx: Transaction, now: int, pid: Id)
    requires Valid(st) && reference != "" && tx.status == "success"
    requires pid in st.payments && st.payments[pid].reference == Some(reference)
    requires st.payments[pid].subscriptionId.Some? ==> st.payments[pid].subscriptionId.value in st.subscriptions
    requires st.payments[pid].projectId in st.projects
    ensures var r := VerifyPayment(st, Some(reference), Answer(true, tx), now);
            var p := st.payments[pid];
            && r.status == OK && Valid(r.store)
            && r.store.payments[pid].status == Success && r.store.payments[pid].amount == p.amount
            && r.store.payments[pid].reference == p.reference && r.store.payments[pid].projectId == p.projectId
            && r.store.payments[pid].subscriptionId == p.subscriptionId
            && p.projectId in r.store.projects
            && r.store.projects[p.projectId].currentAmount == st.projects[p.projectId].currentAmount + p.amount
            && (p.subscriptionId.Some? ==>
                  var sid := p.subscriptionId.value;
                  && sid in r.store.subscriptions
                  && r.store.subscriptions[sid].lastPaymentDate == Some(now)
                  && r.store.subscriptions[sid].status == st.subscriptions[sid].status
                  && r.store.subscriptions[sid].nextPaymentDate == st.subscriptions[sid].nextPaymentDate)
  {
    assert PaymentByReference(st, reference) == Some(pid) by {
      ReferencesUnique(st, PaymentByReference(st, reference).value, pid);
    }
  }

  /**
    Verification is not idempotent: verifying the same reference twice
    with a successful answer credits the project twice.
  */
  lemma VerifyTwiceCreditsTwice(st: Store, reference: string, tx: Transaction, now: int, later: int, pid: Id)
    requires Valid(st) && reference != "" && tx.status == "success"
    requires pid in st.payments && st.payments[pid].reference == Some(reference)
    requires st.payments[pid].subscriptionId.Some? ==> st.payments[pid].subscriptionId.value in st.subscriptions
    requires st.payments[pid].projectId in st.projects
    ensures var once := VerifyPayment(st, Some(reference), Answer(true, tx), now);
            var twice := VerifyPayment(once.store, Some(reference), Answer(true, tx), later);
            var p := st.payments[pid];
            && once.status == OK && twice.status == OK
            && p.projectId in twice.store.projects
            && twice.store.projects[p.projectId].currentAmount == st.projects[p.projectId].currentAmount + 2.0 * p.amount
  {
    var p := st.payments[pid];
    VerifyCredits(st, reference, tx, now, pid);
    var once := VerifyPayment(st, Some(reference), Answer(true, tx), now).store;
    VerifyCredits(once, reference, tx, later, pid);
  }

  /** A charge for a reference already on file only rewrites that payment: no project total and no subscription changes. */
  lemma KnownChargeTouchesNoTotals(st: Store, ev: Event, now: int)
    requires Valid(st) && ev.name == CHARGE_SUCCESS && PaymentByReference(st, ev.data.reference).Some?
    ensures var r := Webhook(st, true, ev, now);
            var pid := PaymentByReference(st, ev.data.reference).value;
            && r.status == OK
            && r.store.projects == st.projects && r.store.subscriptions == st.subscriptions
            && r.store.payments[pid].status == Success && r.store.payments[pid].paidAt == Some(ev.data.paidAt)
            && r.store.payments.Keys == st.payments.Keys
  {
  }

  /** A charge whose payment already records it (SUCCESS, its time, its payload) rewrites nothing. */
  lemma RecordedChargeChangesNothing(st: Store, d: EventData, now: int)
    requires PaymentByReference(st, d.reference).Some?
    requires var p := st.payments[PaymentByReference(st, d.reference).value];
             p.status == Success && p.paidAt == Some(d.paidAt) && p.metadata == Some(FromEvent(d))
    ensures ChargeSuccess(st, d, now) == Ok(st)
  {
    var pid := PaymentByReference(st, d.reference).value;
    assert st.payments[pid := st.payments[pid]] == st.payments;
  }

  /**
    The webhook's `charge.success` is idempotent: once a delivery has been
    processed, whether it was answered 200 or 500 after a partial write,
    delivering the same event again changes nothing, so a project's total
    is credited at most once per charge.
  */
  lemma ChargeRedeliveryChangesNothing(st: Store, ev: Event, now: int, later: int)
    requires Valid(st) && ev.name == CHARGE_SUCCESS
    ensures var first := Webhook(st, true, ev, now).store;
            Webhook(first, true, ev, later).store == first
  {
    var d := ev.data;
    var out := ChargeSuccess(st, d, now);
    var first := if out.Ok? then out.value else out.error;
    assert Valid(first);
    match PaymentByReference(st, d.reference)
    case Some(pid) =>
      assert PaymentByReference(first, d.reference) == Some(pid);
      RecordedChargeChangesNothing(first, d, later);
    case None =>
      if d.metadataSubscriptionId.Some? && d.metadataSubscriptionId.value in st.subscriptions {
        assert d.reference !in st.byReference;
        assert first.payments[st.nextId].reference == Some(d.reference);
        var found := PaymentByReference(first, d.reference);
        ReferencesUnique(first, found.value, st.nextId);
        RecordedChargeChangesNothing(first, d, later);
      }
  }

  /**
    A charge with a new reference whose metadata names an existing
    subscription records one SUCCESS payment of the amount in naira under
    that reference, moves the subscription's due date on by its interval and
    credits the project.
  */
  lemma NewChargeCreditsProject(st: Store, ev: Event, now: int)
    requires Valid(st) && ev.name == CHARGE_SUCCESS
    requires PaymentByReference(st, ev.data.reference).None?
    requires ev.data.metadataSubscriptionId.Some? && ev.data.metadataSubscriptionId.value in st.subscriptions
    requires st.subscriptions[ev.data.metadataSubscriptionId.value].projectId in st.projects
    ensures var r := Webhook(st, true, ev, now);
            var sid := ev.data.metadataSubscriptionId.value;
            var s := st.subscriptions[sid];
            var amount := ev.data.amountMinor as real / 100.0;
            && r.status == OK
            && r.store.payments.Keys == st.payments.Keys + {st.nextId}
            && r.store.payments[st.nextId].status == Success && r.store.payments[st.nextId].amount == amount
            && r.store.payments[st.nextId].reference == Some(ev.data.reference)
            && r.store.payments[st.nextId].subscriptionId == Some(sid)
            && r.store.subscriptions[sid].nextPaymentDate == Helpers.CalculateNextPaymentDate(s.interval, s.customIntervalDays, now)
            && r.store.subscriptions[sid].status == s.status
            && r.store.projects[s.projectId].currentAmount == st.projects[s.projectId].currentAmount + amount
  {
  }

  /** A charge with a new reference naming no existing subscription changes nothing. */
  lemma OrphanChargeChangesNothing(st: Store, ev: Event, now: int)
    requires ev.name == CHARGE_SUCCESS && PaymentByReference(st, ev.data.reference).None?
    requires ev.data.metadataSubscriptionId.None? || ev.data.metadataSubscriptionId.value !in st.subscriptions
    ensures Webhook(st, true, ev, now) == Reply(st, OK, [])
  {
  }

  /** `subscription.disable` cancels every subscription carrying the code, whatever its status, and no other. */
  lemma DisableCancelsEveryMatch(st: Store, ev: Event, now: int, id: Id)
    requires ev.name == SUBSCRIPTION_DISABLE && ev.data.subscriptionCode.Some? && id in st.subscriptions
    ensures var r := Webhook(st, true, ev, now);
            && r.status == OK
            && (st.subscriptions[id].subscriptionCode == ev.data.subscriptionCode ==>
                  r.store.subscriptions[id] == st.subscriptions[id].(status := Cancelled))
            && (st.subscriptions[id].subscriptionCode != ev.data.subscriptionCode ==>
                  r.store.subscriptions[id] == st.subscriptions[id])
            && r.store.payments == st.payments && r.store.projects == st.projects
  {
  }

  /**
    As written, a `subscription.disable` event without a subscription code
    filters on `undefined`, which matches every row: every subscription is
    cancelled.
  */
  lemma DisableWithoutCodeCancelsAll(st: Store, ev: Event, now: int, id: Id)
    requires ev.name == SUBSCRIPTION_DISABLE && ev.data.subscriptionCode.None? && id in st.subscriptions
    ensures Webhook(st, true, ev, now).store.subscriptions[id].status == Cancelled
  {
  }

  /**
    `subscription.create` is idempotent: a mandate written to the first
    awaiting subscription leaves that subscription first in line, so a
    second delivery of the event writes the same codes again and changes
    nothing.
  */
  lemma MandateRedeliveryChangesNothing(st: Store, d: EventData)
    requires SubscriptionCreate(st, d).Ok?
    ensures SubscriptionCreate(SubscriptionCreate(st, d).value, d) == SubscriptionCreate(st, d)
  {
    var plan, customer := d.plan.value, d.customer.value;
    var once := SubscriptionCreate(st, d).value;
    match Listing.First(st.subscriptions, MandateFilter(st, plan, customer), st.nextId)
    case None =>
      assert once == st;
    case Some(id) =>
      var m := Mandated(st.subscriptions[id], d, customer);
      assert once == st.(subscriptions := st.subscriptions[id := m]);
      MandateKeepsFirst(st, plan, customer, id, m);
      assert Mandated(m, d, customer) == m;
      assert once.subscriptions[id := m] == once.subscriptions;
  }

  /** Rewriting a subscription's codes keeps it the first one awaiting the mandate. */
  lemma MandateKeepsFirst(st: Store, plan: EventPlan, customer: EventCustomer, id: Id, m: Subscription)
    requires Listing.First(st.subscriptions, MandateFilter(st, plan, customer), st.nextId) == Some(id)
    requires m.planCode == st.subscriptions[id].planCode && m.status == st.subscriptions[id].status
             && m.userId == st.subscriptions[id].userId
    ensures var st' := st.(subscriptions := st.subscriptions[id := m]);
            Listing.First(st'.subscriptions, MandateFilter(st', plan, customer), st'.nextId) == Some(id)
  {
    var st' := st.(subscriptions := st.subscriptions[id := m]);
    var keep, keep' := MandateFilter(st, plan, customer), MandateFilter(st', plan, customer);
    forall k: nat | k < st.nextId
      ensures (k in st.subscriptions && keep(st.subscriptions[k])) == (k in st'.subscriptions && keep'(st'.subscriptions[k]))
    {
    }
    Listing.ScanSameFilter(st.subscriptions, st'.subscriptions, keep, keep', st.nextId);
  }

  /**
    An event whose handler reads a field of an object the payload lacks
    (`plan` or `customer` of `subscription.create`, `subscription` of
    `invoice.create` and `invoice.payment_failed`) is answered 500 and
    writes nothing.
  */
  lemma MissingObjectAnswersServerError(st: Store, ev: Event, now: int)
    requires || (ev.name == SUBSCRIPTION_CREATE && (ev.data.plan.None? || ev.data.customer.None?))
             || (ev.name == INVOICE_CREATE && ev.data.subscription.None?)
             || (ev.name == INVOICE_PAYMENT_FAILED && ev.data.subscription.None?)
    ensures Webhook(st, true, ev, now) == Reply(st, SERVER_ERROR, [])
  {
  }

  /**
    `invoice.payment_failed` for a known subscription records one FAILED
    payment without a reference for the subscription's amount, and changes
    no project and no subscription.
  */
  lemma InvoiceFailureRecordsFailedPayment(st: Store, ev: Event, now: int)
    requires Valid(st) && ev.name == INVOICE_PAYMENT_FAILED && ev.data.subscription.Some?
    requires ByCode(st, ev.data.subscription.value.subscriptionCode).Some?
    ensures var r := Webhook(st, true, ev, now);
            var sid := ByCode(st, ev.data.subscription.value.subscriptionCode).value;
            && r.status == OK
            && r.store.payments.Keys == st.payments.Keys + {st.nextId}
            && r.store.payments[st.nextId].status == Failed && r.store.payments[st.nextId].reference.None?
            && r.store.payments[st.nextId].amount == st.subscriptions[sid].amount
            && (forall id :: id in st.payments ==> r.store.payments[id] == st.payments[id])
            && r.store.projects == st.projects && r.store.subscriptions == st.subscriptions
  {
    var sid := ByCode(st, ev.data.subscription.value.subscriptionCode).value;
    var p := FailedPayment(sid, st.subscriptions[sid], ev.data);
    var (st1, pid) := AddPayment(st, p);
    Notifications.NotifyTouchesOnlyNotifications(st1, p.userId, p.projectId, pid, p.amount, "Payment Failed",
                                                 Notifications.FAILED_KIND, now);
  }
}

=== FILE: projects.dfy ===
/**
  The project controller: the public listing with its optional `active`
  filter, creation and update by an administrator (with the goal amount
  kept only alongside `hasGoal`), the guarded delete, and the progress
  percentage of the project statistics.
*/
module Projects {
  import opened Wrappers
  import opened Store
  import Listing

  // ---------------------------------------------------------------------------
  // Listing

  const DEFAULT_PAGE: int := 1
  const DEFAULT_LIMIT: int := 10

  /** The `where` of `getProjects`: no condition without `active`; otherwise `isActive` must equal `active === 'true'`. */
  function ActiveFilter(active: Option<string>): Project -> bool {
    (p: Project) => active.None? || p.isActive == (active.value == "true")
  }

  /** The `createdAt` column, looked up by id. */
  function CreatedAt(st: Store): nat -> int {
    (id: nat) => if id in st.projects then st.projects[id].createdAt else 0
  }

  /**
    `getProjects`: one page of the projects passing the filter, newest
    first, with the number of matches and `Math.ceil(total / limit)` pages.
    A missing `page` or `limit` takes its default; a negative skip makes the
    query throw (`None`, a 500).
  */
  function GetProjects(st: Store, page: Option<int>, limit: Option<int>, active: Option<string>): (r: Option<Listing.Page<Id>>)
    ensures var p, l := page.GetOr(DEFAULT_PAGE), limit.GetOr(DEFAULT_LIMIT);
            r.Some? <==> (p - 1) * l >= 0
    ensures var l := limit.GetOr(DEFAULT_LIMIT);
            r.Some? ==> |r.value.items| <= if l >= 0 then l else -l
    ensures r.Some? ==> r.value.total == |Listing.Scan(st.projects, ActiveFilter(active), st.nextId)|
    ensures r.Some? ==> r.value.pages == Listing.PageCount(r.value.total, limit.GetOr(DEFAULT_LIMIT))
    ensures r.Some? ==> forall k :: 0 <= k < |r.value.items| ==>
              && r.value.items[k] in st.projects
              && (active.Some? ==> (st.projects[r.value.items[k]].isActive <==> active.value == "true"))
    ensures r.Some? ==> forall i, j :: 0 <= i < j < |r.value.items| ==>
              st.projects[r.value.items[i]].createdAt >= st.projects[r.value.items[j]].createdAt
  {
    var keep, key := ActiveFilter(active), CreatedAt(st);
    var q := Listing.Query(st.projects, keep, st.nextId, key, page.GetOr(DEFAULT_PAGE), limit.GetOr(DEFAULT_LIMIT));
    if q.Some? then
      ListedPage(st, active, q.value.items);
      q
    else q
  }

  /** A page of the query holds projects that pass the filter, newest first. */
  lemma ListedPage(st: Store, active: Option<string>, items: seq<Id>)
    requires forall k :: 0 <= k < |items| ==> items[k] in st.projects && ActiveFilter(active)(st.projects[items[k]])
    requires Listing.SortedDesc(items, CreatedAt(st))
    ensures forall k :: 0 <= k < |items| ==>
              && items[k] in st.projects
              && (active.Some? ==> (st.projects[items[k]].isActive <==> active.value == "true"))
    ensures forall i, j :: 0 <= i < j < |items| ==>
              st.projects[items[i]].createdAt >= st.projects[items[j]].createdAt
  {
    var key := CreatedAt(st);
    assert forall i, j :: 0 <= i < j < |items| ==> key(items[i]) >= key(items[j]);
  }

  /**
    Any value of `active` other than `'true'` lists the inactive projects
    only, and without `active` every project is listed: with a positive
    limit each project that passes the filter is on some page.
  */
  lemma EveryMatchingProjectListed(st: Store, limit: int, active: Option<string>, id: Id)
    requires Valid(st) && limit > 0 && id in st.projects
    requires active.None? || st.projects[id].isActive == (active.value == "true")
    ensures exists page :: 1 <= page && GetProjects(st, Some(page), Some(limit), active).Some?
                           && id in GetProjects(st, Some(page), Some(limit), active).value.items
  {
    var keep, key := ActiveFilter(active), CreatedAt(st);
    Listing.ListingComplete(st.projects, keep, st.nextId, key, limit, id);
    var page :| 1 <= page && Listing.Query(st.projects, keep, st.nextId, key, page, limit).Some?
                && id in Listing.Query(st.projects, keep, st.nextId, key, page, limit).value.items;
    assert GetProjects(st, Some(page), Some(limit), active) == Listing.Query(st.projects, keep, st.nextId, key, page, limit);
  }

  // ---------------------------------------------------------------------------
  // Create and update

  /**
    The body of a create or update request. `None` is a field the body
    leaves out (`undefined`); `hasGoal` and `isActive` are read for their
    truthiness.
  */
  datatype ProjectInput = ProjectInput(
    name: Option<string>,
    description: Option<string>,
    imageUrl: Option<string>,
    goalAmount: Option<real>,
    hasGoal: Option<bool>,
    isActive: Option<bool>)

  /** JavaScript truthiness of an optional flag. */
  predicate Truthy(b: Option<bool>) {
    b == Some(true)
  }

  /** A goal amount is stored only on a project that has a goal. */
  predicate GoalConsistent(p: Project) {
    p.goalAmount.Some? ==> p.hasGoal
  }

  /**
    `createProject`: a new project, active and with nothing raised. The
    goal amount is kept only when `hasGoal` is truthy, and `hasGoal`
    defaults to false. The name and the description are required columns:
    without either the insert throws (500) and nothing is written.
  */
  function CreateProject(st: Store, input: ProjectInput, now: int): (r: Reply)
    ensures r.calls == []
    ensures r.status == CREATED || r.status == SERVER_ERROR
    ensures r.status == CREATED <==> input.name.Some? && input.description.Some?
    ensures r.status != CREATED ==> r.store == st
    ensures r.status == CREATED ==>
              && r.store == st.(projects := r.store.projects, nextId := st.nextId + 1)
              && r.store.projects.Keys == st.projects.Keys + {st.nextId}
              && (forall id :: id in st.projects && id != st.nextId ==> r.store.projects[id] == st.projects[id])
              && var p := r.store.projects[st.nextId];
                 && p.name == input.name.value && p.description == input.description.value
                 && p.imageUrl == input.imageUrl
                 && p.hasGoal == Truthy(input.hasGoal)
                 && p.goalAmount == (if Truthy(input.hasGoal) then input.goalAmount else None)
                 && p.currentAmount == 0.0 && p.isActive && p.createdAt == now
    ensures Valid(st) ==> Valid(r.store)
  {
    if input.name.None? || input.description.None? then Reply(st, SERVER_ERROR, [])
    else
      var hasGoal := Truthy(input.hasGoal);
      var p := Project(input.name.value, input.description.value, input.imageUrl,
                       if hasGoal then input.goalAmount else None, hasGoal, 0.0, true, now);
      Reply(AddProject(st, p).0, CREATED, [])
  }

  /**
    The row `updateProject` writes. A field the body leaves out keeps its
    value, except `goalAmount`, which is written as null whenever `hasGoal`
    is not truthy, and keeps its value when `hasGoal` is truthy but no
    amount is given.
  */
  function Revised(p: Project, input: ProjectInput): (q: Project)
    ensures q.currentAmount == p.currentAmount && q.createdAt == p.createdAt
    ensures q.name == input.name.GetOr(p.name) && q.description == input.description.GetOr(p.description)
    ensures input.imageUrl.Some? ==> q.imageUrl == input.imageUrl
    ensures input.imageUrl.None? ==> q.imageUrl == p.imageUrl
    ensures q.hasGoal == input.hasGoal.GetOr(p.hasGoal) && q.isActive == input.isActive.GetOr(p.isActive)
    ensures !Truthy(input.hasGoal) ==> q.goalAmount.None?
    ensures Truthy(input.hasGoal) && input.goalAmount.Some? ==> q.goalAmount == input.goalAmount
    ensures Truthy(input.hasGoal) && input.goalAmount.None? ==> q.goalAmount == p.goalAmount
  {
    Project(
      input.name.GetOr(p.name),
      input.description.GetOr(p.description),
      if input.imageUrl.Some? then input.imageUrl else p.imageUrl,
      if !Truthy(input.hasGoal) then None
      else if input.goalAmount.Some? then input.goalAmount
      else p.goalAmount,
      input.hasGoal.GetOr(p.hasGoal),
      p.currentAmount,
      input.isActive.GetOr(p.isActive),
      p.createdAt)
  }

  /** `updateProject`: rewrites the project; a missing one makes the update throw (500). */
  function UpdateProject(st: Store, id: Id, input: ProjectInput): (r: Reply)
    ensures r.calls == []
    ensures r.status == OK || r.status == SERVER_ERROR
    ensures r.status == OK <==> id in st.projects
    ensures r.status != OK ==> r.store == st
    ensures r.status == OK ==> r.store == st.(projects := st.projects[id := Revised(st.projects[id], input)])
    ensures Valid(st) ==> Valid(r.store)
  {
    if id !in st.projects then Reply(st, SERVER_ERROR, [])
    else Reply(SetProject(st, id, Revised(st.projects[id], input)), OK, [])
  }

  /**
    Create and update both leave the project goal-consistent, whatever the
    project was before: an update always writes a goal amount together with
    a truthy `hasGoal`, or clears it.
  */
  lemma WritesKeepGoalConsistent(st: Store, id: Id, input: ProjectInput, now: int)
    ensures CreateProject(st, input, now).status == CREATED ==>
              GoalConsistent(CreateProject(st, input, now).store.projects[st.nextId])
    ensures UpdateProject(st, id, input).status == OK ==>
              GoalConsistent(UpdateProject(st, id, input).store.projects[id])
  {
  }

  /**
    An update that leaves `hasGoal` out (a rename, say) clears the goal
    amount of a project that has a goal, while `hasGoal` stays true; the
    statistics then show no progress.
  */
  lemma UpdateWithoutHasGoalDropsGoal(st: Store, id: Id, input: ProjectInput)
    requires id in st.projects && st.projects[id].hasGoal && st.projects[id].goalAmount.Some?
    requires input.hasGoal.None?
    ensures var p := UpdateProject(st, id, input).store.projects[id];
            p.hasGoal && p.goalAmount.None? && StatsProgress(p).NoProgress?
  {
  }

  // ---------------------------------------------------------------------------
  // Delete

  /** The `where` of the delete guard's count: the project's ACTIVE subscriptions. */
  function ActiveOn(projectId: Id): Subscription -> bool {
    (s: Subscription) => s.projectId == projectId && s.status == Active
  }

  /**
    `deleteProject`: refused (400) while the project has an ACTIVE
    subscription. Otherwise the row is deleted; the delete throws (500) when
    the project is missing or the database refuses it (`dbRefuses`, standing
    for the schema's referential actions).
  */
  function DeleteProject(st: Store, id: Id, dbRefuses: bool): (r: Reply)
    ensures r.calls == []
    ensures r.status in {OK, BAD_REQUEST, SERVER_ERROR}
    ensures Valid(st) ==>
              (r.status == BAD_REQUEST <==>
                 exists sid :: sid in st.subscriptions && st.subscriptions[sid].projectId == id
                                && st.subscriptions[sid].status == Active)
    ensures r.status != OK ==> r.store == st
    ensures r.status == OK <==> Listing.Count(st.subscriptions, ActiveOn(id), st.nextId) == 0 && id in st.projects && !dbRefuses
    ensures r.status == OK ==> r.store == RemoveProject(st, id) && id !in r.store.projects
    ensures Valid(st) ==> Valid(r.store)
  {
    var blocked := Listing.Count(st.subscriptions, ActiveOn(id), st.nextId);
    Listing.CountZero(st.subscriptions, ActiveOn(id), st.nextId);
    if blocked > 0 then Reply(st, BAD_REQUEST, [])
    else if id !in st.projects || dbRefuses then Reply(st, SERVER_ERROR, [])
    else Reply(RemoveProject(st, id), OK, [])
  }

  /**
    Only ACTIVE subscriptions block a delete: a project whose subscriptions
    are all paused, cancelled or expired is deleted when the database
    accepts it.
  */
  lemma InactiveSubscriptionsDoNotBlockDelete(st: Store, id: Id)
    requires Valid(st) && id in st.projects
    requires forall sid :: sid in st.subscriptions && st.subscriptions[sid].projectId == id ==>
               st.subscriptions[sid].status != Active
    ensures DeleteProject(st, id, false).status == OK
  {
    Listing.CountZero(st.subscriptions, ActiveOn(id), st.nextId);
  }

  // ---------------------------------------------------------------------------
  // Progress in the project statistics

  /**
    `progressPercentage` before display rounding. The goal amount is a
    decimal object, truthy whenever present, so a goal of zero reaches the
    division: a positive total then shows 100, a zero total `NaN` and a
    negative one minus infinity.
  */
  datatype Progress = NoProgress | Percent(value: real) | NotANumber | MinusInfinity

  function StatsProgress(p: Project): (r: Progress)
    ensures r.NoProgress? <==> !(p.hasGoal && p.goalAmount.Some?)
    ensures r.Percent? ==> r.value <= 100.0
    ensures r.Percent? && p.goalAmount.value != 0.0 && p.currentAmount / p.goalAmount.value * 100.0 < 100.0 ==>
              r.value == p.currentAmount / p.goalAmount.value * 100.0
    ensures p.hasGoal && p.goalAmount.Some? && p.goalAmount.value > 0.0 && p.currentAmount >= 0.0 ==>
              r.Percent? && 0.0 <= r.value
    ensures p.hasGoal && p.goalAmount.Some? && p.goalAmount.value > 0.0 && p.currentAmount >= p.goalAmount.value ==>
              r == Percent(100.0)
  {
    if !(p.hasGoal && p.goalAmount.Some?) then NoProgress
    else
      var goal := p.goalAmount.value;
      if goal == 0.0 then
        if p.currentAmount > 0.0 then Percent(100.0)
        else if p.currentAmount == 0.0 then NotANumber
        else MinusInfinity
      else
        var ratio := p.currentAmount / goal * 100.0;
        RatioBounds(p.currentAmount, goal);
        Percent(if ratio < 100.0 then ratio else 100.0)
  }

  /** The signs of a ratio over a positive goal. */
  lemma RatioBounds(current: real, goal: real)
    requires goal != 0.0
    ensures goal > 0.0 && current >= 0.0 ==> current / goal * 100.0 >= 0.0
    ensures goal > 0.0 && current >= goal ==> current / goal * 100.0 >= 100.0
  {
    if goal > 0.0 {
      var q := current / goal;
      assert q * goal == current;
      if current >= goal {
        assert q >= 1.0;
      }
    }
  }

  /** Raising more for a project with a positive goal never lowers its progress. */
  lemma ProgressMonotone(p: Project, amount: real)
    requires p.hasGoal && p.goalAmount.Some? && p.goalAmount.value > 0.0 && amount >= 0.0
    ensures StatsProgress(p).Percent? && StatsProgress(p.(currentAmount := p.currentAmount + amount)).Percent?
    ensures StatsProgress(p).value <= StatsProgress(p.(currentAmount := p.currentAmount + amount)).value
  {
    var goal := p.goalAmount.value;
    assert p.currentAmount / goal <= (p.currentAmount + amount) / goal by {
      assert (p.currentAmount + amount) / goal == p.currentAmount / goal + amount / goal;
    }
  }
}

=== FILE: scheduler.dfy ===
/**
  The two daily sweeps: payment reminders for the ACTIVE subscriptions due
  within three days, and the bulk expiry of ACTIVE subscriptions more than
  seven days overdue. The cron wiring is not modelled: a sweep is one call
  with the current instant (and, for reminders, the instant of local
  midnight today) passed in.
*/
module Scheduler {
  import opened Wrappers
  import opened Store
  import Calendar
  import Listing
  import Notifications

  // ---------------------------------------------------------------------------
  // Reminders

  /** The reminder window: ACTIVE and due between midnight today and three days from now, both ends included. */
  predicate DueForReminder(s: Subscription, today: int, now: int) {
    s.status == Active && today <= s.nextPaymentDate <= Calendar.SetDatePlus(now, 3)
  }

  /** `today` is the midnight that starts the day of `now`, as `setHours(0, 0, 0, 0)` sets it. */
  predicate MidnightOf(today: int, now: int) {
    today <= now < today + Calendar.MsPerDay
  }

  /** The `findMany` of `sendPaymentReminders`, in ascending id order. */
  function ReminderTargets(st: Store, today: int, now: int): (r: seq<Id>)
    requires MidnightOf(today, now)
    ensures forall k :: 0 <= k < |r| ==> r[k] in st.subscriptions && DueForReminder(st.subscriptions[r[k]], today, now)
    ensures Valid(st) ==> forall id :: id in st.subscriptions && DueForReminder(st.subscriptions[id], today, now) ==> id in r
    ensures forall i, j :: 0 <= i < j < |r| ==> r[i] < r[j]
  {
    Listing.Scan(st.subscriptions, (s: Subscription) => DueForReminder(s, today, now), st.nextId)
  }

  /** The reminder notification for subscription `id`. */
  function Reminder(id: Id, s: Subscription, now: int): Notification {
    Notification(s.userId, "Payment Reminder", Notifications.REMINDER_KIND, false, now,
                 Some(NoticeMeta(id, s.projectId, s.amount)))
  }

  /** How many of `ids` come before the first one in `broken`. */
  function ReachedBefore(ids: seq<Id>, broken: set<Id>): (n: nat)
    ensures n <= |ids|
    ensures forall k :: 0 <= k < n ==> ids[k] !in broken
    ensures n < |ids| ==> ids[n] in broken
  {
    if ids == [] || ids[0] in broken then 0 else 1 + ReachedBefore(ids[1..], broken)
  }

  /** Every subscription in `ids` is in the snapshot and its user and project exist. */
  predicate Deliverable(st: Store, subs: map<Id, Subscription>, ids: seq<Id>) {
    forall id :: id in ids ==> id in subs && subs[id].userId in st.users && subs[id].projectId in st.projects
  }

  /** `r` holds, from id `base` on, one reminder for each of the first `count` of `ids`, in order. */
  predicate Sent(r: Store, base: int, subs: map<Id, Subscription>, ids: seq<Id>, count: nat, now: int) {
    && count <= |ids|
    && forall k :: 0 <= k < count ==> SentAt(r, base, subs, ids, now, k)
  }

  /** The reminder for position `k` of `ids` is stored under id `base + k`. */
  predicate SentAt(r: Store, base: int, subs: map<Id, Subscription>, ids: seq<Id>, now: int, k: int) {
    && 0 <= k < |ids|
    && base + k in r.notifications
    && ids[k] in subs
    && r.notifications[base + k] == Reminder(ids[k], subs[ids[k]], now)
  }

  /** `r` still holds every notification of `st`, under the same id. */
  predicate KeepsNotifications(st: Store, r: Store) {
    forall id :: id in st.notifications ==> id in r.notifications && r.notifications[id] == st.notifications[id]
  }

  /** Reminders already sent survive anything that keeps the existing notifications. */
  lemma SentSurvives(r: Store, r': Store, base: int, subs: map<Id, Subscription>, ids: seq<Id>, count: nat, now: int)
    requires Sent(r, base, subs, ids, count, now) && KeepsNotifications(r, r')
    ensures Sent(r', base, subs, ids, count, now)
  {
    forall k | 0 <= k < count
      ensures SentAt(r', base, subs, ids, now, k)
    {
      assert SentAt(r, base, subs, ids, now, k);
    }
    assert count <= |ids|;
  }

  /** A reminder for the first id followed by the reminders for the rest. */
  lemma SentCons(r: Store, base: int, subs: map<Id, Subscription>, ids: seq<Id>, count: nat, now: int)
    requires 0 < count <= |ids| && ids[0] in subs
    requires base in r.notifications && r.notifications[base] == Reminder(ids[0], subs[ids[0]], now)
    requires Sent(r, base + 1, subs, ids[1..], count - 1, now)
    ensures Sent(r, base, subs, ids, count, now)
  {
    forall k | 0 <= k < count
      ensures SentAt(r, base, subs, ids, now, k)
    {
      if k > 0 {
        assert SentAt(r, base + 1, subs, ids[1..], now, k - 1);
        assert ids[1..][k - 1] == ids[k] && base + 1 + (k - 1) == base + k;
      }
    }
  }

  /**
    The loop of `sendPaymentReminders` over the selected `ids` of the
    snapshot `subs`: one reminder each, in order. A reminder for an id in
    `broken` throws, and the throw ends the loop; the reminders before it
    stay.
  */
  function RemindAll(st: Store, subs: map<Id, Subscription>, ids: seq<Id>, now: int, broken: set<Id>): (r: Store)
    requires forall id :: id in ids ==> id in subs
    ensures r.(notifications := st.notifications, nextId := st.nextId) == st
    ensures r.nextId >= st.nextId
    ensures KeysBelow(st.notifications, st.nextId) ==> KeysBelow(r.notifications, r.nextId) && KeepsNotifications(st, r)
    decreases |ids|
  {
    if ids == [] || ids[0] in broken then st
    else
      var st1 := Notifications.SendPaymentReminder(st, ids[0], subs[ids[0]], now);
      RemindAll(st1, subs, ids[1..], now, broken)
  }

  /** One reminder of the loop, for a subscription whose user and project exist. */
  lemma ReminderStep(st: Store, id: Id, s: Subscription, now: int)
    requires s.userId in st.users && s.projectId in st.projects
    ensures var st1 := Notifications.SendPaymentReminder(st, id, s, now);
            && st1.nextId == st.nextId + 1
            && st1.users == st.users && st1.projects == st.projects
            && st.nextId in st1.notifications && st1.notifications[st.nextId] == Reminder(id, s, now)
            && (KeysBelow(st.notifications, st.nextId) ==> KeepsNotifications(st, st1))
  {
  }

  /**
    With every user and project present, the loop sends exactly the
    reminders of the ids before the first throwing one, at consecutive ids.
  */
  lemma {:induction false} RemindAllSends(st: Store, subs: map<Id, Subscription>, ids: seq<Id>, now: int, broken: set<Id>)
    requires KeysBelow(st.notifications, st.nextId) && Deliverable(st, subs, ids)
    ensures var r := RemindAll(st, subs, ids, now, broken);
            r.nextId == st.nextId + ReachedBefore(ids, broken) && Sent(r, st.nextId, subs, ids, ReachedBefore(ids, broken), now)
    decreases |ids|
  {
    if ids != [] && ids[0] !in broken {
      var st1 := Notifications.SendPaymentReminder(st, ids[0], subs[ids[0]], now);
      ReminderStep(st, ids[0], subs[ids[0]], now);
      assert Deliverable(st1, subs, ids[1..]) by {
        assert forall x :: x in ids[1..] ==> x in ids;
      }
      RemindAllSends(st1, subs, ids[1..], now, broken);
      var r := RemindAll(st1, subs, ids[1..], now, broken);
      var n := ReachedBefore(ids, broken);
      assert n == 1 + ReachedBefore(ids[1..], broken);
      SentCons(r, st.nextId, subs, ids, n, now);
    } else {
      assert ReachedBefore(ids, broken) == 0;
    }
  }

  /** `sendPaymentReminders`: a reminder for every subscription in the window, until one throws. */
  function SendPaymentReminders(st: Store, today: int, now: int, broken: set<Id>): (r: Store)
    requires MidnightOf(today, now)
    ensures r.subscriptions == st.subscriptions && r.payments == st.payments && r.projects == st.projects
    ensures r.users == st.users && r.byReference == st.byReference && r.nextId >= st.nextId
    ensures Valid(st) ==> Valid(r) && KeepsNotifications(st, r)
  {
    RemindAll(st, st.subscriptions, ReminderTargets(st, today, now), now, broken)
  }

  /**
    With nothing throwing and every user and project present, the sweep
    sends exactly one reminder per subscription in the window, in id order,
    and no other notification.
  */
  lemma RemindersGoToEveryDueSubscription(st: Store, today: int, now: int)
    requires Valid(st) && MidnightOf(today, now)
    requires Deliverable(st, st.subscriptions, ReminderTargets(st, today, now))
    ensures var targets := ReminderTargets(st, today, now);
            var r := SendPaymentReminders(st, today, now, {});
            r.nextId == st.nextId + |targets| && Sent(r, st.nextId, st.subscriptions, targets, |targets|, now)
  {
    RemindAllSends(st, st.subscriptions, ReminderTargets(st, today, now), now, {});
  }

  /** A sweep that meets a throwing reminder at position `j` sends the `j` reminders before it and no more. */
  lemma ThrowEndsTheSweep(st: Store, today: int, now: int, broken: set<Id>, j: nat)
    requires Valid(st) && MidnightOf(today, now)
    requires Deliverable(st, st.subscriptions, ReminderTargets(st, today, now))
    requires j < |ReminderTargets(st, today, now)| && ReminderTargets(st, today, now)[j] in broken
    requires forall k :: 0 <= k < j ==> ReminderTargets(st, today, now)[k] !in broken
    ensures var r := SendPaymentReminders(st, today, now, broken);
            r.nextId == st.nextId + j && Sent(r, st.nextId, st.subscriptions, ReminderTargets(st, today, now), j, now)
  {
    var targets := ReminderTargets(st, today, now);
    RemindAllSends(st, st.subscriptions, targets, now, broken);
    var n := ReachedBefore(targets, broken);
    assert targets[j] in broken;
    assert n <= j;
    assert n >= j;
  }

  /**
    Reminders are not deduplicated: running the sweep twice with the same
    clock sends every due subscription a second reminder.
  */
  lemma SweepTwiceRemindsTwice(st: Store, today: int, now: int)
    requires Valid(st) && MidnightOf(today, now)
    requires Deliverable(st, st.subscriptions, ReminderTargets(st, today, now))
    ensures var targets := ReminderTargets(st, today, now);
            var once := SendPaymentReminders(st, today, now, {});
            var twice := SendPaymentReminders(once, today, now, {});
            && once.nextId == st.nextId + |targets|
            && twice.nextId == once.nextId + |targets|
            && Sent(twice, st.nextId, st.subscriptions, targets, |targets|, now)
            && Sent(twice, once.nextId, st.subscriptions, targets, |targets|, now)
  {
    var targets := ReminderTargets(st, today, now);
    var once := SendPaymentReminders(st, today, now, {});
    RemindersGoToEveryDueSubscription(st, today, now);
    assert ReminderTargets(once, today, now) == targets by {
      Listing.ScanPastKeys(st.subscriptions, (s: Subscription) => DueForReminder(s, today, now), st.nextId, once.nextId);
    }
    RemindersGoToEveryDueSubscription(once, today, now);
    var twice := SendPaymentReminders(once, today, now, {});
    SentSurvives(once, SendPaymentReminders(once, today, now, {}), st.nextId, st.subscriptions, targets, |targets|, now);
  }

  // ---------------------------------------------------------------------------
  // Expiry

  /** The expiry filter: ACTIVE and due strictly before seven days ago. */
  predicate Overdue(s: Subscription, now: int) {
    s.status == Active && s.nextPaymentDate < Calendar.SetDatePlus(now, -7)
  }

  /** `checkExpiredSubscriptions`: one `updateMany`; answers the store and the number of rows updated. */
  function CheckExpiredSubscriptions(st: Store, now: int): (r: (Store, nat))
    ensures r.0 == st.(subscriptions := r.0.subscriptions)
    ensures r.0.subscriptions.Keys == st.subscriptions.Keys
    ensures forall id :: id in st.subscriptions ==>
              r.0.subscriptions[id] ==
                if Overdue(st.subscriptions[id], now) then st.subscriptions[id].(status := Expired) else st.subscriptions[id]
    ensures Valid(st) ==> Valid(r.0)
  {
    var updated := map id | id in st.subscriptions ::
                     if Overdue(st.subscriptions[id], now) then st.subscriptions[id].(status := Expired) else st.subscriptions[id];
    (st.(subscriptions := updated), Listing.Count(st.subscriptions, (s: Subscription) => Overdue(s, now), st.nextId))
  }

  /** The count is the number of overdue subscriptions: zero exactly when none is overdue. */
  lemma ExpiryCountZero(st: Store, now: int)
    requires Valid(st)
    ensures CheckExpiredSubscriptions(st, now).1 == 0 <==>
            forall id :: id in st.subscriptions ==> !Overdue(st.subscriptions[id], now)
  {
    Listing.CountZero(st.subscriptions, (s: Subscription) => Overdue(s, now), st.nextId);
  }

  /** Expiry is idempotent: an immediate second run writes nothing and updates no row. */
  lemma ExpiryIdempotent(st: Store, now: int)
    requires Valid(st)
    ensures var once := CheckExpiredSubscriptions(st, now).0;
            CheckExpiredSubscriptions(once, now).0 == once && CheckExpiredSubscriptions(once, now).1 == 0
  {
    var once := CheckExpiredSubscriptions(st, now).0;
    assert CheckExpiredSubscriptions(once, now).0.subscriptions == once.subscriptions;
    ExpiryCountZero(once, now);
  }

  /**
    The seven-day boundary is strict: a subscription due exactly seven days
    ago stays ACTIVE, one due a millisecond earlier expires.
  */
  lemma ExpiryBoundaryIsStrict(s: Subscription, now: int)
    requires s.status == Active
    ensures s.nextPaymentDate == now - 7 * Calendar.MsPerDay ==> !Overdue(s, now)
    ensures s.nextPaymentDate == now - 7 * Calendar.MsPerDay - 1 ==> Overdue(s, now)
  {
    Calendar.SetDatePlusExact(now, -7);
  }
}

=== FILE: store.dfy ===
/**
  The database: one table per entity, keyed by id, with the unique index on
  a payment's gateway reference kept as an explicit map. Ids are handed out
  by a counter, so every key of every table is below `nextId`.
*/
module Store {
  import opened Wrappers
  import opened Gateway

  type Id = nat

  datatype Role = Donor | Admin

  datatype User = User(email: string, role: Role, isActive: bool)

  datatype Project = Project(
    name: string,
    description: string,
    imageUrl: Option<string>,
    goalAmount: Option<real>,
    hasGoal: bool,
    currentAmount: real,
    isActive: bool,
    createdAt: int)

  datatype SubStatus = Active | Paused | Cancelled | Expired

  /**
    A recurring donation. `interval` is the stored string (the validator
    admits the five known names); the gateway fields are the plan code, the
    gateway's subscription code and e-mail token, and the customer code.
  */
  datatype Subscription = Subscription(
    userId: Id,
    projectId: Id,
    amount: real,
    interval: string,
    customIntervalDays: Option<int>,
    status: SubStatus,
    startDate: int,
    nextPaymentDate: int,
    lastPaymentDate: Option<int>,
    endDate: Option<int>,
    planCode: Option<string>,
    subscriptionCode: Option<string>,
    emailToken: Option<string>,
    customerCode: Option<string>)

  datatype PayStatus = Pending | Success | Failed

  datatype Payment = Payment(
    userId: Id,
    projectId: Id,
    subscriptionId: Option<Id>,
    amount: real,
    status: PayStatus,
    reference: Option<string>,
    transactionId: Option<int>,
    paidAt: Option<int>,
    metadata: Option<Payload>)

  /** A notification's metadata: the payment or subscription it is about, its project and amount. */
  datatype NoticeMeta = NoticeMeta(sourceId: Id, projectId: Id, amount: real)

  datatype Notification = Notification(
    userId: Id,
    title: string,
    kind: string,
    isRead: bool,
    createdAt: int,
    metadata: Option<NoticeMeta>)

  datatype Store = Store(
    users: map<Id, User>,
    projects: map<Id, Project>,
    subscriptions: map<Id, Subscription>,
    payments: map<Id, Payment>,
    notifications: map<Id, Notification>,
    byReference: map<string, Id>,
    nextId: nat)

  predicate KeysBelow<T>(m: map<Id, T>, n: nat) {
    forall id :: id in m ==> id < n
  }

  /** `byReference` is exactly the unique index on `Payment.reference`. */
  predicate ReferenceIndexed(payments: map<Id, Payment>, byReference: map<string, Id>) {
    && (forall r :: r in byReference ==>
          byReference[r] in payments && payments[byReference[r]].reference == Some(r))
    && (forall id :: id in payments && payments[id].reference.Some? ==>
          payments[id].reference.value in byReference && byReference[payments[id].reference.value] == id)
  }

  predicate Valid(st: Store) {
    && KeysBelow(st.users, st.nextId)
    && KeysBelow(st.projects, st.nextId)
    && KeysBelow(st.subscriptions, st.nextId)
    && KeysBelow(st.payments, st.nextId)
    && KeysBelow(st.notifications, st.nextId)
    && ReferenceIndexed(st.payments, st.byReference)
  }

  // HTTP statuses the controllers answer with.
  const OK: int := 200
  const CREATED: int := 201
  const BAD_REQUEST: int := 400
  const UNAUTHORIZED: int := 401
  const NOT_FOUND: int := 404
  const SERVER_ERROR: int := 500

  /** What a request leaves behind: the database, the HTTP status and the gateway requests it made. */
  datatype Reply = Reply(store: Store, status: int, calls: seq<Call>)

  /** Two references name the same payment only if they are equal. */
  lemma ReferencesUnique(st: Store, a: Id, b: Id)
    requires Valid(st) && a in st.payments && b in st.payments
    requires st.payments[a].reference.Some? && st.payments[a].reference == st.payments[b].reference
    ensures a == b
  {
  }

  /** `payment.findUnique({ where: { paystackReference } })`. */
  function PaymentByReference(st: Store, reference: string): (r: Option<Id>)
    ensures r.Some? ==> r.value in st.payments
    ensures Valid(st) && r.Some? ==> st.payments[r.value].reference == Some(reference)
    ensures Valid(st) && r.None? ==> forall id :: id in st.payments ==> st.payments[id].reference != Some(reference)
    ensures Valid(st) && r.None? ==> reference !in st.byReference
  {
    if reference in st.byReference && st.byReference[reference] in st.payments then Some(st.byReference[reference])
    else None
  }

  // ---------------------------------------------------------------------------
  // Row writes

  function AddSubscription(st: Store, s: Subscription): (r: (Store, Id))
    ensures r.1 == st.nextId && r.0.nextId == st.nextId + 1
    ensures r.0 == st.(subscriptions := st.subscriptions[r.1 := s], nextId := r.0.nextId)
    ensures Valid(st) ==> Valid(r.0) && r.1 !in st.subscriptions
  {
    (st.(subscriptions := st.subscriptions[st.nextId := s], nextId := st.nextId + 1), st.nextId)
  }

  /** Inserts a payment; its reference, if any, must not be taken (the unique index). */
  function AddPayment(st: Store, p: Payment): (r: (Store, Id))
    requires p.reference.Some? ==> p.reference.value !in st.byReference
    ensures r.1 == st.nextId && r.0.nextId == st.nextId + 1
    ensures r.0.payments == st.payments[r.1 := p]
    ensures r.0 == st.(payments := r.0.payments, byReference := r.0.byReference, nextId := r.0.nextId)
    ensures Valid(st) ==> Valid(r.0) && r.1 !in st.payments
  {
    var id := st.nextId;
    var index := if p.reference.Some? then st.byReference[p.reference.value := id] else st.byReference;
    (st.(payments := st.payments[id := p], byReference := index, nextId := id + 1), id)
  }

  function AddNotification(st: Store, n: Notification): (r: (Store, Id))
    ensures r.1 == st.nextId && r.0.nextId == st.nextId + 1
    ensures r.0 == st.(notifications := st.notifications[r.1 := n], nextId := r.0.nextId)
    ensures Valid(st) ==> Valid(r.0) && r.1 !in st.notifications
  {
    (st.(notifications := st.notifications[st.nextId := n], nextId := st.nextId + 1), st.nextId)
  }

  function AddProject(st: Store, p: Project): (r: (Store, Id))
    ensures r.1 == st.nextId && r.0.nextId == st.nextId + 1
    ensures r.0 == st.(projects := st.projects[r.1 := p], nextId := r.0.nextId)
    ensures Valid(st) ==> Valid(r.0) && r.1 !in st.projects
  {
    (st.(projects := st.projects[st.nextId := p], nextId := st.nextId + 1), st.nextId)
  }

  /** Rewrites an existing payment, keeping its reference. */
  function SetPayment(st: Store, id: Id, p: Payment): (r: Store)
    requires id in st.payments && p.reference == st.payments[id].reference
    ensures r == st.(payments := st.payments[id := p])
    ensures Valid(st) ==> Valid(r)
  {
    st.(payments := st.payments[id := p])
  }

  /** Rewrites an existing subscription. */
  function SetSubscription(st: Store, id: Id, s: Subscription): (r: Store)
    requires id in st.subscriptions
    ensures r == st.(subscriptions := st.subscriptions[id := s])
    ensures Valid(st) ==> Valid(r)
  {
    st.(subscriptions := st.subscriptions[id := s])
  }

  /** Rewrites an existing user. */
  function SetUser(st: Store, id: Id, u: User): (r: Store)
    requires id in st.users
    ensures r == st.(users := st.users[id := u])
    ensures Valid(st) ==> Valid(r)
  {
    st.(users := st.users[id := u])
  }

  /** Deletes a project row; rows that name it are left as they are. */
  function RemoveProject(st: Store, id: Id): (r: Store)
    ensures r.projects.Keys == st.projects.Keys - {id}
    ensures forall other :: other in r.projects ==> r.projects[other] == st.projects[other]
    ensures r == st.(projects := r.projects)
    ensures Valid(st) ==> Valid(r)
  {
    st.(projects := st.projects - {id})
  }

  /** Rewrites an existing project. */
  function SetProject(st: Store, id: Id, p: Project): (r: Store)
    requires id in st.projects
    ensures r == st.(projects := st.projects[id := p])
    ensures Valid(st) ==> Valid(r)
  {
    st.(projects := st.projects[id := p])
  }
}

=== FILE: subscriptions.dfy ===
/**
  The subscription lifecycle as the donor's requests drive it: create (with
  the gateway plan and checkout), update, pause, resume and cancel. Every
  per-id request looks the subscription up by id and owner together, so a
  subscription of another user is "not found".
*/
module Subscriptions {
  import opened Wrappers
  import opened Gateway
  import opened Store
  import Helpers

  // ---------------------------------------------------------------------------
  // Guards

  /** The statuses each request accepts. */
  predicate CanUpdate(s: SubStatus) { s == Active }
  predicate CanPause(s: SubStatus) { s == Active }
  predicate CanResume(s: SubStatus) { s == Paused }
  predicate CanCancel(s: SubStatus) { s != Cancelled }

  /** Whether the gateway mandate can be addressed: both its code and e-mail token are non-empty. */
  predicate HasMandate(s: Subscription) {
    Helpers.TruthyText(s.subscriptionCode) && Helpers.TruthyText(s.emailToken)
  }

  /** `findFirst({ where: { id, userId } })`. */
  function Owned(st: Store, id: Id, userId: Id): (r: Option<Subscription>)
    ensures r.Some? <==> id in st.subscriptions && st.subscriptions[id].userId == userId
    ensures r.Some? ==> r.value == st.subscriptions[id]
  {
    if id in st.subscriptions && st.subscriptions[id].userId == userId then Some(st.subscriptions[id]) else None
  }

  /** `findFirst({ where: { userId, projectId, status: 'ACTIVE' } })` found a row. */
  predicate HasActiveSubscription(st: Store, userId: Id, projectId: Id) {
    exists id :: id in st.subscriptions && st.subscriptions[id].userId == userId
                 && st.subscriptions[id].projectId == projectId && st.subscriptions[id].status == Active
  }

  /** Only the subscriptions table changes, and only at `id`. */
  predicate OnlySubscriptionChanged(st: Store, st': Store, id: Id) {
    && st' == st.(subscriptions := st'.subscriptions)
    && st'.subscriptions.Keys == st.subscriptions.Keys
    && forall other :: other in st.subscriptions && other != id ==> st'.subscriptions[other] == st.subscriptions[other]
  }

  // ---------------------------------------------------------------------------
  // Create

  /** The body of a create request. */
  datatype NewSubscription = NewSubscription(projectId: Id, amount: real, interval: string, customIntervalDays: Option<int>)

  /**
    What a successful create leaves behind: one new ACTIVE subscription and
    one new PENDING payment for it under the checkout reference, and no
    other row changed.
  */
  predicate AddsSubscriptionAndPayment(st: Store, st': Store, userId: Id, req: NewSubscription, now: int, reference: string) {
    var sid, pid := st.nextId, st.nextId + 1;
    && st'.nextId == st.nextId + 2
    && st'.users == st.users && st'.projects == st.projects && st'.notifications == st.notifications
    && st'.subscriptions.Keys == st.subscriptions.Keys + {sid}
    && (forall id :: id in st.subscriptions ==> st'.subscriptions[id] == st.subscriptions[id])
    && st'.payments.Keys == st.payments.Keys + {pid}
    && (forall id :: id in st.payments ==> st'.payments[id] == st.payments[id])
    && var s, p := st'.subscriptions[sid], st'.payments[pid];
       && s.userId == userId && s.projectId == req.projectId && s.amount == req.amount
       && s.interval == req.interval && s.status == Active && s.startDate == now
       && s.nextPaymentDate == Helpers.CalculateNextPaymentDate(req.interval, req.customIntervalDays, now)
       && s.customIntervalDays == (if req.interval == "CUSTOM" then req.customIntervalDays else None)
       && (req.interval == "CUSTOM" ==> s.planCode.None?)
       && s.lastPaymentDate.None? && s.endDate.None?
       && s.subscriptionCode.None? && s.emailToken.None? && s.customerCode.None?
       && p.userId == userId && p.projectId == req.projectId && p.subscriptionId == Some(sid)
       && p.amount == req.amount && p.status == Pending && p.reference == Some(reference)
       && p.paidAt.None? && p.transactionId.None?
  }

  /** The subscription row a create writes: ACTIVE from `now`, first due one interval on. */
  function NewRow(userId: Id, req: NewSubscription, now: int, planCode: Option<string>): Subscription {
    Subscription(userId, req.projectId, req.amount, req.interval,
                 if req.interval == "CUSTOM" then req.customIntervalDays else None, Active, now,
                 Helpers.CalculateNextPaymentDate(req.interval, req.customIntervalDays, now),
                 None, None, planCode, None, None, None)
  }

  /**
    The two writes of a create once the checkout exists: the subscription,
    then the PENDING payment under the checkout reference. The unique index
    refuses a reference already taken, and the subscription stays written.
  */
  function Persist(st: Store, userId: Id, req: NewSubscription, now: int, planCode: Option<string>,
                   reference: string, calls: seq<Call>): (r: Reply)
    requires req.interval == "CUSTOM" ==> planCode.None?
    ensures r.calls == calls
    ensures r.status == CREATED || r.status == SERVER_ERROR
    ensures r.status == CREATED <==> reference !in st.byReference
    ensures r.status != CREATED ==> r.status == SERVER_ERROR
                                    && r.store == AddSubscription(st, NewRow(userId, req, now, planCode)).0
    ensures Valid(st) && r.status == CREATED ==> AddsSubscriptionAndPayment(st, r.store, userId, req, now, reference)
                                                 && r.store.subscriptions[st.nextId].planCode == planCode
    ensures Valid(st) ==> Valid(r.store)
  {
    var (st1, sid) := AddSubscription(st, NewRow(userId, req, now, planCode));
    if reference in st1.byReference then Reply(st1, SERVER_ERROR, calls)
    else
      var pay := Payment(userId, req.projectId, Some(sid), req.amount, Pending, Some(reference), None, None, None);
      Reply(AddPayment(st1, pay).0, CREATED, calls)
  }

  /**
    The checkout half of a create: the user's e-mail is read (a missing user
    throws), the transaction is initialised, and a successful checkout is
    persisted.
  */
  function StartCheckout(st: Store, userId: Id, req: NewSubscription, now: int, planCode: Option<string>,
                         planCalls: seq<Call>, checkout: Answer<Checkout>): (r: Reply)
    requires req.interval == "CUSTOM" ==> planCode.None?
    ensures r.status == CREATED || r.status == BAD_REQUEST || r.status == SERVER_ERROR
    ensures userId !in st.users ==> r == Reply(st, SERVER_ERROR, planCalls)
    ensures userId in st.users ==>
              r.calls == planCalls + [InitializeTransaction(st.users[userId].email, Helpers.ToMinorUnits(req.amount), planCode)]
    ensures checkout.Threw? || !checkout.status ==> r.store == st && r.status != CREATED
    ensures r.status == CREATED <==>
              userId in st.users && checkout.Answer? && checkout.status && checkout.data.reference !in st.byReference
    ensures Valid(st) && r.status == CREATED ==>
              AddsSubscriptionAndPayment(st, r.store, userId, req, now, checkout.data.reference)
              && r.store.subscriptions[st.nextId].planCode == planCode
    ensures Valid(st) ==> Valid(r.store)
  {
    // `user.email` on a missing user throws
    if userId !in st.users then Reply(st, SERVER_ERROR, planCalls)
    else
      var calls := planCalls + [InitializeTransaction(st.users[userId].email, Helpers.ToMinorUnits(req.amount), planCode)];
      match checkout
      case Threw => Reply(st, SERVER_ERROR, calls)
      case Answer(ok, data) =>
        if !ok then Reply(st, BAD_REQUEST, calls)
        else Persist(st, userId, req, now, planCode, data.reference, calls)
  }

  /**
    `createSubscription` for the signed-in user `userId`. `plan` is what the
    gateway's plan creation answered (asked only for a non-CUSTOM interval),
    `checkout` what its transaction initialisation answered.
  */
  function CreateSubscription(st: Store, userId: Id, req: NewSubscription, now: int,
                              plan: Answer<string>, checkout: Answer<Checkout>): (r: Reply)
    ensures r.status == NOT_FOUND <==> req.projectId !in st.projects || !st.projects[req.projectId].isActive
    ensures r.status == NOT_FOUND ==> r.store == st && r.calls == []
    ensures (req.projectId in st.projects && st.projects[req.projectId].isActive
             && HasActiveSubscription(st, userId, req.projectId)) ==> r == Reply(st, BAD_REQUEST, [])
    ensures checkout.Threw? || !checkout.status ==> r.store == st
    ensures r.status == CREATED <==>
              && req.projectId in st.projects && st.projects[req.projectId].isActive
              && !HasActiveSubscription(st, userId, req.projectId)
              && (req.interval != "CUSTOM" ==> plan.Answer?)
              && userId in st.users
              && checkout.Answer? && checkout.status && checkout.data.reference !in st.byReference
    ensures Valid(st) && r.status == CREATED ==> AddsSubscriptionAndPayment(st, r.store, userId, req, now, checkout.data.reference)
    ensures r.status == CREATED ==>
              var planCode := if req.interval != "CUSTOM" && plan.status then Some(plan.data) else None;
              r.calls == (if req.interval == "CUSTOM" then []
                          else [CreatePlan(Helpers.ToMinorUnits(req.amount), Helpers.MapToGatewayInterval(req.interval))])
                         + [InitializeTransaction(st.users[userId].email, Helpers.ToMinorUnits(req.amount), planCode)]
    ensures Valid(st) ==> Valid(r.store)
  {
    if req.projectId !in st.projects || !st.projects[req.projectId].isActive then Reply(st, NOT_FOUND, [])
    else if HasActiveSubscription(st, userId, req.projectId) then Reply(st, BAD_REQUEST, [])
    else if req.interval == "CUSTOM" then StartCheckout(st, userId, req, now, None, [], checkout)
    else
      var planCalls := [CreatePlan(Helpers.ToMinorUnits(req.amount), Helpers.MapToGatewayInterval(req.interval))];
      match plan
      case Threw => Reply(st, SERVER_ERROR, planCalls)
      case Answer(ok, code) =>
        StartCheckout(st, userId, req, now, if ok then Some(code) else None, planCalls, checkout)
  }

  // ---------------------------------------------------------------------------
  // Update

  /** The body of an update request; an absent field (or a falsy amount or interval) keeps the stored value. */
  datatype Change = Change(amount: Option<real>, interval: Option<string>, customIntervalDays: Option<int>)

  /** The subscription an accepted update writes. */
  function Updated(s: Subscription, change: Change, now: int): (r: Subscription)
    ensures r.amount == (if change.amount.Some? && change.amount.value != 0.0 then change.amount.value else s.amount)
    ensures r.interval == (if change.interval.Some? && change.interval.value != "" then change.interval.value else s.interval)
    ensures change.interval != Some("CUSTOM") || change.customIntervalDays.None? ==> r.customIntervalDays == s.customIntervalDays
    ensures change.interval == Some("CUSTOM") && change.customIntervalDays.Some? ==> r.customIntervalDays == change.customIntervalDays
    ensures r.status == s.status && r.userId == s.userId && r.projectId == s.projectId
    ensures r == s.(amount := r.amount, interval := r.interval, customIntervalDays := r.customIntervalDays,
                    nextPaymentDate := r.nextPaymentDate)
  {
    var custom := change.interval == Some("CUSTOM");
    var interval := if change.interval.Some? && change.interval.value != "" then change.interval.value else s.interval;
    var days := if custom then change.customIntervalDays else s.customIntervalDays;
    s.(amount := if change.amount.Some? && change.amount.value != 0.0 then change.amount.value else s.amount,
       interval := interval,
       // an undefined field leaves the column as it is
       customIntervalDays := if custom && change.customIntervalDays.None? then s.customIntervalDays else days,
       nextPaymentDate := Helpers.CalculateNextPaymentDate(interval, days, now))
  }

  /** `updateSubscription`: only an ACTIVE subscription of the user can be updated. */
  function UpdateSubscription(st: Store, userId: Id, id: Id, change: Change, now: int): (r: Reply)
    ensures Owned(st, id, userId).None? ==> r == Reply(st, NOT_FOUND, [])
    ensures r.status == OK <==> Owned(st, id, userId).Some? && CanUpdate(st.subscriptions[id].status)
    ensures r.status != OK ==> r.store == st
    ensures r.status == OK ==> OnlySubscriptionChanged(st, r.store, id)
                               && r.store.subscriptions[id] == Updated(st.subscriptions[id], change, now)
    ensures r.calls == []
    ensures Valid(st) ==> Valid(r.store)
  {
    match Owned(st, id, userId)
    case None => Reply(st, NOT_FOUND, [])
    case Some(s) =>
      if !CanUpdate(s.status) then Reply(st, BAD_REQUEST, [])
      else Reply(SetSubscription(st, id, Updated(s, change, now)), OK, [])
  }

  /** The new due date of an update is computed from the request time. */
  lemma UpdateRecomputesDueDate(st: Store, userId: Id, id: Id, change: Change, now: int)
    requires UpdateSubscription(st, userId, id, change, now).status == OK
    ensures var s := st.subscriptions[id];
            var s' := UpdateSubscription(st, userId, id, change, now).store.subscriptions[id];
            s'.nextPaymentDate == Helpers.CalculateNextPaymentDate(
              s'.interval, if change.interval == Some("CUSTOM") then change.customIntervalDays else s.customIntervalDays, now)
            && s'.status == Active
  {
  }

  // ---------------------------------------------------------------------------
  // Pause, resume, cancel

  /** The mandate request a pause, resume or cancel sends, if the subscription has a mandate. */
  function MandateCalls(s: Subscription, enable: bool): (r: seq<Call>)
    ensures |r| == (if HasMandate(s) then 1 else 0)
    ensures HasMandate(s) && enable ==> r == [EnableSubscription(s.subscriptionCode.value, s.emailToken.value)]
    ensures HasMandate(s) && !enable ==> r == [DisableSubscription(s.subscriptionCode.value, s.emailToken.value)]
  {
    if !HasMandate(s) then []
    else if enable then [EnableSubscription(s.subscriptionCode.value, s.emailToken.value)]
    else [DisableSubscription(s.subscriptionCode.value, s.emailToken.value)]
  }

  /** The three status moves a donor can ask for. */
  datatype Move = Pause | Resume(at: int) | Cancel(at: int)

  /** The status guard of each move. */
  predicate Allows(m: Move, status: SubStatus) {
    match m
    case Pause => CanPause(status)
    case Resume(_) => CanResume(status)
    case Cancel(_) => CanCancel(status)
  }

  /** The row each move writes. */
  function Moved(s: Subscription, m: Move): Subscription {
    match m
    case Pause => s.(status := Paused)
    case Resume(now) => s.(status := Active, nextPaymentDate := Helpers.CalculateNextPaymentDate(s.interval, s.customIntervalDays, now))
    case Cancel(now) => s.(status := Cancelled, endDate := Some(now))
  }

  /**
    The common shape of pause, resume and cancel: look the subscription up
    by owner, check the status guard, call the gateway if there is a
    mandate (resume enables it, the others disable it; a throw ends the
    request with nothing written), then write.
  */
  function Transition(st: Store, userId: Id, id: Id, m: Move, mandateThrows: bool): (r: Reply)
    ensures Owned(st, id, userId).None? ==> r == Reply(st, NOT_FOUND, [])
    ensures Owned(st, id, userId).Some? && !Allows(m, st.subscriptions[id].status) ==> r == Reply(st, BAD_REQUEST, [])
    ensures Owned(st, id, userId).Some? && Allows(m, st.subscriptions[id].status) ==>
              r.calls == MandateCalls(st.subscriptions[id], m.Resume?)
    ensures r.status == OK <==>
              Owned(st, id, userId).Some? && Allows(m, st.subscriptions[id].status)
              && !(HasMandate(st.subscriptions[id]) && mandateThrows)
    ensures r.status != OK ==> r.store == st
    ensures r.status == OK ==> OnlySubscriptionChanged(st, r.store, id)
                               && r.store.subscriptions[id] == Moved(st.subscriptions[id], m)
    ensures Valid(st) ==> Valid(r.store)
  {
    match Owned(st, id, userId)
    case None => Reply(st, NOT_FOUND, [])
    case Some(s) =>
      if !Allows(m, s.status) then Reply(st, BAD_REQUEST, [])
      else
        var calls := MandateCalls(s, m.Resume?);
        if HasMandate(s) && mandateThrows then Reply(st, SERVER_ERROR, calls)
        else Reply(SetSubscription(st, id, Moved(s, m)), OK, calls)
  }

  /** `pauseSubscription`: ACTIVE becomes PAUSED; the gateway mandate is disabled first. */
  function PauseSubscription(st: Store, userId: Id, id: Id, mandateThrows: bool): (r: Reply)
    ensures r.status == OK <==>
              Owned(st, id, userId).Some? && CanPause(st.subscriptions[id].status)
              && !(HasMandate(st.subscriptions[id]) && mandateThrows)
    ensures r.status != OK ==> r.store == st
    ensures r.status == OK ==> OnlySubscriptionChanged(st, r.store, id)
    ensures r.status == OK ==> r.store.subscriptions[id] == st.subscriptions[id].(status := Paused)
    ensures r.status == OK ==> st.subscriptions[id].status == Active && st.subscriptions[id].userId == userId
    ensures r.calls ==
              if Owned(st, id, userId).Some? && CanPause(st.subscriptions[id].status) && HasMandate(st.subscriptions[id])
              then [DisableSubscription(st.subscriptions[id].subscriptionCode.value, st.subscriptions[id].emailToken.value)]
              else []
  {
    Transition(st, userId, id, Pause, mandateThrows)
  }

  /** `resumeSubscription`: PAUSED becomes ACTIVE with a due date computed from `now`. */
  function ResumeSubscription(st: Store, userId: Id, id: Id, mandateThrows: bool, now: int): (r: Reply)
    ensures r.status == OK <==>
              Owned(st, id, userId).Some? && CanResume(st.subscriptions[id].status)
              && !(HasMandate(st.subscriptions[id]) && mandateThrows)
    ensures r.status != OK ==> r.store == st
    ensures r.status == OK ==> OnlySubscriptionChanged(st, r.store, id)
    ensures r.status == OK ==>
              var s := st.subscriptions[id];
              s.status == Paused && s.userId == userId
              && r.store.subscriptions[id] == s.(status := Active,
                   nextPaymentDate := Helpers.CalculateNextPaymentDate(s.interval, s.customIntervalDays, now))
    ensures r.calls ==
              if Owned(st, id, userId).Some? && CanResume(st.subscriptions[id].status) && HasMandate(st.subscriptions[id])
              then [EnableSubscription(st.subscriptions[id].subscriptionCode.value, st.subscriptions[id].emailToken.value)]
              else []
  {
    Transition(st, userId, id, Resume(now), mandateThrows)
  }

  /** `cancelSubscription`: anything but CANCELLED becomes CANCELLED, ended at `now`. */
  function CancelSubscription(st: Store, userId: Id, id: Id, mandateThrows: bool, now: int): (r: Reply)
    ensures r.status == OK <==>
              Owned(st, id, userId).Some? && CanCancel(st.subscriptions[id].status)
              && !(HasMandate(st.subscriptions[id]) && mandateThrows)
    ensures r.status != OK ==> r.store == st
    ensures r.status == OK ==> OnlySubscriptionChanged(st, r.store, id)
    ensures r.status == OK ==>
              st.subscriptions[id].status != Cancelled && st.subscriptions[id].userId == userId
              && r.store.subscriptions[id] == st.subscriptions[id].(status := Cancelled, endDate := Some(now))
    ensures r.calls ==
              if Owned(st, id, userId).Some? && CanCancel(st.subscriptions[id].status) && HasMandate(st.subscriptions[id])
              then [DisableSubscription(st.subscriptions[id].subscriptionCode.value, st.subscriptions[id].emailToken.value)]
              else []
  {
    Transition(st, userId, id, Cancel(now), mandateThrows)
  }

  // ---------------------------------------------------------------------------
  // Properties across requests

  /** Every per-id request treats another user's subscription as missing and changes nothing. */
  lemma OtherUsersSubscriptionNotFound(st: Store, userId: Id, id: Id, change: Change, throws: bool, now: int)
    requires id in st.subscriptions && st.subscriptions[id].userId != userId
    ensures UpdateSubscription(st, userId, id, change, now) == Reply(st, NOT_FOUND, [])
    ensures PauseSubscription(st, userId, id, throws) == Reply(st, NOT_FOUND, [])
    ensures ResumeSubscription(st, userId, id, throws, now) == Reply(st, NOT_FOUND, [])
    ensures CancelSubscription(st, userId, id, throws, now) == Reply(st, NOT_FOUND, [])
  {
  }

  /** Cancel succeeds from ACTIVE, PAUSED and EXPIRED alike, and is refused only when already CANCELLED. */
  lemma CancelAcceptsEveryLiveStatus(st: Store, userId: Id, id: Id, now: int)
    requires id in st.subscriptions && st.subscriptions[id].userId == userId
    ensures CancelSubscription(st, userId, id, false, now).status == OK <==> st.subscriptions[id].status != Cancelled
    ensures st.subscriptions[id].status == Cancelled ==> CancelSubscription(st, userId, id, false, now).status == BAD_REQUEST
  {
  }

  /** A cancelled subscription can be neither updated, paused, resumed nor cancelled again. */
  lemma CancelledIsFinal(st: Store, userId: Id, id: Id, change: Change, throws: bool, now: int)
    requires id in st.subscriptions && st.subscriptions[id].userId == userId
    requires st.subscriptions[id].status == Cancelled
    ensures UpdateSubscription(st, userId, id, change, now) == Reply(st, BAD_REQUEST, [])
    ensures PauseSubscription(st, userId, id, throws) == Reply(st, BAD_REQUEST, [])
    ensures ResumeSubscription(st, userId, id, throws, now) == Reply(st, BAD_REQUEST, [])
    ensures CancelSubscription(st, userId, id, throws, now) == Reply(st, BAD_REQUEST, [])
  {
  }

  /**
    Resume undoes pause: pausing and then resuming an ACTIVE subscription
    gives it back with only its due date recomputed, and the gateway sees
    a disable followed by an enable of the same mandate.
  */
  lemma PauseThenResume(st: Store, userId: Id, id: Id, now: int)
    requires id in st.subscriptions && st.subscriptions[id].userId == userId
    requires st.subscriptions[id].status == Active
    ensures var paused := PauseSubscription(st, userId, id, false);
            var resumed := ResumeSubscription(paused.store, userId, id, false, now);
            var s := st.subscriptions[id];
            paused.status == OK && resumed.status == OK
            && resumed.store.subscriptions[id] ==
                 s.(nextPaymentDate := Helpers.CalculateNextPaymentDate(s.interval, s.customIntervalDays, now))
            && resumed.store == st.(subscriptions := st.subscriptions[id := resumed.store.subscriptions[id]])
            && (HasMandate(s) ==>
                  paused.calls + resumed.calls ==
                    [DisableSubscription(s.subscriptionCode.value, s.emailToken.value),
                     EnableSubscription(s.subscriptionCode.value, s.emailToken.value)])
  {
    var paused := PauseSubscription(st, userId, id, false);
    assert paused.store.subscriptions[id] == st.subscriptions[id].(status := Paused);
  }
}

=== FILE: validation.dfy ===
/**
  The request validation in front of the subscription routes: the rules a
  create body must pass (a UUID project id, an amount of at least 100, a
  known interval, an optional whole day count of at least 1) and the
  update rules, where every field is optional under the same bounds. A
  body that breaks a rule is answered 400 before the controller runs.
*/
module Validation {
  import opened Wrappers
  import Helpers

  /**
    A body field as the validator sees it: absent (`undefined`), or present
    with its text and the readings the float and integer checks make of
    that text (`None` when the text is not a float, or not an integer).
  */
  datatype Field = Absent | Given(text: string, asFloat: Option<real>, asInt: Option<int>)

  const INTERVALS: seq<string> := ["WEEKLY", "MONTHLY", "QUARTERLY", "ANNUALLY", "CUSTOM"]

  /** `isFloat({ min })`. */
  predicate FloatAtLeast(f: Field, min: real) {
    f.Given? && f.asFloat.Some? && f.asFloat.value >= min
  }

  /** `isInt({ min })`. */
  predicate IntAtLeast(f: Field, min: int) {
    f.Given? && f.asInt.Some? && f.asInt.value >= min
  }

  /** `isIn(options)`. */
  predicate OneOf(f: Field, options: seq<string>) {
    f.Given? && f.text in options
  }

  // ---------------------------------------------------------------------------
  // UUIDs

  predicate HexDigit(c: char) {
    '0' <= c <= '9' || 'a' <= c <= 'f' || 'A' <= c <= 'F'
  }

  predicate AllHex(s: string) {
    forall i :: 0 <= i < |s| ==> HexDigit(s[i])
  }

  /** The positions of the four dashes of a UUID. */
  predicate DashAt(i: int) {
    i == 8 || i == 13 || i == 18 || i == 23
  }

  /** `isUUID()`: 36 characters, dashes at 8, 13, 18 and 23 and hexadecimal digits, in either case, elsewhere. */
  predicate IsUuid(s: string) {
    && |s| == 36
    && forall i :: 0 <= i < 36 ==> if DashAt(i) then s[i] == '-' else HexDigit(s[i])
  }

  /** Five groups of digits joined by dashes. */
  function JoinGroups(a: string, b: string, c: string, d: string, e: string): string {
    a + "-" + b + "-" + c + "-" + d + "-" + e
  }

  /** Hexadecimal groups of 8, 4, 4, 4 and 12 digits joined by dashes form a UUID. */
  lemma GroupsFormUuid(a: string, b: string, c: string, d: string, e: string)
    requires |a| == 8 && |b| == 4 && |c| == 4 && |d| == 4 && |e| == 12
    requires AllHex(a) && AllHex(b) && AllHex(c) && AllHex(d) && AllHex(e)
    ensures IsUuid(JoinGroups(a, b, c, d, e))
  {
    var s := JoinGroups(a, b, c, d, e);
    forall i | 0 <= i < 36
      ensures if DashAt(i) then s[i] == '-' else HexDigit(s[i])
    {
      if i < 8 { assert s[i] == a[i]; }
      else if 8 < i < 13 { assert s[i] == b[i - 9]; }
      else if 13 < i < 18 { assert s[i] == c[i - 14]; }
      else if 18 < i < 23 { assert s[i] == d[i - 19]; }
      else if 23 < i { assert s[i] == e[i - 24]; }
    }
  }

  /** Every UUID is such a join: the `8-4-4-4-12` shape. */
  lemma UuidHasGroups(s: string)
    requires IsUuid(s)
    ensures s == JoinGroups(s[..8], s[9..13], s[14..18], s[19..23], s[24..])
    ensures AllHex(s[..8]) && AllHex(s[9..13]) && AllHex(s[14..18]) && AllHex(s[19..23]) && AllHex(s[24..])
  {
    var t := JoinGroups(s[..8], s[9..13], s[14..18], s[19..23], s[24..]);
    assert |t| == 36;
    forall i | 0 <= i < 36
      ensures t[i] == s[i]
    {
      if i < 8 { assert t[i] == s[..8][i]; }
      else if 8 < i < 13 { assert t[i] == s[9..13][i - 9]; }
      else if 13 < i < 18 { assert t[i] == s[14..18][i - 14]; }
      else if 18 < i < 23 { assert t[i] == s[19..23][i - 19]; }
      else if 23 < i { assert t[i] == s[24..][i - 24]; }
    }
    assert AllHex(s[9..13]) by {
      forall i | 0 <= i < 4 ensures HexDigit(s[9..13][i]) { assert s[9..13][i] == s[9 + i]; }
    }
    assert AllHex(s[14..18]) by {
      forall i | 0 <= i < 4 ensures HexDigit(s[14..18][i]) { assert s[14..18][i] == s[14 + i]; }
    }
    assert AllHex(s[19..23]) by {
      forall i | 0 <= i < 4 ensures HexDigit(s[19..23][i]) { assert s[19..23][i] == s[19 + i]; }
    }
    assert AllHex(s[24..]) by {
      forall i | 0 <= i < 12 ensures HexDigit(s[24..][i]) { assert s[24..][i] == s[24 + i]; }
    }
  }

  // ---------------------------------------------------------------------------
  // The two rule sets

  datatype CreateBody = CreateBody(projectId: Field, amount: Field, interval: Field, customIntervalDays: Field)

  datatype UpdateBody = UpdateBody(amount: Field, interval: Field, customIntervalDays: Field)

  /** The rule for the optional day count, shared by both rule sets. */
  predicate DaysRule(f: Field) {
    f.Absent? || IntAtLeast(f, 1)
  }

  /**
    The fields of a create body that break their rule, in rule order; the
    request passes exactly when there are none.
  */
  function CreateErrors(b: CreateBody): (r: seq<string>)
    ensures "projectId" in r <==> !(b.projectId.Given? && IsUuid(b.projectId.text))
    ensures "amount" in r <==> !FloatAtLeast(b.amount, 100.0)
    ensures "interval" in r <==> !OneOf(b.interval, INTERVALS)
    ensures "customIntervalDays" in r <==> !DaysRule(b.customIntervalDays)
    ensures forall k :: 0 <= k < |r| ==> r[k] in ["projectId", "amount", "interval", "customIntervalDays"]
  {
    (if b.projectId.Given? && IsUuid(b.projectId.text) then [] else ["projectId"])
    + (if FloatAtLeast(b.amount, 100.0) then [] else ["amount"])
    + (if OneOf(b.interval, INTERVALS) then [] else ["interval"])
    + (if DaysRule(b.customIntervalDays) then [] else ["customIntervalDays"])
  }

  /** The update rules: every field optional, with the create bounds when present. */
  function UpdateErrors(b: UpdateBody): (r: seq<string>)
    ensures "amount" in r <==> !(b.amount.Absent? || FloatAtLeast(b.amount, 100.0))
    ensures "interval" in r <==> !(b.interval.Absent? || OneOf(b.interval, INTERVALS))
    ensures "customIntervalDays" in r <==> !DaysRule(b.customIntervalDays)
    ensures forall k :: 0 <= k < |r| ==> r[k] in ["amount", "interval", "customIntervalDays"]
  {
    (if b.amount.Absent? || FloatAtLeast(b.amount, 100.0) then [] else ["amount"])
    + (if b.interval.Absent? || OneOf(b.interval, INTERVALS) then [] else ["interval"])
    + (if DaysRule(b.customIntervalDays) then [] else ["customIntervalDays"])
  }

  /** A create body passes exactly when all four rules hold. */
  lemma CreatePassesIffRulesHold(b: CreateBody)
    ensures CreateErrors(b) == [] <==>
              && b.projectId.Given? && IsUuid(b.projectId.text)
              && FloatAtLeast(b.amount, 100.0)
              && OneOf(b.interval, INTERVALS)
              && DaysRule(b.customIntervalDays)
  {
    if CreateErrors(b) != [] {
      assert CreateErrors(b)[0] in CreateErrors(b);
    }
  }

  /** An empty update body passes; so does every create body's amount, interval and day count. */
  lemma UpdateRulesAreLooser(b: CreateBody)
    ensures UpdateErrors(UpdateBody(Absent, Absent, Absent)) == []
    ensures CreateErrors(b) == [] ==> UpdateErrors(UpdateBody(b.amount, b.interval, b.customIntervalDays)) == []
  {
    CreatePassesIffRulesHold(b);
  }

  /** A body that passes names one of the five intervals the rest of the system knows. */
  lemma PassedIntervalIsKnown(b: CreateBody)
    requires CreateErrors(b) == []
    ensures Helpers.ParseInterval(b.interval.text).Some?
  {
    CreatePassesIffRulesHold(b);
  }

  /**
    The day count is optional even for CUSTOM: such a body passes, and the
    subscription it creates is first due at the moment it is created.
  */
  lemma CustomWithoutDaysPasses(projectId: string, amount: Field, now: int)
    requires IsUuid(projectId) && FloatAtLeast(amount, 100.0)
    ensures CreateErrors(CreateBody(Given(projectId, None, None), amount, Given("CUSTOM", None, None), Absent)) == []
    ensures Helpers.CalculateNextPaymentDate("CUSTOM", None, now) == now
  {
    CreatePassesIffRulesHold(CreateBody(Given(projectId, None, None), amount, Given("CUSTOM", None, None), Absent));
  }
}

=== FILE: wrappers.dfy ===
/** Failure-carrying wrappers shared by every module of the model. */
module Wrappers {

  /** A value that may be missing: a JavaScript `null`/`undefined`, or a row a lookup did not find. */
  datatype Option<+T> = None | Some(value: T) {
    function GetOr(default: T): T {
      match this
      case Some(v) => v
      case None => default
    }
  }

  /** The outcome of an operation that either succeeds with a value or fails with an error. */
  datatype Result<+T, +E> = Ok(value: T) | Err(error: E)
}
